=== FILE: README.md ===
# svelte5-shadcn-admin: theme-preset generator and UI state, in Dafny

This project models the core of the admin dashboard's code base and proves properties of the model.

**The theme-preset build script.** `src/lib/themes/generate-presets.ts` reads the upstream catalogue of theme presets as text. From it the script:

- finds the preset keys with a multiline regular expression;
- cuts the text into one block per preset;
- extracts each block's `light: {…}` and `dark: {…}` style blocks by counting braces, and the `key: "value"` pairs inside them;
- completes each preset with the baseline palettes;
- keeps the allowed presets;
- writes a stylesheet and a metadata module.

The stylesheet has a light and a dark block per preset, with the 32 colour roles in fixed order and then the radius. The metadata module has a built-in `default` entry, then one entry per preset in the same order.

**The application's small state machines and string helpers:**

- the keyboard-shortcut registry and matcher;
- the cookie allow-list validation of the server layout load and the `COOKIE` configuration;
- the layout, theme, sidebar and search states;
- the URL filter-parameter update and list parsing;
- the cookie reads and writes behind the pane storage, against a model of the browser's cookie jar;
- the avatar file name.

**How the model is built:**

- One module per source file. The build script is split into several modules, one for each stage.
- Shared JavaScript primitives are in `Text`: `\s`, `toLowerCase`, `split`, `join`, `substring`, `String(n)` and `replace`.
- Insertion-ordered JavaScript objects are in `Records`. Assigning a present key keeps its place; assigning a new key appends it.
- Regular expressions are hand-written matchers at a position, plus the leftmost-first `exec` scan.
- The loops of the source are methods with loops. Each is proved equal to a function of its inputs, and the properties are lemmas about those functions.
- Objects whose fields the source updates are classes.

## Model

| member | source | states |
|---|---|---|
| Config.PageTitle | src/lib/config.ts:1-5 | the page title is the given title followed exactly by ` \| Vortex` |
| Config.DefaultsAreValid | src/lib/config.ts:21-37 | every cookie default (font, colour mode, theme preset, collapsible, variant, view) is in its allow-list |
| Config.ThemePresetsMatchGenerator | src/lib/config.ts:24 | the valid theme presets are `default` followed by exactly the build script's allow-list |
| LayoutServer.CookieValue | src/routes/+layout.server.ts:15-17 | `cookies.get` yields a value exactly for a set cookie, and that value is the cookie's |
| LayoutServer.Validated | src/routes/+layout.server.ts:5-11 | the value is kept when present and allowed; otherwise, including when absent, the fallback is returned |
| LayoutServer.ValidatedIsAllowed | src/routes/+layout.server.ts:5-11 | with an allowed fallback the result is always allowed |
| LayoutServer.ValidatedIdempotent | src/routes/+layout.server.ts:10 | validating a validated value again changes nothing |
| LayoutServer.Load | src/routes/+layout.server.ts:13-43 | `sidebarOpen` is false exactly when the cookie is `false`; every enum field lies in its allow-list; a valid font cookie is taken and a missing one gives the default |
| Layout.ValidListsMatchConfig | src/lib/contexts/layout.svelte.ts:14-15 | the class's valid lists equal the configuration's |
| Layout.LayoutState.constructor | src/lib/contexts/layout.svelte.ts:17-24 | an initial value in its valid list is kept, any other gives `icon` / `inset` |
| Layout.LayoutState.SetCollapsible | src/lib/contexts/layout.svelte.ts:26-29 | sets `collapsible` and leaves `variant` |
| Layout.LayoutState.SetVariant | src/lib/contexts/layout.svelte.ts:31-34 | sets `variant` and leaves `collapsible` |
| Layout.LayoutState.Reset | src/lib/contexts/layout.svelte.ts:36-39 | both fields return to their defaults `icon` and `inset` |
| Theme.ValidModesMatchConfig | src/lib/contexts/theme.svelte.ts:11 | the valid modes equal the configuration's colour modes |
| Theme.FontClass | src/lib/contexts/theme.svelte.ts:37 | there is no font class exactly for `system`, otherwise it is `font-` and the font |
| Theme.ThemeState.constructor | src/lib/contexts/theme.svelte.ts:29-38 | a known preset is kept (else `default`), an empty font gives `inter`, an invalid mode gives `system`, and the tracked font class agrees with the font |
| Theme.ThemeState.ResolvedMode | src/lib/contexts/theme.svelte.ts:22-27 | never `system`; the mode itself when it is not `system`, otherwise `dark` exactly when the system prefers dark |
| Theme.ThemeState.SetPreset | src/lib/contexts/theme.svelte.ts:40-48 | sets the preset; the root's `data-preset` is removed for `default` and is the name otherwise; classes, font and mode unchanged |
| Theme.ThemeState.SetFont | src/lib/contexts/theme.svelte.ts:50-64 | the root loses only the previously tracked font class and gains `font-<name>` unless `system`; every other class is untouched; the invariant is kept |
| Theme.ThemeState.SetMode | src/lib/contexts/theme.svelte.ts:66-69 | sets the mode, nothing else changes |
| Theme.ThemeState.Reset | src/lib/contexts/theme.svelte.ts:71-75 | preset `default` (attribute removed), font `inter` (class `font-inter` in place of the tracked one), mode `system` |
| Sidebar.SidebarState.constructor | src/lib/components/ui/sidebar/context.svelte.ts:15-27 | starts with the given `open` and device, `openMobile` false |
| Sidebar.SidebarState.State | src/lib/components/ui/sidebar/context.svelte.ts:21 | `expanded` exactly when open, `collapsed` exactly when not |
| Sidebar.SidebarState.SetOpen | src/lib/components/ui/sidebar/context.svelte.ts:12 | the owner's setter: sets `open` only |
| Sidebar.SidebarState.SetOpenMobile | src/lib/components/ui/sidebar/context.svelte.ts:41-43 | sets `openMobile` only |
| Sidebar.SidebarState.Toggle | src/lib/components/ui/sidebar/context.svelte.ts:45-47 | on mobile flips `openMobile` and leaves `open`; on desktop flips `open` and leaves `openMobile` |
| Sidebar.SidebarState.HandleShortcutKeydown | src/lib/components/ui/sidebar/context.svelte.ts:34-39 | prevents the default and toggles exactly for key `b` (case-sensitive) with Meta or Ctrl; otherwise nothing changes |
| Sidebar.ToggleTwiceOnMobile | src/lib/components/ui/sidebar/context.svelte.ts:46 | two toggles on mobile restore both flags |
| Search.SearchState.constructor | src/lib/contexts/search.svelte.ts:4 | the dialog starts closed |
| Search.SearchState.Toggle | src/lib/contexts/search.svelte.ts:6-8 | negates `open` |
| Search.SearchState.SetOpen | src/lib/contexts/search.svelte.ts:10-12 | sets `open` to the value |
| Search.ToggleTwice | src/lib/contexts/search.svelte.ts:6-8 | two toggles restore `open` |
| Shortcuts.Shortcut.constructor | src/lib/contexts/shortcuts.svelte.ts:4-11 | a shortcut object holds the given key, modifiers, label, action, scope and guard |
| Shortcuts.InputSuppressesPlainShortcuts | src/lib/contexts/shortcuts.svelte.ts:29-35 | a shortcut without modifiers never fires on an INPUT, TEXTAREA, SELECT or editable target |
| Shortcuts.KeyIsCaseInsensitive | src/lib/contexts/shortcuts.svelte.ts:38 | lower-casing the event's key does not change whether a shortcut fires |
| Shortcuts.CtrlAndMetaAreInterchangeable | src/lib/contexts/shortcuts.svelte.ts:46-51 | an event with Ctrl alone fires exactly the shortcuts the same event with Meta alone fires |
| Shortcuts.CtrlAndMetaRequirementsAgree | src/lib/contexts/shortcuts.svelte.ts:41-47 | requiring Ctrl and requiring Meta accept the same events |
| Shortcuts.PlainShortcutsIgnoreCmd | src/lib/contexts/shortcuts.svelte.ts:51 | a shortcut needing neither Ctrl nor Meta never fires while either is held |
| Shortcuts.ShiftAndAltAreExact | src/lib/contexts/shortcuts.svelte.ts:52-53 | a firing shortcut's Shift and Alt requirements equal the event's |
| Shortcuts.Without | src/lib/contexts/shortcuts.svelte.ts:22-23 | the filter keeps exactly the shortcut objects not removed, each from the list |
| Shortcuts.WithoutConcat | src/lib/contexts/shortcuts.svelte.ts:23 | filtering a concatenation filters each part, in order |
| Shortcuts.WithoutNothing | src/lib/contexts/shortcuts.svelte.ts:23 | a list with none of the removed objects is unchanged |
| Shortcuts.WithoutEverything | src/lib/contexts/shortcuts.svelte.ts:23 | a list of removed objects becomes empty |
| Shortcuts.UnregisterUndoesRegister | src/lib/contexts/shortcuts.svelte.ts:19-24 | unregistering right after a registration of fresh objects gives back the earlier list |
| Shortcuts.ShortcutRegistry.constructor | src/lib/contexts/shortcuts.svelte.ts:16-17 | no shortcuts, help closed |
| Shortcuts.ShortcutRegistry.Register | src/lib/contexts/shortcuts.svelte.ts:19-20 | the new shortcuts go after the existing ones; the handle removes exactly the objects passed |
| Shortcuts.ShortcutRegistry.Unregister | src/lib/contexts/shortcuts.svelte.ts:21-24 | removes exactly the handle's objects, keeping the rest in order |
| Shortcuts.ShortcutRegistry.HandleKeydown | src/lib/contexts/shortcuts.svelte.ts:27-62 | fires the first shortcut in registration order that matches and whose guard holds; the default is prevented exactly then; none fires when none matches |
| UrlFilterSync.Applied | src/lib/hooks/url-filter-sync.svelte.ts:25-33 | definition of the entries applied in order; characterised by `AppliedKeepsOthers` and `AppliedEntry`, and the method `FilterSync.Update` is proved equal to it |
| UrlFilterSync.AppliedKeepsOthers | src/lib/hooks/url-filter-sync.svelte.ts:25-33 | a key no entry names keeps its presence and value |
| UrlFilterSync.AppliedEntry | src/lib/hooks/url-filter-sync.svelte.ts:26-31 | an entry with null or `''` deletes its key, any other sets it to the value |
| UrlFilterSync.FilterSync.constructor | src/lib/hooks/url-filter-sync.svelte.ts:13 | the parameters start as the page's |
| UrlFilterSync.FilterSync.Update | src/lib/hooks/url-filter-sync.svelte.ts:24-33 | the loop over the entries leaves the parameters as the entries applied in order |
| UrlFilterSync.FilterSync.GetList | src/lib/hooks/url-filter-sync.svelte.ts:49-52 | empty exactly for a missing or empty parameter; otherwise one more piece than commas, comma-free pieces, and joining them gives the value back |
| UrlFilterSync.GetListOfJoined | src/lib/hooks/url-filter-sync.svelte.ts:51 | a stored comma-join of comma-free items reads back as those items |
| CookiePaneStorage.CookieDocument.constructor | src/lib/utils/cookie-pane-storage.ts:4-13 | a document holding the given cookie jar |
| CookiePaneStorage.StoreCookie | src/lib/utils/cookie-pane-storage.ts:17 | definition of assigning a line to `document.cookie`; characterised by `StoreKeepsWellFormed`, `StoreCookieLine` and `JarReadAfterWrite` |
| CookiePaneStorage.StoreKeepsWellFormed | src/lib/utils/cookie-pane-storage.ts:17 | assigning any line to `document.cookie` keeps the jar's names distinct, non-empty and free of `=` and `;`, and its values free of `;` |
| CookiePaneStorage.PutKeepsWellFormed | src/lib/utils/cookie-pane-storage.ts:17 | setting a valid cookie name to a `;`-free value keeps the jar well-formed |
| CookiePaneStorage.FirstWithPrefix | src/lib/utils/cookie-pane-storage.ts:7-11 | the first part with the prefix, no earlier one having it; nothing when none does |
| CookiePaneStorage.ReadCookie | src/lib/utils/cookie-pane-storage.ts:6-12 | no cookie exactly when no `; `-separated part starts with `name=`; otherwise the decoded rest of the first such part, or the `URIError` when decoding fails |
| CookiePaneStorage.OtherCookieNotMatched | src/lib/utils/cookie-pane-storage.ts:6-8 | the part of another cookie name never starts with `name=` |
| CookiePaneStorage.CookieReadsJar | src/lib/utils/cookie-pane-storage.ts:6-12 | searching `document.cookie` finds exactly the jar's cookie of that name: nothing when the jar has none, its decoded value or the `URIError` otherwise |
| CookiePaneStorage.GetCookie | src/lib/utils/cookie-pane-storage.ts:4-13 | without a document no cookie; otherwise the jar's cookie of that name, decoded, the `URIError` when decoding fails, and no cookie when there is none |
| CookiePaneStorage.AttributesText | src/lib/utils/cookie-pane-storage.ts:17 | the attributes are `;path=/;max-age=31536000;samesite=lax` |
| CookiePaneStorage.CookieLine | src/lib/utils/cookie-pane-storage.ts:17 | the written line starts with `name=enc(value)`, and for a `;`-free name and encoding its first `;` is the one ending that pair |
| CookiePaneStorage.StoreCookieLine | src/lib/utils/cookie-pane-storage.ts:15-18 | storing that line sets cookie `name` to the encoded value, a stored cookie keeping its place |
| CookiePaneStorage.SetCookie | src/lib/utils/cookie-pane-storage.ts:15-18 | with a document the jar stores the written line and stays well-formed; without one nothing happens |
| CookiePaneStorage.ReadAfterWrite | src/lib/utils/cookie-pane-storage.ts:4-18 | after a write, reading `document.cookie` gives the decoded encoding for that name and the earlier result for every other name |
| CookiePaneStorage.JarReadAfterWrite | src/lib/utils/cookie-pane-storage.ts:15-18 | after a write the jar holds the encoded value under that name and nothing else changes |
| CookiePaneStorage.PaneCookieName | src/lib/utils/cookie-pane-storage.ts:22-25 | `pane:` + name is a cookie name when the name has no `=` or `;` |
| CookiePaneStorage.GetItem | src/lib/utils/cookie-pane-storage.ts:21-23 | reads the cookie `pane:` + name: the jar's cookie of that name, decoded |
| CookiePaneStorage.SetItem | src/lib/utils/cookie-pane-storage.ts:24-26 | stores the line for cookie `pane:` + name and keeps the jar well-formed |
| CookiePaneStorage.ItemReadAfterWrite | src/lib/utils/cookie-pane-storage.ts:21-26 | a value written with `setItem` reads back with `getItem` when decoding undoes encoding; other pane layouts read as before |
| CookiePaneStorage.ItemLineMatchesItemLookup | src/lib/utils/cookie-pane-storage.ts:21-26 | the line `setItem` writes starts with the prefix `getItem` looks for |
| Avatar.SkipSpaces | src/lib/utils/avatar.ts:2 | drops exactly the leading run of white space |
| Avatar.CollapseSpaces | src/lib/utils/avatar.ts:2 | definition of `replace(/\s+/g, '-')`; characterised by `CollapseSpacesClean`, `CollapseWithoutSpaces`, `CollapseConcat` and `CollapseRun` |
| Avatar.CollapseSpacesClean | src/lib/utils/avatar.ts:2 | the result has no white space, and no upper-case letter when the input has none |
| Avatar.CollapseWithoutSpaces | src/lib/utils/avatar.ts:2 | text without white space is unchanged |
| Avatar.CollapseConcat | src/lib/utils/avatar.ts:2 | the replacement distributes over a split point that is not inside a run |
| Avatar.CollapseRun | src/lib/utils/avatar.ts:2 | each maximal run of white space becomes a single `-` |
| Avatar.Filename | src/lib/utils/avatar.ts:2 | the file name has no white space and no upper-case letter |
| Avatar.PlainSeedUnchanged | src/lib/utils/avatar.ts:2-3 | a lower-case seed without white space is its own file name |
| Avatar.FilenameIdempotent | src/lib/utils/avatar.ts:2 | normalising a file name again changes nothing |
| Avatar.GetAvatarUrl | src/lib/utils/avatar.ts:1-4 | starts with `/avatars/`, ends with `.svg`, and the file name lies between |
| Text.LowerChar | src/lib/utils/avatar.ts:2 | the result is no upper-case letter, other characters are unchanged, white space is preserved |
| Text.Lower | src/lib/utils/avatar.ts:2 | same length, lowered character by character |
| Text.LowerIdempotent | src/lib/contexts/shortcuts.svelte.ts:38 | lowering twice is lowering once |
| Text.Split | src/lib/hooks/url-filter-sync.svelte.ts:51 | at least one piece, none containing the separator |
| Text.JoinSplit | src/lib/hooks/url-filter-sync.svelte.ts:51 | joining the pieces of a split with its separator gives the text back |
| Text.SplitJoin | src/lib/utils/cookie-pane-storage.ts:7 | splitting a join of separator-free pieces gives the pieces back |
| Text.SplitCount | src/lib/hooks/url-filter-sync.svelte.ts:51 | a split on one character has one more piece than occurrences of it |
| Text.Substring | src/lib/themes/generate-presets.ts:196 | both ends clamped and ordered; never longer than the text |
| Text.SubstringInRange | src/lib/themes/generate-presets.ts:231 | ordered ends inside the text give the slice between them |
| Text.SubstringSwapped | src/lib/themes/generate-presets.ts:196 | reversed ends give the slice between them |
| Text.NatToString | src/lib/utils/cookie-pane-storage.ts:17 | decimal digits, a leading `0` exactly for zero |
| Text.IntToString | src/lib/themes/generate-presets.ts:150 | non-empty, a leading `-` exactly for negatives |
| Text.EscapeApostrophes | src/lib/themes/generate-presets.ts:363 | one character longer per apostrophe |
| Text.EscapedApostrophesArePreceded | src/lib/themes/generate-presets.ts:363 | every apostrophe of the escaped text is preceded by a backslash |
| Text.UnescapeEscape | src/lib/themes/generate-presets.ts:363 | removing the escapes gives back a label without backslashes |
| Records.Get | src/lib/themes/generate-presets.ts:395 | nothing exactly for a missing key; a found value is an entry's |
| Records.Put | src/lib/themes/generate-presets.ts:240 | a present key keeps the key order, a new key is appended |
| Records.GetPut | src/lib/themes/generate-presets.ts:240 | after assigning, the key reads the new value and every other key as before |
| Records.PutKeepsDistinct | src/lib/themes/generate-presets.ts:240 | assignment keeps keys distinct |
| Records.GetUnique | src/lib/themes/generate-presets.ts:240 | in a record with distinct keys, each key reads its own value |
| Records.PutNew | src/lib/themes/generate-presets.ts:395 | assigning a new key appends one entry |
| StyleBlock.DepthStep | src/lib/themes/generate-presets.ts:191-192 | every `{` raises the depth by one and every `}` lowers it by one, quoted or not |
| StyleBlock.ClosingFrom | src/lib/themes/generate-presets.ts:190-194 | the scan stops at the end of the text or where the depth first returns to 0 |
| StyleBlock.DepthNonNegative | src/lib/themes/generate-presets.ts:190-194 | the depth never becomes negative while scanning |
| StyleBlock.ClosingEnd | src/lib/themes/generate-presets.ts:186-194 | the stop position: depth positive before it, zero at it or the end of the text |
| StyleBlock.ClosingEndUnique | src/lib/themes/generate-presets.ts:190 | any position meeting both conditions is the stop position |
| StyleBlock.ContentOfClosedBlock | src/lib/themes/generate-presets.ts:186-196 | a closed block's content runs up to the matching `}`, is brace-balanced and no prefix of it closes more than it opens |
| StyleBlock.ContentOfUnclosedBlock | src/lib/themes/generate-presets.ts:190-196 | an unclosed block's scan reaches the end, and the content drops the last character |
| StyleBlock.AssignUntouched | src/lib/themes/generate-presets.ts:202-204 | a key no pair assigns is unchanged |
| StyleBlock.AssignLastWins | src/lib/themes/generate-presets.ts:203 | a repeated key keeps its last value |
| StyleBlock.AssignKeys | src/lib/themes/generate-presets.ts:202-204 | the keys are exactly those present before or found |
| StyleBlock.EntryGroups | src/lib/themes/generate-presets.ts:199 | a pair's key matches `[a-z][a-z0-9-]*` and its value is non-empty and quote-free |
| StyleBlock.AssignWellFormed | src/lib/themes/generate-presets.ts:202-204 | assigning matched pairs keeps every key and value well-formed |
| StyleBlock.EntriesWellFormed | src/lib/themes/generate-presets.ts:198-204 | the collected styles are well-formed |
| StyleBlock.ExtractedStyles | src/lib/themes/generate-presets.ts:181-207 | definition of `extractStyleBlock`; characterised by `ExtractedStylesFound` and `ContentOfClosedBlock`, and the method `ExtractStyleBlock` is proved equal to it |
| StyleBlock.ExtractedStylesFound | src/lib/themes/generate-presets.ts:181-207 | styles are found exactly when the opener occurs and its content holds a pair; found styles are non-empty and well-formed |
| StyleBlock.ScanToClosingBrace | src/lib/themes/generate-presets.ts:186-194 | the brace-counting loop stops at the stop position |
| StyleBlock.CollectEntries | src/lib/themes/generate-presets.ts:198-204 | the global-search loop collects the pairs in order |
| StyleBlock.ExtractStyleBlock | src/lib/themes/generate-presets.ts:181-207 | `extractStyleBlock`: nothing without the opener; otherwise the pairs of the content, or nothing when there are none |
| Patterns.RunEnd | src/lib/themes/generate-presets.ts:199 | the greedy run: all in the class, stopped by the end or a character outside it |
| Patterns.RunEndIs | src/lib/themes/generate-presets.ts:199 | any run stopped that way is the greedy run |
| Patterns.ModeOpenAt | src/lib/themes/generate-presets.ts:182 | a match starts at the position and ends inside the text |
| Patterns.ModeOpenSound | src/lib/themes/generate-presets.ts:182 | a match is the mode name, `:`, white space and `{` |
| Patterns.ModeOpenComplete | src/lib/themes/generate-presets.ts:182 | text of that shape is matched |
| Patterns.StyleKeyAt | src/lib/themes/generate-presets.ts:199 | the key part's spans lie in order inside the text |
| Patterns.StyleValueAt | src/lib/themes/generate-presets.ts:199 | the colon and quotes lie in order inside the text |
| Patterns.StyleEntryAt | src/lib/themes/generate-presets.ts:199 | a pair match starts at the position and ends inside the text |
| Patterns.StyleEntrySound | src/lib/themes/generate-presets.ts:199 | a pair match has the expression's shape, its groups are the key and the value |
| Patterns.StyleEntryComplete | src/lib/themes/generate-presets.ts:199 | text of the expression's shape is matched with the groups the shape gives |
| Patterns.StyleKeyComplete | src/lib/themes/generate-presets.ts:199 | the key part of that shape is found |
| Patterns.StyleValueComplete | src/lib/themes/generate-presets.ts:199 | the value part of that shape is found |
| Patterns.PresetNameAt | src/lib/themes/generate-presets.ts:214 | the name part's spans lie in order inside the text |
| Patterns.PresetKeyAt | src/lib/themes/generate-presets.ts:214 | a key match starts at the position and ends inside the text |
| Patterns.PresetKeySound | src/lib/themes/generate-presets.ts:214 | a key match is a line start, two white-space characters, a quoted or bare name, `:`, white space and `{` |
| Patterns.PresetKeyComplete | src/lib/themes/generate-presets.ts:214 | text of that shape is matched, with its name as the group |
| Patterns.PresetNameComplete | src/lib/themes/generate-presets.ts:214 | the name part of that shape is found |
| Patterns.LabelAt | src/lib/themes/generate-presets.ts:233 | a label match starts at the position and ends inside the text |
| Patterns.LabelSound | src/lib/themes/generate-presets.ts:233 | a label match is `label:`, white space and a non-empty double-quoted text, the group |
| Patterns.LabelComplete | src/lib/themes/generate-presets.ts:233 | text of that shape is matched with the quoted text as group |
| Patterns.MatchAt | src/lib/themes/generate-presets.ts:183 | a match of any of the expressions starts at the position and ends inside the text |
| Patterns.FirstMatch | src/lib/themes/generate-presets.ts:183 | `exec` from an index finds a match at or after it |
| Patterns.FirstMatchIsLeftmost | src/lib/themes/generate-presets.ts:183 | the match found is the expression's match at its start, and no earlier position matches |
| Patterns.AllMatches | src/lib/themes/generate-presets.ts:221 | the matches of a `/g` loop lie inside the text and do not overlap, in order |
| Patterns.AllMatchesStep | src/lib/themes/generate-presets.ts:202 | a `/g` loop is the first match followed by the loop from its end |
| Patterns.AllMatchesAreMatches | src/lib/themes/generate-presets.ts:221 | every visited match is the expression's match at its start |
| Patterns.AllMatchesCover | src/lib/themes/generate-presets.ts:221 | a match at any position is visited, or overlapped by a visited match |
| PresetParse.PositionsOfMatches | src/lib/themes/generate-presets.ts:221-226 | a key match gives a position unless its name is `styles`, `light` or `dark` |
| PresetParse.PositionsInRange | src/lib/themes/generate-presets.ts:224 | positions start where their matches do |
| PresetParse.PositionsNamed | src/lib/themes/generate-presets.ts:222-224 | position names have the key form and are never nested keys |
| PresetParse.PositionsIncrease | src/lib/themes/generate-presets.ts:221-226 | positions strictly increase |
| PresetParse.PresetKeyGroup | src/lib/themes/generate-presets.ts:214 | a matched preset name has the key form |
| PresetParse.PresetPositionsOrdered | src/lib/themes/generate-presets.ts:214-226 | preset keys lie inside the text in increasing order, with key-form names that are never `styles`, `light` or `dark` |
| PresetParse.BlocksTile | src/lib/themes/generate-presets.ts:228-231 | the blocks from one key on, concatenated, are the text from that key to the end: contiguous, no overlap |
| PresetParse.PresetBlocksCoverText | src/lib/themes/generate-presets.ts:228-231 | the blocks cover the text from the first key to its end |
| PresetParse.LabelGroup | src/lib/themes/generate-presets.ts:233 | a found label is non-empty and has no double quote |
| PresetParse.Items | src/lib/themes/generate-presets.ts:228-237 | one item per key: its name and what its block yields |
| PresetParse.LastDefFound | src/lib/themes/generate-presets.ts:239-240 | a definition is found exactly when some item of that name yields one |
| PresetParse.LastDefIsLast | src/lib/themes/generate-presets.ts:240 | the definition found is an item's, with no later item of that name yielding one |
| PresetParse.LastDefAt | src/lib/themes/generate-presets.ts:240 | the last item of that name yielding a definition is the one found |
| PresetParse.CollectGet | src/lib/themes/generate-presets.ts:239-247 | reading a name from the collected record gives the last definition assigned under it |
| PresetParse.PresetOf | src/lib/themes/generate-presets.ts:233-247 | definition of what one block yields; characterised by `PresetOfWellFormed`, and the method `ReadBlock` is proved equal to it |
| PresetParse.PresetOfWellFormed | src/lib/themes/generate-presets.ts:233-247 | a yielded preset has a non-empty, quote-free label, non-empty well-formed light styles, and well-formed dark styles when present |
| PresetParse.LabelOf | src/lib/themes/generate-presets.ts:233-234 | definition of the label or the name; characterised by `LabelOfWellFormed` and `LabelGroup` |
| PresetParse.LabelOfWellFormed | src/lib/themes/generate-presets.ts:233-234 | the label, found or the name, is non-empty and quote-free |
| PresetParse.PutWellFormed | src/lib/themes/generate-presets.ts:240-246 | assigning a well-formed preset under a valid name keeps the record well-formed |
| PresetParse.CollectWellFormed | src/lib/themes/generate-presets.ts:228-248 | collecting well-formed items gives a well-formed record |
| PresetParse.ParsePresetsWellFormed | src/lib/themes/generate-presets.ts:209-251 | no preset is named `styles`, `light` or `dark`, names are distinct, and every preset is well-formed |
| PresetParse.CollectPositions | src/lib/themes/generate-presets.ts:221-226 | the first loop collects exactly the preset positions |
| PresetParse.PositionsStep | src/lib/themes/generate-presets.ts:221-226 | one loop step: the first key found, unless nested, then those after it |
| PresetParse.ParsePresetsFromSource | src/lib/themes/generate-presets.ts:209-251 | `parsePresetsFromSource` computes the parsed record |
| PresetParse.AssignBlock | src/lib/themes/generate-presets.ts:229-247 | one iteration assigns the block's preset when it has one and leaves the record otherwise |
| PresetParse.ReadBlock | src/lib/themes/generate-presets.ts:233-247 | reads a block's label and styles into what the block yields |
| PresetParse.CollectStep | src/lib/themes/generate-presets.ts:239-247 | one more item assigns its preset when it yields one |
| PresetParse.ParsePresets | src/lib/themes/generate-presets.ts:209-251 | definition of `parsePresetsFromSource`; characterised by `ParsedLookup` and `ParsePresetsWellFormed`, and the two loops are proved equal to it by `ParsePresetsFromSource` |
| PresetParse.ParsedLookup | src/lib/themes/generate-presets.ts:209-251 | a name is parsed exactly when a key of that name starts a block with light styles; the entry is what the last such block yields |
| PresetDefaults.ToStylesHasKey | src/lib/themes/generate-presets.ts:31-65 | every written property is in the palette |
| PresetDefaults.ToStylesOnlyKeys | src/lib/themes/generate-presets.ts:31-65 | no property nobody writes is in the palette |
| PresetDefaults.ToStylesLastValue | src/lib/themes/generate-presets.ts:67-101 | a property takes its last written value |
| PresetDefaults.ToStylesNonEmpty | src/lib/themes/generate-presets.ts:31-65 | non-empty written values give non-empty palette values |
| PresetDefaults.LightEntryNames | src/lib/themes/generate-presets.ts:31-65 | the light palette writes the 32 colour roles in order, `radius` after `chart-5` |
| PresetDefaults.DefaultLightIsTotal | src/lib/themes/generate-presets.ts:31-65 | the light defaults define every colour role and the radius, all non-empty |
| PresetDefaults.RadiusEntries | src/lib/themes/generate-presets.ts:56 | the radius is `0.625rem`, written once and not overridden in dark |
| PresetDefaults.DefaultDarkIsTotal | src/lib/themes/generate-presets.ts:67-101 | the dark defaults define every colour role and the radius, all non-empty, with the light radius |
| PresetDefaults.EntryColorEntries | src/lib/themes/generate-presets.ts:38-40 | where `primary`, `primary-foreground` and `secondary` are written, and that nothing overrides them |
| PresetDefaults.DefaultEntryColors | src/lib/themes/generate-presets.ts:350-352 | the built-in entry's colours are the light defaults' |
| PresetDefaults.PropNamesHaveNoNewline | src/lib/themes/generate-presets.ts:107-142 | no property name has a line break |
| PresetColor.FormatNum | src/lib/themes/generate-presets.ts:148-151 | missing or NaN prints `0`; a well-formed number prints non-empty text without white space |
| PresetColor.ToOklch | src/lib/themes/generate-presets.ts:153-163 | an `oklch(` value passes through; the result is the value or an `oklch(` text |
| PresetColor.ToOklchConverts | src/lib/themes/generate-presets.ts:154-162 | an unparsable value is kept, a parsable one replaced by its conversion |
| PresetColor.ToOklchIdempotent | src/lib/themes/generate-presets.ts:154 | converting twice is converting once |
| PresetColor.OklchText | src/lib/themes/generate-presets.ts:162 | definition of `oklch(L C H)`; characterised by `OklchTextChannels` and `OklchTextNoNewline` |
| PresetColor.OklchTextChannels | src/lib/themes/generate-presets.ts:162 | the converted text is `oklch(`, the three channels split by spaces, and `)` |
| PresetColor.OklchTextNoNewline | src/lib/themes/generate-presets.ts:162 | the converted text has no line break |
| PresetMerge.MergeWithDefaults | src/lib/themes/generate-presets.ts:257-272 | definition of `mergePresetWithDefaults`; characterised by `MergedValues`, `MergedIsTotal` and `DarkInheritsLight` |
| PresetMerge.MergedValues | src/lib/themes/generate-presets.ts:257-272 | light: defaults overridden by the preset's light; dark: dark defaults, then light, then dark, property by property |
| PresetMerge.MergedIsTotal | src/lib/themes/generate-presets.ts:257-272 | both merged palettes define every colour role and the radius, with non-empty values when the preset's are |
| PresetMerge.DarkInheritsLight | src/lib/themes/generate-presets.ts:266-270 | a property set only in light has the same value in dark |
| PresetMerge.UnsetPropertyKeepsDefault | src/lib/themes/generate-presets.ts:261-271 | a property the preset does not set keeps its default in each mode |
| PresetMerge.EmptyPresetIsDefault | src/lib/themes/generate-presets.ts:262-270 | a preset that sets nothing yields the default palettes |
| PresetCss.GenerateCssBlock | src/lib/themes/generate-presets.ts:278-298 | the two loops and the join compute the block text |
| PresetCss.Declaration | src/lib/themes/generate-presets.ts:285 | definition of one `  --prop: value;` line; characterised by `DeclsOfDefined` and `DeclsNoNewline` |
| PresetCss.DeclsOfDefined | src/lib/themes/generate-presets.ts:282-294 | with all properties defined, one declaration per property, in order, with the printed value |
| PresetCss.DeclsCount | src/lib/themes/generate-presets.ts:282-294 | at most one line per property; none when none is defined |
| PresetCss.CssBlock | src/lib/themes/generate-presets.ts:278-298 | definition of `generateCssBlock`; characterised by `CssLinesOfComplete` and `CssBlockSplits`, and the method `GenerateCssBlock` is proved equal to it |
| PresetCss.CssLinesOfComplete | src/lib/themes/generate-presets.ts:278-298 | a complete block is `selector {`, the 32 colour roles converted in order, the radius verbatim, and `}` |
| PresetCss.ToOklchNoNewline | src/lib/themes/generate-presets.ts:153-163 | conversion introduces no line break |
| PresetCss.DeclsNoNewline | src/lib/themes/generate-presets.ts:282-294 | no declaration has a line break |
| PresetCss.CssBlockSplits | src/lib/themes/generate-presets.ts:297 | splitting a block text on line breaks gives its lines back |
| PresetCss.PresetsCss | src/lib/themes/generate-presets.ts:300-325 | definition of `generatePresetsCSS`; characterised by `ChunksAt` and `PresetBlocksComplete`, and the method `GeneratePresetsCss` is proved equal to it |
| PresetCss.GeneratePresetsCss | src/lib/themes/generate-presets.ts:300-325 | `generatePresetsCSS` computes the stylesheet |
| PresetCss.CollectChunks | src/lib/themes/generate-presets.ts:301-322 | the header then four chunks per preset, in the record's order |
| PresetCss.AllChunksStep | src/lib/themes/generate-presets.ts:310-322 | one more preset appends its four chunks |
| PresetCss.PushPresetBlocks | src/lib/themes/generate-presets.ts:311-319 | the light block under `:root[data-preset="n"]`, a blank, the dark block under `.dark[data-preset="n"]`, a blank |
| PresetCss.AllChunksLayout | src/lib/themes/generate-presets.ts:310-322 | four chunks per preset, the `i`-th four being preset `i`'s |
| PresetCss.ChunksAt | src/lib/themes/generate-presets.ts:310-322 | the `i`-th group of four chunks is preset `i`'s |
| PresetCss.PresetBlocksComplete | src/lib/themes/generate-presets.ts:311-318 | both blocks of every preset declare every colour role and the radius |
| PresetData.PresetDataText | src/lib/themes/generate-presets.ts:331-374 | definition of `generatePresetDataTS`; characterised by `DataLayout` and `EntryAt`, and the method `GeneratePresetDataTs` is proved equal to it |
| PresetData.GeneratePresetDataTs | src/lib/themes/generate-presets.ts:331-374 | `generatePresetDataTS` computes the module text: header, the default entry, one entry per preset, footer |
| PresetData.PushPresetEntry | src/lib/themes/generate-presets.ts:355-367 | one iteration appends the preset's seven lines |
| PresetData.EntryColorDefined | src/lib/themes/generate-presets.ts:356-359 | the three colours an entry reads exist in every merged light palette |
| PresetData.DataLayout | src/lib/themes/generate-presets.ts:355-368 | seven lines per preset, the `i`-th seven being preset `i`'s |
| PresetData.EntryAt | src/lib/themes/generate-presets.ts:355-368 | the `i`-th group of seven lines is preset `i`'s entry |
| PresetData.DisplayName | src/lib/themes/generate-presets.ts:363 | definition of `preset.label || name`; characterised by `EntryLabelReadsBack` |
| PresetData.PresetEntry | src/lib/themes/generate-presets.ts:355-368 | definition of one preset's seven entry lines; characterised by `EntryAt`, `EntryLabelReadsBack` and `EntryColors` |
| PresetData.EntryLabelReadsBack | src/lib/themes/generate-presets.ts:363 | the label field escapes every apostrophe, and for a label without backslashes unescaping gives the label or name back |
| PresetData.EntryColor | src/lib/themes/generate-presets.ts:356-359 | definition of a converted merged light colour; characterised by `EntryColors` and `EntryColorDefined` |
| PresetData.EntryColors | src/lib/themes/generate-presets.ts:357-359 | an entry's colour is converted or kept, and a colour the preset leaves out is the converted default |
| Generator.Filtered | src/lib/themes/generate-presets.ts:390-396 | definition of the filtered record; characterised by `FilteredGet`, `FilteredKeys` and `FilteredIsKeepAllowed`, and the method `FilterAllowed` is proved equal to it |
| Generator.FilterAllowed | src/lib/themes/generate-presets.ts:390-396 | the filter loop assigns each allowed entry in order |
| Generator.FilteredStep | src/lib/themes/generate-presets.ts:392-396 | one step assigns the entry when its name is allowed |
| Generator.FilteredGet | src/lib/themes/generate-presets.ts:390-396 | with distinct names, an allowed name reads its parsed preset and any other reads nothing |
| Generator.FilteredKeys | src/lib/themes/generate-presets.ts:390-396 | the kept names are exactly the allowed parsed names |
| Generator.FilteredIsKeepAllowed | src/lib/themes/generate-presets.ts:390-396 | with distinct names the loop is the plain order-preserving filter |
| Generator.FilteredWellFormed | src/lib/themes/generate-presets.ts:390-396 | filtering keeps the record well-formed |
| Generator.FilteredSize | src/lib/themes/generate-presets.ts:25 | at most the three allowed presets are kept |
| Generator.GeneratedPresetsSelectable | src/lib/themes/generate-presets.ts:393 | every generated preset is a valid theme-preset cookie value and none is named `default` |
| Generator.Outputs | src/lib/themes/generate-presets.ts:380-412 | definition of both output texts of `main`; characterised by `OutputsAgree` and `GeneratedPresetsSelectable`, and the method `Generate` is proved equal to it |
| Generator.Generate | src/lib/themes/generate-presets.ts:380-414 | `main` without I/O: parse, filter, then both outputs from the same kept record |
| Generator.OutputsAgree | src/lib/themes/generate-presets.ts:300-374 | the `i`-th chunk group of the stylesheet and the `i`-th entry of the metadata are of the same kept preset |

## Left out

- `culori` parsing and OkLCH conversion are a parameter `convert`. It returns nothing where `culori.parse` fails. The floating-point channels are the abstract `Num`. `toFixed(4)` is given as its text, and `String(n)` is modelled for integers only (no exponent notation).
- PresetColor.FormatNum: `num % 1 === 0` is represented by the `Whole` and `Fraction` cases of `Num` rather than computed on a float.
- File reading and writing, path resolution and every `console` message of the build script are not modelled. `Generator.Generate` takes the source text and returns both output texts.
- The `document.cookie` writes of the layout and theme setters are not modelled.
- CookiePaneStorage.SetCookie: the browser's cookie jar is the part of RFC 6265 this code relies on. Assigning a line stores the pair before its first `;` (sections 5.2 and 5.3). Reading lists the cookies oldest first (section 5.4). The attributes are not interpreted: paths, domains, expiry, `SameSite` and the leading and trailing white space that section 5.2 trims are not modelled, and a line is stored as if its attributes keep the cookie, as the one-year lifetime does.
- `typeof document === 'undefined'` is a null document.
- `encodeURIComponent` and `decodeURIComponent` are parameters. `decode` returns nothing where `decodeURIComponent` throws a `URIError`, and `getCookie`'s result represents that throw as `UriError`. Read-after-write lemmas take as hypotheses the two facts the real functions provide: the encoding holds no `;`, and decoding undoes encoding.
- Text.Lower, Text.LowerChar: `toLowerCase` is modelled for ASCII letters only. Other characters are unchanged, whereas JavaScript also maps non-ASCII letters.
- Sidebar.SidebarState.SetOpen: `open` is read through the provider's getter and written through its `setOpen` callback (src/lib/components/ui/sidebar/context.svelte.ts:9-24,46). The model holds that getter and setter pair as a field, which `SetOpen` assigns. A provider whose setter does not change what its getter returns is not modelled.
- Strings are sequences of Unicode scalar values, whereas JavaScript's `length`, `substring` and `split` count UTF-16 code units. No output of this model depends on the difference: the only character dropped is an unclosed block's last one, and no pair can match across it.
- `MediaQuery` and `IsMobile` are an input (`systemDark`) and a field (`isMobile`).
- Svelte reactivity (`$state`, `$derived`, `untrack`, contexts) is left out. Derived values are functions of the fields.
- The `SvelteURL` mirror, `routerReady` and `replaceState` in `update` (src/lib/hooks/url-filter-sync.svelte.ts:34-44) are not modelled. `SvelteURLSearchParams` is a map, so parameter order and repeated keys are not represented.
- A shortcut's `action` is an identifier, and its `enabled` guard is an identifier answered by a `guard` function. Running the action and `preventDefault` are the handler's results. `helpOpen` is only initialised.
- The root element's class list is a set, so order and duplicate classes are not represented.
- Theme.ThemeState.SetFont: always adds `font-<name>`. `classList.add` throws an `InvalidCharacterError` for a token holding white space (src/lib/contexts/theme.svelte.ts:58-60). For such a name the source has by then set `font`, removed the old class and cleared the tracked class, and it stops there without writing the cookie. That half-finished update is not modelled.
- Shortcuts.ShortcutRegistry.Register: the handle keeps the registered objects as they were when `register` ran. The source's closure builds its set from the caller's array when it runs (src/lib/contexts/shortcuts.svelte.ts:21-23). A caller that changes that array in between would have other objects removed, and this aliasing is not modelled.
- Only the four regular expressions the script uses are modelled, as hand-written matchers. The matchers are deterministic because each greedy class is disjoint from the literal that follows it.
- Style maps are Dafny maps. Their insertion order never reaches the output, which lists properties in the order of `COLOR_PROPS`.
- JavaScript objects with preset names as keys are insertion-ordered records. Preset names start with a letter, so integer-like keys, which JavaScript orders first, cannot occur.
- Several consecutive `push` calls in the generators are one append of the same lines.
- PresetData.EntryColor: the empty fallback for a missing colour is never taken, because every merged light palette defines the three colours (`EntryColorDefined`).
- LayoutServer.Load: the cookie-or-default choice is stated exactly for `font` and `sidebarOpen`. For the other fields it is stated as membership in their allow-lists; the choice itself is `Validated`'s contract.
- The static data, DOM attachments, optimistic list, shallow dialog, `cn`, i18n hook and route data files are not part of this model.

## Notes on the code's behaviour

- `COLOR_PROPS` (src/lib/themes/generate-presets.ts:107-140) lists 32 colour roles, and every block lists all 32.
- The scanner counts every `{` and `}`, quoted or not (src/lib/themes/generate-presets.ts:190-193). `StyleBlock.DepthStep` counts them all.
- The label is escaped for apostrophes only (src/lib/themes/generate-presets.ts:363), while the label pattern captures the raw source text (src/lib/themes/generate-presets.ts:233). A label written in the source as `"it\'s"` is therefore emitted as `'it\\'s'`, which ends the literal early. `PresetData.EntryLabelReadsBack` states the read-back for labels without backslashes only.
- Finding no preset is not an error. The stylesheet is then its header alone, and the metadata has the `default` entry alone.
- The entry pattern also accepts single-quoted keys and values in style blocks (src/lib/themes/generate-presets.ts:199). The label pattern accepts double quotes only (src/lib/themes/generate-presets.ts:233).

=== FILE: avatar.dfy ===
/** The avatar image path derived from a user's name or seed string. */
module Avatar {
  import opened Text
  import opened Seqs

  /** `s` with its leading white space removed. */
  function SkipSpaces(s: string): (r: string)
    ensures |r| <= |s| && r == s[|s| - |r|..]
    ensures r == [] || !IsSpace(r[0])
    ensures forall i :: 0 <= i < |s| - |r| ==> IsSpace(s[i])
  {
    if |s| > 0 && IsSpace(s[0]) then SkipSpaces(s[1..]) else s
  }

  /** `s.replace(/\s+/g, '-')`: every maximal run of white space becomes one `-`. */
  function CollapseSpaces(s: string): string
    decreases |s|
  {
    if |s| == 0 then ""
    else if IsSpace(s[0]) then "-" + CollapseSpaces(SkipSpaces(s))
    else [s[0]] + CollapseSpaces(s[1..])
  }

  /** No white space survives the replacement, and it introduces no upper-case letter. */
  lemma {:induction false} CollapseSpacesClean(s: string)
    ensures forall i :: 0 <= i < |CollapseSpaces(s)| ==> !IsSpace(CollapseSpaces(s)[i])
    ensures (forall i :: 0 <= i < |s| ==> !IsUpperLetter(s[i])) ==>
      forall i :: 0 <= i < |CollapseSpaces(s)| ==> !IsUpperLetter(CollapseSpaces(s)[i])
    decreases |s|
  {
    if |s| == 0 {
    } else if IsSpace(s[0]) {
      CollapseSpacesClean(SkipSpaces(s));
    } else {
      CollapseSpacesClean(s[1..]);
    }
  }

  /** A string without white space is left as it is. */
  lemma {:induction false} CollapseWithoutSpaces(s: string)
    requires forall i :: 0 <= i < |s| ==> !IsSpace(s[i])
    ensures CollapseSpaces(s) == s
  {
    if |s| > 0 {
      CollapseWithoutSpaces(s[1..]);
    }
  }

  /** Skipping the leading run of `x + z` stays inside `x` when `x` does not end in white space. */
  lemma {:induction false} SkipSpacesConcat(x: string, z: string)
    requires |x| > 0 && !IsSpace(x[|x| - 1])
    ensures SkipSpaces(x + z) == SkipSpaces(x) + z
  {
    if IsSpace(x[0]) {
      assert (x + z)[1..] == x[1..] + z;
      SkipSpacesConcat(x[1..], z);
    }
  }

  /** The replacement works piecewise when the cut does not fall inside a run of white space. */
  lemma {:induction false} CollapseConcat(x: string, z: string)
    requires |x| == 0 || !IsSpace(x[|x| - 1])
    ensures CollapseSpaces(x + z) == CollapseSpaces(x) + CollapseSpaces(z)
    decreases |x|, 1
  {
    if |x| == 0 {
      assert x + z == z;
    } else if IsSpace(x[0]) {
      CollapseConcatAtSpace(x, z);
    } else {
      CollapseConcatAtPlain(x, z);
    }
  }

  lemma {:induction false} CollapseConcatAtSpace(x: string, z: string)
    requires |x| > 0 && IsSpace(x[0]) && !IsSpace(x[|x| - 1])
    ensures CollapseSpaces(x + z) == CollapseSpaces(x) + CollapseSpaces(z)
    decreases |x|, 0
  {
    var rest := SkipSpaces(x);
    assert CollapseSpaces(x + z) == "-" + CollapseSpaces(rest + z) by {
      SkipSpacesConcat(x, z);
      CollapseSpaceStep(x + z, rest + z);
    }
    assert CollapseSpaces(rest + z) == CollapseSpaces(rest) + CollapseSpaces(z) by {
      CollapseConcat(rest, z);
    }
    assert CollapseSpaces(x) == "-" + CollapseSpaces(rest) by {
      CollapseSpaceStep(x, rest);
    }
    ConcatAssociates("-", CollapseSpaces(rest), CollapseSpaces(z));
  }

  lemma {:induction false} CollapseConcatAtPlain(x: string, z: string)
    requires |x| > 0 && !IsSpace(x[0]) && !IsSpace(x[|x| - 1])
    ensures CollapseSpaces(x + z) == CollapseSpaces(x) + CollapseSpaces(z)
    decreases |x|, 0
  {
    assert CollapseSpaces(x + z) == [x[0]] + CollapseSpaces(x[1..] + z) by {
      assert (x + z)[1..] == x[1..] + z;
      CollapsePlainStep(x + z);
    }
    assert CollapseSpaces(x[1..] + z) == CollapseSpaces(x[1..]) + CollapseSpaces(z) by {
      CollapseConcat(x[1..], z);
    }
    assert CollapseSpaces(x) == [x[0]] + CollapseSpaces(x[1..]) by {
      CollapsePlainStep(x);
    }
    ConcatAssociates([x[0]], CollapseSpaces(x[1..]), CollapseSpaces(z));
  }

  lemma CollapseSpaceStep(s: string, rest: string)
    requires |s| > 0 && IsSpace(s[0]) && rest == SkipSpaces(s)
    ensures CollapseSpaces(s) == "-" + CollapseSpaces(rest)
  {
  }

  lemma CollapsePlainStep(s: string)
    requires |s| > 0 && !IsSpace(s[0])
    ensures CollapseSpaces(s) == [s[0]] + CollapseSpaces(s[1..])
  {
  }

  /** A non-empty run of white space between two non-white-space neighbours becomes a single `-`. */
  lemma {:induction false} CollapseRun(x: string, w: string, y: string)
    requires |x| == 0 || !IsSpace(x[|x| - 1])
    requires |w| > 0 && forall i :: 0 <= i < |w| ==> IsSpace(w[i])
    requires |y| == 0 || !IsSpace(y[0])
    ensures CollapseSpaces(x + w + y) == CollapseSpaces(x) + "-" + CollapseSpaces(y)
  {
    var tail := w + y;
    ConcatAssociates(x, w, y);
    assert CollapseSpaces(tail) == "-" + CollapseSpaces(y) by {
      SkipAllSpaces(w, y);
      assert tail[0] == w[0];
      CollapseSpaceStep(tail, y);
    }
    assert CollapseSpaces(x + tail) == CollapseSpaces(x) + CollapseSpaces(tail) by {
      CollapseConcat(x, tail);
    }
    ConcatAssociates(CollapseSpaces(x), "-", CollapseSpaces(y));
  }

  lemma {:induction false} SkipAllSpaces(w: string, y: string)
    requires forall i :: 0 <= i < |w| ==> IsSpace(w[i])
    requires |y| == 0 || !IsSpace(y[0])
    ensures SkipSpaces(w + y) == y
  {
    if |w| == 0 {
      assert w + y == y;
    } else {
      assert (w + y)[1..] == w[1..] + y;
      SkipAllSpaces(w[1..], y);
    }
  }

  /** The file name: the seed lower-cased, with each run of white space replaced by `-`. */
  function Filename(seed: string): (r: string)
    ensures forall i :: 0 <= i < |r| ==> !IsSpace(r[i]) && !IsUpperLetter(r[i])
  {
    CollapseSpacesClean(Lower(seed));
    CollapseSpaces(Lower(seed))
  }

  /** A seed that is already lower-case and free of white space is used unchanged. */
  lemma PlainSeedUnchanged(seed: string)
    requires forall i :: 0 <= i < |seed| ==> !IsSpace(seed[i]) && !IsUpperLetter(seed[i])
    ensures Filename(seed) == seed
  {
    assert Lower(seed) == seed;
    CollapseWithoutSpaces(seed);
  }

  /** Normalising a file name again changes nothing. */
  lemma FilenameIdempotent(seed: string)
    ensures Filename(Filename(seed)) == Filename(seed)
  {
    PlainSeedUnchanged(Filename(seed));
  }

  /** The avatar path: `/avatars/<file name>.svg`. */
  function GetAvatarUrl(seed: string): (r: string)
    ensures StartsWith(r, "/avatars/")
    ensures |r| >= 13 && r[|r| - 4..] == ".svg"
    ensures r[9..|r| - 4] == Filename(seed)
  {
    "/avatars/" + Filename(seed) + ".svg"
  }
}

=== FILE: config.dfy ===
/** Application-wide constants: the page-title template and the cookie catalogue. */
module Config {
  import opened Text
  import PresetDefaults

  const AppName: string := "Vortex"

  /** The document title for a page: the page's own title, then ` | `, then the application name. */
  function PageTitle(title: string): (r: string)
    ensures StartsWith(r, title)
    ensures r[|title|..] == " | Vortex"
  {
    title + " | " + AppName
  }

  // Cookie names.
  const SidebarStateCookie: string := "sidebar:state"
  const LayoutCollapsibleCookie: string := "layout_collapsible"
  const LayoutVariantCookie: string := "layout_variant"
  const FontCookie: string := "font"
  const ThemePresetCookie: string := "theme_preset"
  const ColorModeCookie: string := "color_mode"
  const ViewAppsCookie: string := "view_apps"
  const PanePrefix: string := "pane:"

  /** Cookie lifetimes in seconds: one year for preferences, seven days for transient UI state. */
  const MaxAgeLong: nat := 60 * 60 * 24 * 365
  const MaxAgeShort: nat := 60 * 60 * 24 * 7

  // Allow-lists of the cookie values the server accepts.
  const ValidFonts: seq<string> := ["inter", "manrope", "system"]
  const ValidColorModes: seq<string> := ["light", "dark", "system"]
  const ValidThemePresets: seq<string> := ["default", "modern-minimal", "notebook", "darkmatter"]
  const ValidCollapsibles: seq<string> := ["offcanvas", "icon", "none"]
  const ValidVariants: seq<string> := ["inset", "sidebar", "floating"]
  const ValidViewApps: seq<string> := ["grid", "list"]

  // Defaults used when a cookie is missing or not allowed.
  const DefaultSidebarOpen: bool := true
  const DefaultCollapsible: string := "icon"
  const DefaultVariant: string := "inset"
  const DefaultFont: string := "inter"
  const DefaultThemePreset: string := "default"
  const DefaultColorMode: string := "system"
  const DefaultViewApps: string := "grid"

  /** Every default is itself an allowed value of its cookie. */
  lemma DefaultsAreValid()
    ensures DefaultFont in ValidFonts
    ensures DefaultColorMode in ValidColorModes
    ensures DefaultThemePreset in ValidThemePresets
    ensures DefaultCollapsible in ValidCollapsibles
    ensures DefaultVariant in ValidVariants
    ensures DefaultViewApps in ValidViewApps
  {
  }

  /** The allowed theme presets are `default` followed by exactly the build script's allow-list. */
  lemma ThemePresetsMatchGenerator()
    ensures ValidThemePresets == ["default"] + PresetDefaults.AllowedPresets
  {
  }
}

=== FILE: cookie_pane_storage.dfy ===
/**
 * Cookie-backed storage for resizable pane layouts: reading a cookie out of the browser's
 * `; `-separated cookie string and writing one cookie line. The browser side is the cookie jar of
 * RFC 6265: reading `document.cookie` lists the stored cookies (section 5.4), and assigning a
 * line stores the cookie it names (sections 5.2 and 5.3).
 */
module CookiePaneStorage {
  import opened Wrappers
  import opened Text
  import opened Records
  import Config

  /**
   * What `getCookie` can end with: `null`, the decoded value, or the `URIError` that
   * `decodeURIComponent` throws on a malformed escape.
   */
  datatype CookieRead = NoCookie | Value(value: string) | UriError

  /** A name the jar can hold: non-empty, without `=` and without `;`. */
  predicate IsCookieName(name: string) {
    |name| > 0 && Lacks(name, '=') && Lacks(name, ';')
  }

  /**
   * The cookies visible to the page, oldest first: distinct names, and no value holding `;`, since
   * the pair a line stores ends at the line's first `;`.
   */
  predicate WellFormedJar(jar: Record<string>) {
    && KeysDistinct(jar)
    && forall i :: 0 <= i < |jar| ==> IsCookieName(jar[i].0) && Lacks(jar[i].1, ';')
  }

  /** One `name=value` pair per cookie, in the jar's order. */
  function Pairs(jar: Record<string>): seq<string> {
    seq(|jar|, i requires 0 <= i < |jar| => jar[i].0 + "=" + jar[i].1)
  }

  /** Reading `document.cookie`: the pairs joined by `; `. */
  function CookieString(jar: Record<string>): string {
    Join(Pairs(jar), "; ")
  }

  /**
   * Assigning `line` to `document.cookie`, for a cookie that its attributes keep: the pair is the
   * text before the first `;`; a pair without `=` or with an empty name is ignored; otherwise the
   * name is set to the text after the first `=`, a stored cookie keeping its place.
   */
  function StoreCookie(jar: Record<string>, line: string): Record<string> {
    var pair := line[..FirstIndexOf(line, ';')];
    var eq := FirstIndexOf(pair, '=');
    if eq == |pair| || eq == 0 then jar else Put(jar, pair[..eq], pair[eq + 1..])
  }

  /** Storing a line keeps the jar well-formed. */
  lemma StoreKeepsWellFormed(jar: Record<string>, line: string)
    requires WellFormedJar(jar)
    ensures WellFormedJar(StoreCookie(jar, line))
  {
    var pair := line[..FirstIndexOf(line, ';')];
    var eq := FirstIndexOf(pair, '=');
    if eq < |pair| && eq > 0 {
      FirstIndexOfSound(line, ';');
      FirstIndexOfSound(pair, '=');
      SliceLacks(pair, ';', 0, eq);
      SliceLacks(pair, ';', eq + 1, |pair|);
      PutKeepsWellFormed(jar, pair[..eq], pair[eq + 1..]);
    }
  }

  /** A slice of text without `c` has no `c` either. */
  lemma SliceLacks(s: string, c: char, i: nat, j: nat)
    requires Lacks(s, c) && i <= j <= |s|
    ensures Lacks(s[i..j], c)
  {
    forall k | 0 <= k < j - i ensures s[i..j][k] != c {
      assert s[i..j][k] == s[i + k];
    }
  }

  /** Setting a cookie name to a value without `;` keeps the jar well-formed. */
  lemma PutKeepsWellFormed(jar: Record<string>, name: string, value: string)
    requires WellFormedJar(jar) && IsCookieName(name) && Lacks(value, ';')
    ensures WellFormedJar(Put(jar, name, value))
  {
    var jar' := Put(jar, name, value);
    PutKeepsDistinct(jar, name, value);
    forall i | 0 <= i < |jar'| ensures IsCookieName(jar'[i].0) && Lacks(jar'[i].1, ';') {
      GetPut(jar, name, value, jar'[i].0);
      GetUnique(jar', i);
    }
  }

  /** The document as this code sees it: `null` during server rendering, otherwise its cookie jar. */
  class CookieDocument {
    var jar: Record<string>

    constructor (jar: Record<string>)
      ensures this.jar == jar
    {
      this.jar := jar;
    }
  }

  /** The position of the first part that starts with `prefix`. */
  function FirstWithPrefix(parts: seq<string>, prefix: string): (r: Option<nat>)
    ensures r.Some? ==> r.value < |parts| && StartsWith(parts[r.value], prefix)
    ensures r.Some? ==> forall j :: 0 <= j < r.value ==> !StartsWith(parts[j], prefix)
    ensures r.None? ==> forall j :: 0 <= j < |parts| ==> !StartsWith(parts[j], prefix)
  {
    if |parts| == 0 then None
    else if StartsWith(parts[0], prefix) then Some(0)
    else
      var rest := FirstWithPrefix(parts[1..], prefix);
      if rest.Some? then Some(rest.value + 1) else None
  }

  /** The outcome of `decodeURIComponent`: nothing stands for the thrown `URIError`. */
  function Decoded(v: Option<string>): CookieRead {
    if v.Some? then Value(v.value) else UriError
  }

  /**
   * The loop of `getCookie` over a cookie string: the first `; `-separated part that starts with
   * `name=` has the rest of it decoded; without such a part there is no cookie.
   */
  function ReadCookie(cookie: string, name: string, decode: string -> Option<string>): (r: CookieRead)
    ensures var parts := Split(cookie, "; ");
      r == NoCookie <==> forall k :: 0 <= k < |parts| ==> !StartsWith(parts[k], name + "=")
    ensures var parts := Split(cookie, "; ");
      r != NoCookie ==>
        exists k :: 0 <= k < |parts| && StartsWith(parts[k], name + "=")
          && (forall j :: 0 <= j < k ==> !StartsWith(parts[j], name + "="))
          && r == Decoded(decode(parts[k][|name| + 1..]))
  {
    var parts := Split(cookie, "; ");
    var i := FirstWithPrefix(parts, name + "=");
    if i.Some? then Decoded(decode(parts[i.value][|name| + 1..])) else NoCookie
  }

  /** The cookie `name` as the jar holds it, decoded. */
  function JarRead(jar: Record<string>, name: string, decode: string -> Option<string>): CookieRead {
    match Get(jar, name)
    case None => NoCookie
    case Some(v) => Decoded(decode(v))
  }

  /**
   * Because the prefix includes `=`, the part of another cookie is never taken for `name`, even
   * when one name extends the other (`pane:ab` against `pane:a`).
   */
  lemma OtherCookieNotMatched(name: string, other: string, value: string)
    requires name != other
    requires forall i :: 0 <= i < |name| ==> name[i] != '='
    requires forall i :: 0 <= i < |other| ==> other[i] != '='
    ensures !StartsWith(other + "=" + value, name + "=")
  {
    var part, prefix := other + "=" + value, name + "=";
    if |name| < |other| {
      assert part[|name|] == other[|name|];
      DiffersAt(part, prefix, |name|);
    } else if |name| > |other| {
      assert prefix[|other|] == name[|other|];
      DiffersAt(part, prefix, |other|);
    } else {
      var k :| 0 <= k < |name| && name[k] != other[k];
      assert part[k] == other[k] && prefix[k] == name[k];
      DiffersAt(part, prefix, k);
    }
  }

  /** A string does not start with a prefix it disagrees with at some position. */
  lemma DiffersAt(s: string, prefix: string, k: nat)
    requires k < |s| && k < |prefix| && s[k] != prefix[k]
    ensures !StartsWith(s, prefix)
  {
    assert |prefix| <= |s| ==> s[..|prefix|][k] == s[k];
  }

  /**
   * Reading `document.cookie` and searching it finds exactly what the jar holds: the part found
   * for `name` is that cookie's own pair, and no other cookie's.
   */
  lemma CookieReadsJar(jar: Record<string>, name: string, decode: string -> Option<string>)
    requires WellFormedJar(jar) && Lacks(name, '=') && Lacks(name, ';')
    ensures ReadCookie(CookieString(jar), name, decode) == JarRead(jar, name, decode)
  {
    var pairs := Pairs(jar);
    var parts := Split(CookieString(jar), "; ");
    if |jar| == 0 {
      assert parts == [""] by {
        SplitJoinSep([""], "; ");
      }
    } else {
      forall k | 0 <= k < |pairs| ensures Lacks(pairs[k], ';') {
        assert pairs[k] == jar[k].0 + "=" + jar[k].1;
      }
      SplitJoinSep(pairs, "; ");
      var prefix := name + "=";
      var i := FirstWithPrefix(parts, prefix);
      if i.Some? {
        var n := i.value;
        if jar[n].0 != name {
          OtherCookieNotMatched(name, jar[n].0, jar[n].1);
        }
        GetUnique(jar, n);
        assert parts[n][|name| + 1..] == jar[n].1;
      } else if name in Keys(jar) {
        var n :| 0 <= n < |jar| && Keys(jar)[n] == name;
        assert StartsWith(pairs[n], prefix) by {
          assert pairs[n] == prefix + jar[n].1;
        }
        assert false;
      }
    }
  }

  /**
   * `getCookie`: without a document there is no cookie; otherwise the loop over
   * `document.cookie` yields exactly the jar's cookie of that name, decoded.
   */
  function GetCookie(doc: CookieDocument?, name: string, decode: string -> Option<string>): (r: CookieRead)
    reads doc
    ensures doc == null ==> r == NoCookie
    ensures doc != null && WellFormedJar(doc.jar) && Lacks(name, '=') && Lacks(name, ';') ==>
      r == JarRead(doc.jar, name, decode)
  {
    if doc == null then NoCookie
    else if WellFormedJar(doc.jar) && Lacks(name, '=') && Lacks(name, ';') then
      CookieReadsJar(doc.jar, name, decode);
      ReadCookie(CookieString(doc.jar), name, decode)
    else ReadCookie(CookieString(doc.jar), name, decode)
  }

  /**
   * The decimal text of the one-year lifetime. The steps unfold `NatToString` one digit at a time,
   * which keeps the solver from searching the eight unfoldings at once; the last step is the
   * ensures itself, with `Config.MaxAgeLong` replaced by its value.
   */
  lemma MaxAgeLongText()
    ensures NatToString(Config.MaxAgeLong) == "31536000"
  {
    assert NatToString(3) == "3";
    assert NatToString(31) == "31";
    assert NatToString(315) == "315";
    assert NatToString(3153) == "3153";
    assert NatToString(31536) == "31536";
    assert NatToString(315360) == "315360";
    assert NatToString(3153600) == "3153600";
    assert NatToString(31536000) == "31536000";
  }

  /** The attributes `setCookie` appends: root path, the one-year lifetime, and `SameSite=Lax`. */
  function Attributes(): (r: string)
    ensures |r| > 0 && r[0] == ';'
  {
    ";path=/;max-age=" + NatToString(Config.MaxAgeLong) + ";samesite=lax"
  }

  /** The attribute text in full: the lifetime is written as `31536000` seconds. */
  lemma AttributesText()
    ensures Attributes() == ";path=/;max-age=" + "31536000" + ";samesite=lax"
  {
    MaxAgeLongText();
  }

  /**
   * The line `setCookie` assigns to `document.cookie`: the pair, then the attributes. When neither
   * the name nor the encoding holds a `;`, the line's first `;` is the one ending the pair.
   */
  function CookieLine(name: string, value: string, encode: string -> string): (r: string)
    ensures StartsWith(r, name + "=" + encode(value))
    ensures Lacks(name, ';') && Lacks(encode(value), ';') ==>
      FirstIndexOf(r, ';') == |name| + 1 + |encode(value)|
  {
    var pair := name + "=" + encode(value);
    if Lacks(name, ';') && Lacks(encode(value), ';') then
      PairLacksSemicolon(name, encode(value));
      PairEndsAtSemicolon(pair, Attributes());
      pair + Attributes()
    else pair + Attributes()
  }

  /** A pair of a `;`-free name and a `;`-free value holds no `;`. */
  lemma PairLacksSemicolon(name: string, enc: string)
    requires Lacks(name, ';') && Lacks(enc, ';')
    ensures Lacks(name + "=" + enc, ';')
  {
    var pair := name + "=" + enc;
    forall k | 0 <= k < |pair| ensures pair[k] != ';' {
      if k > |name| { assert pair[k] == enc[k - |name| - 1]; }
    }
  }

  /** The first `;` of a `;`-free pair followed by text starting with `;` is the one after the pair. */
  lemma PairEndsAtSemicolon(pair: string, rest: string)
    requires Lacks(pair, ';') && |rest| > 0 && rest[0] == ';'
    ensures FirstIndexOf(pair + rest, ';') == |pair|
  {
    var line := pair + rest;
    assert forall k :: 0 <= k < |pair| ==> line[k] == pair[k];
    FirstIndexOfIs(line, ';', |pair|);
  }

  /**
   * Storing the line `setCookie` writes sets cookie `name` to the encoded value, as long as the name
   * is a cookie name and the encoding holds no `;` (`encodeURIComponent` escapes it).
   */
  lemma StoreCookieLine(jar: Record<string>, name: string, value: string, encode: string -> string)
    requires IsCookieName(name) && Lacks(encode(value), ';')
    ensures StoreCookie(jar, CookieLine(name, value, encode)) == Put(jar, name, encode(value))
  {
    var enc := encode(value);
    var line := CookieLine(name, value, encode);
    var pair := name + "=" + enc;
    assert line[..|pair|] == pair;
    FirstIndexOfIs(pair, '=', |name|);
    assert pair[..|name|] == name && pair[|name| + 1..] == enc;
  }

  /** `setCookie`: with a document, the jar stores the written line; without one nothing happens. */
  method SetCookie(doc: CookieDocument?, name: string, value: string, encode: string -> string)
    modifies doc
    ensures doc != null ==> doc.jar == StoreCookie(old(doc.jar), CookieLine(name, value, encode))
    ensures doc != null && old(WellFormedJar(doc.jar)) ==> WellFormedJar(doc.jar)
  {
    if doc != null {
      if WellFormedJar(doc.jar) {
        StoreKeepsWellFormed(doc.jar, CookieLine(name, value, encode));
      }
      doc.jar := StoreCookie(doc.jar, CookieLine(name, value, encode));
    }
  }

  /**
   * After a cookie is written, reading it gives the decoded encoding of the value written, and
   * reading any other name gives what it gave before.
   */
  lemma ReadAfterWrite(jar: Record<string>, name: string, value: string, other: string,
                       encode: string -> string, decode: string -> Option<string>)
    requires WellFormedJar(jar) && IsCookieName(name) && Lacks(encode(value), ';')
    requires Lacks(other, '=') && Lacks(other, ';')
    ensures ReadCookie(CookieString(StoreCookie(jar, CookieLine(name, value, encode))), other, decode) ==
      if other == name then Decoded(decode(encode(value))) else ReadCookie(CookieString(jar), other, decode)
  {
    var jar' := StoreCookie(jar, CookieLine(name, value, encode));
    StoreCookieLine(jar, name, value, encode);
    StoreKeepsWellFormed(jar, CookieLine(name, value, encode));
    CookieReadsJar(jar', other, decode);
    CookieReadsJar(jar, other, decode);
    GetPut(jar, name, encode(value), other);
  }

  /** The name of the cookie that stores pane layout `name`. */
  lemma PaneCookieName(name: string)
    requires Lacks(name, '=') && Lacks(name, ';')
    ensures IsCookieName(Config.PanePrefix + name)
  {
    var full := Config.PanePrefix + name;
    forall k | 0 <= k < |full| ensures full[k] != '=' && full[k] != ';' {
      if k >= 5 {
        assert full[k] == name[k - 5];
      }
    }
  }

  /** Pane storage reads the cookie `pane:<name>`: the jar's cookie of that name, decoded. */
  function GetItem(doc: CookieDocument?, name: string, decode: string -> Option<string>): (r: CookieRead)
    reads doc
    ensures r == GetCookie(doc, Config.PanePrefix + name, decode)
    ensures doc != null && WellFormedJar(doc.jar) && Lacks(name, '=') && Lacks(name, ';') ==>
      r == JarRead(doc.jar, Config.PanePrefix + name, decode)
  {
    if Lacks(name, '=') && Lacks(name, ';') then
      PaneCookieName(name);
      GetCookie(doc, Config.PanePrefix + name, decode)
    else GetCookie(doc, Config.PanePrefix + name, decode)
  }

  /** Pane storage writes the cookie `pane:<name>`. */
  method SetItem(doc: CookieDocument?, name: string, value: string, encode: string -> string)
    modifies doc
    ensures doc != null ==> doc.jar == StoreCookie(old(doc.jar), CookieLine(Config.PanePrefix + name, value, encode))
    ensures doc != null && old(WellFormedJar(doc.jar)) ==> WellFormedJar(doc.jar)
  {
    SetCookie(doc, Config.PanePrefix + name, value, encode);
  }

  /** Writing cookie `name` sets what the jar holds for it and leaves every other cookie. */
  lemma JarReadAfterWrite(jar: Record<string>, name: string, value: string, other: string,
                          encode: string -> string, decode: string -> Option<string>)
    requires IsCookieName(name) && Lacks(encode(value), ';')
    ensures JarRead(StoreCookie(jar, CookieLine(name, value, encode)), other, decode) ==
      if other == name then Decoded(decode(encode(value))) else JarRead(jar, other, decode)
  {
    StoreCookieLine(jar, name, value, encode);
    GetPut(jar, name, encode(value), other);
  }

  /**
   * A pane layout written with `setItem` reads back with `getItem` when `decodeURIComponent` undoes
   * `encodeURIComponent` on it; the other pane layouts read as before.
   */
  lemma ItemReadAfterWrite(jar: Record<string>, name: string, value: string, other: string,
                           encode: string -> string, decode: string -> Option<string>)
    requires Lacks(encode(value), ';') && decode(encode(value)) == Some(value)
    requires Lacks(name, '=') && Lacks(name, ';')
    ensures var jar' := StoreCookie(jar, CookieLine(Config.PanePrefix + name, value, encode));
      && JarRead(jar', Config.PanePrefix + name, decode) == Value(value)
      && (other != name ==> JarRead(jar', Config.PanePrefix + other, decode) == JarRead(jar, Config.PanePrefix + other, decode))
  {
    var key := Config.PanePrefix + name;
    PaneCookieName(name);
    JarReadAfterWrite(jar, key, value, key, encode, decode);
    if other != name {
      assert Config.PanePrefix + other != key by {
        assert (Config.PanePrefix + other)[|Config.PanePrefix|..] == other;
        assert key[|Config.PanePrefix|..] == name;
      }
      JarReadAfterWrite(jar, key, value, Config.PanePrefix + other, encode, decode);
    }
  }

  /** The line `setItem` writes starts with exactly the prefix `getItem` looks for. */
  lemma ItemLineMatchesItemLookup(name: string, value: string, encode: string -> string)
    ensures StartsWith(CookieLine(Config.PanePrefix + name, value, encode), Config.PanePrefix + name + "=")
  {
  }
}

=== FILE: generator.dfy ===
/**
 * The build script's main step, without the file system: parse the upstream presets, keep the
 * allowed ones, and produce the stylesheet and the metadata module from what is kept.
 */
module Generator {
  import opened Wrappers
  import opened Records
  import opened PresetDefaults
  import opened PresetColor
  import opened StyleBlock
  import opened PresetParse
  import opened PresetCss
  import opened PresetData
  import opened PresetMerge
  import Config

  /** The record the filter loop builds: each allowed entry assigned in the parsed order. */
  function Filtered(presets: Record<PresetDef>): Record<PresetDef>
    decreases |presets|
  {
    if |presets| == 0 then []
    else
      var (name, def) := presets[|presets| - 1];
      var kept := Filtered(presets[..|presets| - 1]);
      if name in AllowedPresets then Put(kept, name, def) else kept
  }

  /** The plain reading of the filter: the allowed entries, in order. */
  function KeepAllowed(presets: Record<PresetDef>): Record<PresetDef>
    decreases |presets|
  {
    if |presets| == 0 then []
    else
      var entry := presets[|presets| - 1];
      KeepAllowed(presets[..|presets| - 1]) + (if entry.0 in AllowedPresets then [entry] else [])
  }

  /** The filter loop of `main`: an empty object, then one assignment per allowed entry. */
  method FilterAllowed(presets: Record<PresetDef>) returns (filtered: Record<PresetDef>)
    ensures filtered == Filtered(presets)
  {
    filtered := [];
    for i := 0 to |presets|
      invariant filtered == Filtered(presets[..i])
    {
      var (name, def) := presets[i];
      if name in AllowedPresets {
        filtered := Put(filtered, name, def);
      }
      FilteredStep(presets, i);
    }
    assert presets[..|presets|] == presets;
  }

  lemma FilteredStep(presets: Record<PresetDef>, i: nat)
    requires i < |presets|
    ensures Filtered(presets[..i + 1]) ==
      if presets[i].0 in AllowedPresets then Put(Filtered(presets[..i]), presets[i].0, presets[i].1)
      else Filtered(presets[..i])
  {
    assert presets[..i + 1][..i] == presets[..i];
  }

  /** Dropping the last entry keeps the keys distinct, and its key is not among the others. */
  lemma DistinctPrefix(presets: Record<PresetDef>)
    requires KeysDistinct(presets) && |presets| > 0
    ensures KeysDistinct(presets[..|presets| - 1])
    ensures presets[|presets| - 1].0 !in Keys(presets[..|presets| - 1])
  {
    var n := |presets|;
    var ks := Keys(presets[..n - 1]);
    forall j | 0 <= j < |ks|
      ensures ks[j] != presets[n - 1].0
    {
      assert ks[j] == presets[j].0;
    }
  }

  /**
   * When the parsed keys are distinct, reading the filtered record gives the parsed preset for
   * an allowed name and nothing for any other name.
   */
  lemma {:induction false} FilteredGet(presets: Record<PresetDef>, k: string)
    requires KeysDistinct(presets)
    ensures Get(Filtered(presets), k) == if k in AllowedPresets then Get(presets, k) else None
    decreases |presets|
  {
    if |presets| > 0 {
      var n := |presets|;
      var prefix := presets[..n - 1];
      var (name, def) := presets[n - 1];
      assert presets == prefix + [(name, def)];
      DistinctPrefix(presets);
      FilteredGet(prefix, k);
      GetAppend(prefix, name, def, k);
      if name in AllowedPresets {
        GetPut(Filtered(prefix), name, def, k);
        if k == name {
          assert Get(prefix, k).None?;
        }
      }
    }
  }

  /** The filtered record has exactly the allowed parsed names as keys. */
  lemma FilteredKeys(presets: Record<PresetDef>, k: string)
    requires KeysDistinct(presets)
    ensures k in Keys(Filtered(presets)) <==> k in AllowedPresets && k in Keys(presets)
  {
    FilteredGet(presets, k);
  }

  /** With distinct parsed keys the filter loop is the plain filter: order and values are kept. */
  lemma {:induction false} FilteredIsKeepAllowed(presets: Record<PresetDef>)
    requires KeysDistinct(presets)
    ensures Filtered(presets) == KeepAllowed(presets)
    decreases |presets|
  {
    if |presets| > 0 {
      var n := |presets|;
      var prefix := presets[..n - 1];
      var (name, def) := presets[n - 1];
      DistinctPrefix(presets);
      FilteredIsKeepAllowed(prefix);
      if name in AllowedPresets {
        FilteredKeys(prefix, name);
        PutNew(Filtered(prefix), name, def);
      }
    }
  }

  /** Assigning keeps a record well-formed, so filtering does. */
  lemma {:induction false} FilteredWellFormed(presets: Record<PresetDef>)
    requires WellFormedRecord(presets)
    ensures WellFormedRecord(Filtered(presets))
    decreases |presets|
  {
    if |presets| > 0 {
      var n := |presets|;
      DistinctPrefix(presets);
      FilteredWellFormed(presets[..n - 1]);
      if presets[n - 1].0 in AllowedPresets {
        PutWellFormed(Filtered(presets[..n - 1]), presets[n - 1].0, presets[n - 1].1);
      }
    }
  }

  /** The keys of a record, as a set. */
  ghost function KeySet(r: Record<PresetDef>): set<string>
    decreases |r|
  {
    if |r| == 0 then {} else KeySet(r[..|r| - 1]) + {r[|r| - 1].0}
  }

  lemma {:induction false} KeySetHas(r: Record<PresetDef>, k: string)
    ensures k in KeySet(r) <==> k in Keys(r)
    decreases |r|
  {
    if |r| > 0 {
      var n := |r|;
      var prefix := r[..n - 1];
      KeySetHas(prefix, k);
      if k in Keys(prefix) {
        var j :| 0 <= j < n - 1 && Keys(prefix)[j] == k;
        assert Keys(r)[j] == k;
      }
      if k in Keys(r) {
        var j :| 0 <= j < n && Keys(r)[j] == k;
        if j < n - 1 {
          assert Keys(prefix)[j] == k;
        }
      }
    }
  }

  /** Distinct keys make as many set members as entries. */
  lemma {:induction false} KeySetSize(r: Record<PresetDef>)
    requires KeysDistinct(r)
    ensures |KeySet(r)| == |r|
    decreases |r|
  {
    if |r| > 0 {
      DistinctPrefix(r);
      KeySetSize(r[..|r| - 1]);
      KeySetHas(r[..|r| - 1], r[|r| - 1].0);
    }
  }

  /** At most the three allowed presets survive the filter. */
  lemma FilteredSize(presets: Record<PresetDef>)
    requires KeysDistinct(presets)
    ensures |Filtered(presets)| <= |AllowedPresets|
  {
    var f := Filtered(presets);
    var allowed := {"modern-minimal", "notebook", "darkmatter"};
    FilteredWellFormedKeys(presets);
    KeySetSize(f);
    assert KeySet(f) <= allowed by {
      forall k | k in KeySet(f) ensures k in allowed {
        KeySetHas(f, k);
        FilteredKeys(presets, k);
      }
    }
    SubsetSize(KeySet(f), allowed);
  }

  /** Filtering keeps keys distinct. */
  lemma {:induction false} FilteredWellFormedKeys(presets: Record<PresetDef>)
    ensures KeysDistinct(Filtered(presets))
    decreases |presets|
  {
    if |presets| > 0 {
      var n := |presets|;
      FilteredWellFormedKeys(presets[..n - 1]);
      if presets[n - 1].0 in AllowedPresets {
        PutKeepsDistinct(Filtered(presets[..n - 1]), presets[n - 1].0, presets[n - 1].1);
      }
    }
  }

  lemma SubsetSize(a: set<string>, b: set<string>)
    requires a <= b
    ensures |a| <= |b|
  {
    assert b == a + (b - a);
  }

  /**
   * Every generated preset is one the layout accepts as a theme preset, and `default` never is
   * among them, so the built-in entry is the only one of that name.
   */
  lemma GeneratedPresetsSelectable(content: string, k: string)
    ensures k in Keys(Filtered(ParsePresets(content))) ==> k in Config.ValidThemePresets && k != "default"
  {
    ParsePresetsWellFormed(content);
    FilteredKeys(ParsePresets(content), k);
    Config.ThemePresetsMatchGenerator();
  }

  /** The outputs `main` writes for the upstream presets file `content`. */
  function Outputs(content: string, convert: Converter): (string, string) {
    var kept := Filtered(ParsePresets(content));
    (PresetsCss(kept, convert), PresetDataText(kept, convert))
  }

  /** `main` without the file system and the console: parse, filter, generate both files. */
  method Generate(content: string, convert: Converter) returns (css: string, data: string)
    ensures (css, data) == Outputs(content, convert)
  {
    var presets := ParsePresetsFromSource(content);
    var filtered := FilterAllowed(presets);
    css := GeneratePresetsCss(filtered, convert);
    data := GeneratePresetDataTs(filtered, convert);
  }

  /**
   * The stylesheet and the metadata list the same presets in the same order: the `i`-th group
   * of four chunks holds the blocks of the `i`-th kept preset, and the `i`-th entry after the
   * built-in one describes that same preset.
   */
  lemma OutputsAgree(content: string, convert: Converter, i: nat)
    requires i < |Filtered(ParsePresets(content))|
    ensures var kept := Filtered(ParsePresets(content));
      && 4 * i + 4 <= |AllChunks(kept, convert)| && 7 * i + 7 <= |AllEntries(kept, convert)|
      && AllChunks(kept, convert)[4 * i..4 * i + 4] == PresetChunks(kept[i].0, kept[i].1, convert)
      && AllEntries(kept, convert)[7 * i..7 * i + 7] == PresetEntry(kept[i].0, kept[i].1, convert)
  {
    var kept := Filtered(ParsePresets(content));
    ChunksAt(kept, convert, i);
    EntryAt(kept, convert, i);
  }
}

=== FILE: layout_server.dfy ===
/** The root layout's server load: reads the preference cookies and validates them against the allow-lists. */
module LayoutServer {
  import opened Wrappers
  import Config

  /** `cookies.get(name)`: the request's cookie value, or `undefined` when it is absent. */
  function CookieValue(cookies: map<string, string>, name: string): (r: Option<string>)
    ensures r.Some? <==> name in cookies
    ensures r.Some? ==> r.value == cookies[name]
  {
    if name in cookies then Some(cookies[name]) else None
  }

  /** `value` when it is in the allow-list, otherwise `fallback`; an absent value is never in the list. */
  function Validated(value: Option<string>, allowed: seq<string>, fallback: string): (r: string)
    ensures value.Some? && value.value in allowed ==> r == value.value
    ensures !(value.Some? && value.value in allowed) ==> r == fallback
  {
    if value.Some? && value.value in allowed then value.value else fallback
  }

  /** With an allowed fallback the result is always allowed. */
  lemma ValidatedIsAllowed(value: Option<string>, allowed: seq<string>, fallback: string)
    requires fallback in allowed
    ensures Validated(value, allowed, fallback) in allowed
  {
  }

  /** With an allowed fallback, validating a validated value changes nothing. */
  lemma ValidatedIdempotent(value: Option<string>, allowed: seq<string>, fallback: string)
    requires fallback in allowed
    ensures Validated(Some(Validated(value, allowed, fallback)), allowed, fallback)
         == Validated(value, allowed, fallback)
  {
  }

  /** The layout data handed to every page. */
  datatype LayoutData = LayoutData(
    sidebarOpen: bool,
    sidebarCollapsible: string,
    sidebarVariant: string,
    font: string,
    themePreset: string,
    colorMode: string,
    viewApps: string)

  /**
   * The record built by the load function. The sidebar is open unless its cookie is exactly
   * `false`; every other field is its cookie when allowed and the configured default otherwise.
   */
  function Load(cookies: map<string, string>): (d: LayoutData)
    ensures !d.sidebarOpen <==> (Config.SidebarStateCookie in cookies && cookies[Config.SidebarStateCookie] == "false")
    ensures d.sidebarCollapsible in Config.ValidCollapsibles
    ensures d.sidebarVariant in Config.ValidVariants
    ensures d.font in Config.ValidFonts
    ensures d.themePreset in Config.ValidThemePresets
    ensures d.colorMode in Config.ValidColorModes
    ensures d.viewApps in Config.ValidViewApps
    ensures Config.FontCookie in cookies && cookies[Config.FontCookie] in Config.ValidFonts
            ==> d.font == cookies[Config.FontCookie]
    ensures Config.FontCookie !in cookies ==> d.font == Config.DefaultFont
  {
    Config.DefaultsAreValid();
    LayoutData(
      CookieValue(cookies, Config.SidebarStateCookie) != Some("false"),
      Validated(CookieValue(cookies, Config.LayoutCollapsibleCookie), Config.ValidCollapsibles, Config.DefaultCollapsible),
      Validated(CookieValue(cookies, Config.LayoutVariantCookie), Config.ValidVariants, Config.DefaultVariant),
      Validated(CookieValue(cookies, Config.FontCookie), Config.ValidFonts, Config.DefaultFont),
      Validated(CookieValue(cookies, Config.ThemePresetCookie), Config.ValidThemePresets, Config.DefaultThemePreset),
      Validated(CookieValue(cookies, Config.ColorModeCookie), Config.ValidColorModes, Config.DefaultColorMode),
      Validated(CookieValue(cookies, Config.ViewAppsCookie), Config.ValidViewApps, Config.DefaultViewApps))
  }
}

=== FILE: layout_state.dfy ===
/** The sidebar layout preferences: how the sidebar collapses and which variant it renders. */
module Layout {
  import Config

  const ValidCollapsibles: seq<string> := ["offcanvas", "icon", "none"]
  const ValidVariants: seq<string> := ["inset", "sidebar", "floating"]

  /** The string-literal unions `Collapsible` and `Variant`. */
  type Collapsible = s: string | s in ValidCollapsibles witness "icon"
  type Variant = s: string | s in ValidVariants witness "inset"

  /** The class's allow-lists are the cookie allow-lists of the configuration. */
  lemma ValidListsMatchConfig()
    ensures ValidCollapsibles == Config.ValidCollapsibles
    ensures ValidVariants == Config.ValidVariants
  {
  }

  class LayoutState {
    const defaultCollapsible: Collapsible := Config.DefaultCollapsible
    const defaultVariant: Variant := Config.DefaultVariant

    var collapsible: Collapsible
    var variant: Variant

    /** Keeps each initial value that is in its allow-list and falls back to the default otherwise. */
    constructor (initialCollapsible: string, initialVariant: string)
      ensures initialCollapsible in ValidCollapsibles ==> collapsible == initialCollapsible
      ensures initialCollapsible !in ValidCollapsibles ==> collapsible == "icon"
      ensures initialVariant in ValidVariants ==> variant == initialVariant
      ensures initialVariant !in ValidVariants ==> variant == "inset"
    {
      collapsible := if initialCollapsible in ValidCollapsibles then initialCollapsible else Config.DefaultCollapsible;
      variant := if initialVariant in ValidVariants then initialVariant else Config.DefaultVariant;
    }

    /** Changes the collapse mode and nothing else. */
    method SetCollapsible(value: Collapsible)
      modifies this
      ensures collapsible == value && variant == old(variant)
    {
      collapsible := value;
    }

    /** Changes the variant and nothing else. */
    method SetVariant(value: Variant)
      modifies this
      ensures variant == value && collapsible == old(collapsible)
    {
      variant := value;
    }

    /** Restores both defaults; the new state does not depend on the old one, so resetting twice is resetting once. */
    method Reset()
      modifies this
      ensures collapsible == defaultCollapsible == "icon"
      ensures variant == defaultVariant == "inset"
    {
      SetCollapsible(defaultCollapsible);
      SetVariant(defaultVariant);
    }
  }
}

=== FILE: patterns.dfy ===
/**
 * The four regular expressions the preset generator runs over theme source text, each as a
 * matcher at a fixed position together with the leftmost search `exec` performs and the
 * sequence of matches a global (`/g`) `exec` loop visits.
 *
 * None of the four needs backtracking: every greedy character class in them is disjoint from
 * what must follow it, so the greedy run is the only one that can lead to a match. Each matcher
 * below is therefore a straight scan, and each comes with a declarative `...Shape` predicate that
 * reads the regular expression as constraints on positions; the `...Sound` and `...Complete`
 * lemmas show that the scan accepts exactly the shapes.
 */
module Patterns {
  import opened Wrappers
  import opened Text

  /** The character classes the four expressions repeat. */
  datatype CharClass =
    | Space           // `\s`
    | KeyTail         // `[a-z0-9-]`
    | BareKeyTail     // `[a-z0-9]`
    | NotQuote        // `[^"']`
    | NotDoubleQuote  // `[^"]`

  predicate IsQuote(c: char) { c == '"' || c == '\'' }

  predicate InClass(cls: CharClass, c: char) {
    match cls
    case Space => IsSpace(c)
    case KeyTail => IsLowerLetter(c) || IsDigit(c) || c == '-'
    case BareKeyTail => IsLowerLetter(c) || IsDigit(c)
    case NotQuote => !IsQuote(c)
    case NotDoubleQuote => c != '"'
  }

  /** Every character of `s[i..j]` is in `cls`. */
  predicate AllIn(s: string, i: nat, j: nat, cls: CharClass) {
    j <= |s| && forall k :: i <= k < j ==> InClass(cls, s[k])
  }

  /** The end of the longest run of `cls` characters from `i`: a greedy `cls*`. */
  function RunEnd(s: string, i: nat, cls: CharClass): (r: nat)
    requires i <= |s|
    ensures i <= r <= |s| && AllIn(s, i, r, cls)
    ensures r == |s| || !InClass(cls, s[r])
    decreases |s| - i
  {
    if i < |s| && InClass(cls, s[i]) then RunEnd(s, i + 1, cls) else i
  }

  /** A run of `cls` characters that stops where the class does is the greedy run. */
  lemma {:induction false} RunEndIs(s: string, i: nat, cls: CharClass, n: nat)
    requires i <= n && AllIn(s, i, n, cls) && (n == |s| || !InClass(cls, s[n]))
    ensures RunEnd(s, i, cls) == n
    decreases n - i
  {
    if i < n {
      RunEndIs(s, i + 1, cls, n);
    }
  }

  /** One match: where it starts and ends, and its capture groups (empty when unused). */
  datatype Match = Match(start: nat, end: nat, first: string, second: string)

  /** The mode the style block is looked up for. */
  type Mode = m: string | m == "light" || m == "dark" witness "light"

  datatype Pattern =
    | ModeOpen(mode: Mode)  // `${mode}:\s*\{`
    | StyleEntry            // `["']?([a-z][a-z0-9-]*)["']?\s*:\s*["']([^"']+)["']`
    | PresetKey             // `^\s{2}(?:"([a-z][a-z0-9-]*)"|([a-z][a-z0-9]*)):\s*\{` with the `m` flag
    | Label                 // `label:\s*"([^"]+)"`

  // ---------------------------------------------------------------------------------------------
  // `${mode}:\s*\{`

  /** `s[p..e]` is the mode name, a colon, white space and an opening brace. */
  predicate ModeOpenShape(s: string, mode: string, p: nat, e: nat) {
    && OccursAt(s, mode + ":", p)
    && p + |mode| + 1 < e <= |s|
    && AllIn(s, p + |mode| + 1, e - 1, Space)
    && s[e - 1] == '{'
  }

  function ModeOpenAt(s: string, mode: Mode, p: nat): (r: Option<Match>)
    requires p <= |s|
    ensures r.Some? ==> r.value.start == p && p < r.value.end <= |s|
  {
    if OccursAt(s, mode + ":", p) then
      var q := RunEnd(s, p + |mode| + 1, Space);
      if q < |s| && s[q] == '{' then Some(Match(p, q + 1, "", "")) else None
    else None
  }

  lemma {:induction false} ModeOpenSound(s: string, mode: Mode, p: nat)
    requires p <= |s| && ModeOpenAt(s, mode, p).Some?
    ensures ModeOpenShape(s, mode, p, ModeOpenAt(s, mode, p).value.end)
  {
  }

  lemma {:induction false} ModeOpenComplete(s: string, mode: Mode, p: nat, e: nat)
    requires p <= |s| && ModeOpenShape(s, mode, p, e)
    ensures ModeOpenAt(s, mode, p) == Some(Match(p, e, "", ""))
  {
    RunEndIs(s, p + |mode| + 1, Space, e - 1);
  }

  // ---------------------------------------------------------------------------------------------
  // `["']?([a-z][a-z0-9-]*)["']?\s*:\s*["']([^"']+)["']`

  /**
   * `s[p..e]` is an optional quote (`i` is `p` or `p + 1`), the key `s[i..k]`, an optional quote
   * (`j` is `k` or `k + 1`), white space up to the colon at `c`, white space up to the quote at
   * `v`, the value `s[v + 1..e - 1]` without quotes, and a closing quote at `e - 1`.
   */
  predicate StyleEntryShape(s: string, p: nat, i: nat, k: nat, j: nat, c: nat, v: nat, e: nat) {
    StyleKeyShape(s, p, i, k, j) && StyleValueShape(s, j, c, v, e)
  }

  predicate StyleKeyShape(s: string, p: nat, i: nat, k: nat, j: nat) {
    && (i == p || (i == p + 1 && p < |s| && IsQuote(s[p])))
    && i < k <= |s| && IsLowerLetter(s[i]) && AllIn(s, i + 1, k, KeyTail)
    && (j == k || (j == k + 1 && k < |s| && IsQuote(s[k])))
  }

  predicate StyleValueShape(s: string, j: nat, c: nat, v: nat, e: nat) {
    && j <= c && AllIn(s, j, c, Space) && c < |s| && s[c] == ':'
    && c < v && AllIn(s, c + 1, v, Space) && v < |s| && IsQuote(s[v])
    && v + 1 < e - 1 && e <= |s| && AllIn(s, v + 1, e - 1, NotQuote) && IsQuote(s[e - 1])
  }

  /** The key part, `["']?([a-z][a-z0-9-]*)["']?`: the key's span and where the part ends. */
  function StyleKeyAt(s: string, p: nat): (r: Option<(nat, nat, nat)>)
    requires p <= |s|
    ensures r.Some? ==> p <= r.value.0 < r.value.1 <= r.value.2 <= |s|
  {
    var i := if p < |s| && IsQuote(s[p]) then p + 1 else p;
    if !(i < |s| && IsLowerLetter(s[i])) then None
    else
      var k := RunEnd(s, i + 1, KeyTail);
      var j := if k < |s| && IsQuote(s[k]) then k + 1 else k;
      Some((i, k, j))
  }

  /** The rest, `\s*:\s*["']([^"']+)["']` from `j`: the colon, the opening quote and the closing quote. */
  function StyleValueAt(s: string, j: nat): (r: Option<(nat, nat, nat)>)
    requires j <= |s|
    ensures r.Some? ==> j <= r.value.0 < r.value.1 && r.value.1 + 1 < r.value.2 < |s|
  {
    var c := RunEnd(s, j, Space);
    if !(c < |s| && s[c] == ':') then None
    else
      var v := RunEnd(s, c + 1, Space);
      if !(v < |s| && IsQuote(s[v])) then None
      else
        var w := RunEnd(s, v + 1, NotQuote);
        if w == v + 1 || w == |s| then None else Some((c, v, w))
  }

  function StyleEntryAt(s: string, p: nat): (r: Option<Match>)
    requires p <= |s|
    ensures r.Some? ==> r.value.start == p && p < r.value.end <= |s|
  {
    var key := StyleKeyAt(s, p);
    if key.None? then None
    else
      var (i, k, j) := key.value;
      var value := StyleValueAt(s, j);
      if value.None? then None
      else
        var (c, v, w) := value.value;
        Some(Match(p, w + 1, s[i..k], s[v + 1..w]))
  }

  /** A match has the shape of the expression, and its groups are the key and the value. */
  lemma {:induction false} StyleEntrySound(s: string, p: nat)
    requires p <= |s| && StyleEntryAt(s, p).Some?
    ensures var m := StyleEntryAt(s, p).value;
      exists i: nat, k: nat, j: nat, c: nat, v: nat :: StyleEntryShape(s, p, i, k, j, c, v, m.end)
        && m.first == s[i..k] && m.second == s[v + 1..m.end - 1]
  {
    var (i, k, j) := StyleKeyAt(s, p).value;
    var (c, v, w) := StyleValueAt(s, j).value;
    assert StyleEntryShape(s, p, i, k, j, c, v, w + 1);
  }

  /** Text of the expression's shape is matched, with the groups the shape determines. */
  lemma {:induction false} StyleEntryComplete(s: string, p: nat, i: nat, k: nat, j: nat, c: nat, v: nat, e: nat)
    requires p <= |s| && StyleEntryShape(s, p, i, k, j, c, v, e)
    ensures StyleEntryAt(s, p) == Some(Match(p, e, s[i..k], s[v + 1..e - 1]))
  {
    StyleKeyComplete(s, p, i, k, j);
    StyleValueComplete(s, j, c, v, e);
  }

  lemma {:induction false} StyleKeyComplete(s: string, p: nat, i: nat, k: nat, j: nat)
    requires p <= |s| && StyleKeyShape(s, p, i, k, j)
    requires k < |s| && (j == k ==> s[k] == ':' || IsSpace(s[k]))
    ensures StyleKeyAt(s, p) == Some((i, k, j))
  {
    RunEndIs(s, i + 1, KeyTail, k);
  }

  lemma {:induction false} StyleValueComplete(s: string, j: nat, c: nat, v: nat, e: nat)
    requires j <= |s| && StyleValueShape(s, j, c, v, e)
    ensures StyleValueAt(s, j) == Some((c, v, e - 1))
  {
    RunEndIs(s, j, Space, c);
    RunEndIs(s, c + 1, Space, v);
    RunEndIs(s, v + 1, NotQuote, e - 1);
  }

  // ---------------------------------------------------------------------------------------------
  // `^\s{2}(?:"([a-z][a-z0-9-]*)"|([a-z][a-z0-9]*)):\s*\{` with the `m` flag

  /**
   * `s[p..e]` starts a line (a multiline `^`), holds two white-space characters, then the name
   * `s[a..b]` either in double quotes (dashes allowed) or bare (no dashes), a colon at `j`,
   * white space and an opening brace at `e - 1`.
   */
  predicate PresetKeyShape(s: string, p: nat, quoted: bool, a: nat, b: nat, j: nat, e: nat) {
    && (p == 0 || (p <= |s| && IsLineTerminator(s[p - 1])))
    && p + 2 < |s| && IsSpace(s[p]) && IsSpace(s[p + 1])
    && (quoted ==> a == p + 3 && s[p + 2] == '"' && AllIn(s, a + 1, b, KeyTail) && b < |s| && s[b] == '"' && j == b + 1)
    && (!quoted ==> a == p + 2 && AllIn(s, a + 1, b, BareKeyTail) && j == b)
    && a < b && IsLowerLetter(s[a])
    && j < e - 1 && e <= |s| && s[j] == ':' && AllIn(s, j + 1, e - 1, Space) && s[e - 1] == '{'
  }

  /** The name part of the expression: the position of the colon after it and the name's span. */
  function PresetNameAt(s: string, i: nat): (r: Option<(nat, nat, nat)>)
    requires i <= |s|
    ensures r.Some? ==> i <= r.value.0 < r.value.1 <= r.value.2 <= |s|
  {
    if i < |s| && s[i] == '"' then
      if i + 1 < |s| && IsLowerLetter(s[i + 1]) then
        var k := RunEnd(s, i + 2, KeyTail);
        if k < |s| && s[k] == '"' then Some((i + 1, k, k + 1)) else None
      else None
    else if i < |s| && IsLowerLetter(s[i]) then
      var k := RunEnd(s, i + 1, BareKeyTail);
      Some((i, k, k))
    else None
  }

  function PresetKeyAt(s: string, p: nat): (r: Option<Match>)
    requires p <= |s|
    ensures r.Some? ==> r.value.start == p && p < r.value.end <= |s|
  {
    if !(p == 0 || IsLineTerminator(s[p - 1])) then None
    else if !(p + 2 <= |s| && IsSpace(s[p]) && IsSpace(s[p + 1])) then None
    else
      var name := PresetNameAt(s, p + 2);
      if name.None? then None
      else
        var (a, b, j) := name.value;
        if !(j < |s| && s[j] == ':') then None
        else
          var q := RunEnd(s, j + 1, Space);
          if q < |s| && s[q] == '{' then Some(Match(p, q + 1, s[a..b], "")) else None
  }

  /** A match has the shape of the expression, and its group is the preset name. */
  lemma {:induction false} PresetKeySound(s: string, p: nat)
    requires p <= |s| && PresetKeyAt(s, p).Some?
    ensures var m := PresetKeyAt(s, p).value;
      exists quoted: bool, a: nat, b: nat, j: nat :: PresetKeyShape(s, p, quoted, a, b, j, m.end) && m.first == s[a..b]
  {
    var (a, b, j) := PresetNameAt(s, p + 2).value;
    var quoted := s[p + 2] == '"';
    var q := RunEnd(s, j + 1, Space);
    assert PresetKeyShape(s, p, quoted, a, b, j, q + 1);
  }

  /** Text of the expression's shape is matched, with the name the shape determines. */
  lemma {:induction false} PresetKeyComplete(s: string, p: nat, quoted: bool, a: nat, b: nat, j: nat, e: nat)
    requires p <= |s| && PresetKeyShape(s, p, quoted, a, b, j, e)
    ensures PresetKeyAt(s, p) == Some(Match(p, e, s[a..b], ""))
  {
    assert PresetNameAt(s, p + 2) == Some((a, b, j)) by {
      PresetNameComplete(s, p, quoted, a, b, j, e);
    }
    RunEndIs(s, j + 1, Space, e - 1);
  }

  /** The name part of a text of the expression's shape is the shape's name. */
  lemma {:induction false} PresetNameComplete(s: string, p: nat, quoted: bool, a: nat, b: nat, j: nat, e: nat)
    requires p <= |s| && PresetKeyShape(s, p, quoted, a, b, j, e)
    ensures PresetNameAt(s, p + 2) == Some((a, b, j))
  {
    if quoted {
      RunEndIs(s, a + 1, KeyTail, b);
    } else {
      assert b == |s| || !InClass(BareKeyTail, s[b]);
      RunEndIs(s, a + 1, BareKeyTail, b);
    }
  }

  // ---------------------------------------------------------------------------------------------
  // `label:\s*"([^"]+)"`

  /** `s[p..e]` is `label:`, white space, and a non-empty double-quoted text starting at `q`. */
  predicate LabelShape(s: string, p: nat, q: nat, e: nat) {
    && OccursAt(s, "label:", p)
    && p + 6 <= q && AllIn(s, p + 6, q, Space) && q < |s| && s[q] == '"'
    && q + 1 < e - 1 && e <= |s| && AllIn(s, q + 1, e - 1, NotDoubleQuote) && s[e - 1] == '"'
  }

  function LabelAt(s: string, p: nat): (r: Option<Match>)
    requires p <= |s|
    ensures r.Some? ==> r.value.start == p && p < r.value.end <= |s|
  {
    if OccursAt(s, "label:", p) then
      var q := RunEnd(s, p + 6, Space);
      if q < |s| && s[q] == '"' then
        var w := RunEnd(s, q + 1, NotDoubleQuote);
        if w == q + 1 || w == |s| then None else Some(Match(p, w + 1, s[q + 1..w], ""))
      else None
    else None
  }

  /** A match has the shape of the expression, and its group is the quoted text. */
  lemma {:induction false} LabelSound(s: string, p: nat)
    requires p <= |s| && LabelAt(s, p).Some?
    ensures var m := LabelAt(s, p).value;
      exists q :: LabelShape(s, p, q, m.end) && m.first == s[q + 1..m.end - 1]
  {
    var q := RunEnd(s, p + 6, Space);
    var w := RunEnd(s, q + 1, NotDoubleQuote);
    assert LabelShape(s, p, q, w + 1);
  }

  /** Text of the expression's shape is matched, with the quoted text as its group. */
  lemma {:induction false} LabelComplete(s: string, p: nat, q: nat, e: nat)
    requires p <= |s| && LabelShape(s, p, q, e)
    ensures LabelAt(s, p) == Some(Match(p, e, s[q + 1..e - 1], ""))
  {
    RunEndIs(s, p + 6, Space, q);
    RunEndIs(s, q + 1, NotDoubleQuote, e - 1);
  }

  // ---------------------------------------------------------------------------------------------
  // Searching

  /** The match of `pat` that starts exactly at `p`, if any. */
  function MatchAt(pat: Pattern, s: string, p: nat): (r: Option<Match>)
    requires p <= |s|
    ensures r.Some? ==> r.value.start == p && p < r.value.end <= |s|
  {
    match pat
    case ModeOpen(mode) => ModeOpenAt(s, mode, p)
    case StyleEntry => StyleEntryAt(s, p)
    case PresetKey => PresetKeyAt(s, p)
    case Label => LabelAt(s, p)
  }

  /** `exec` from `lastIndex == from`: the match at the leftmost position at or after `from`. */
  function FirstMatch(pat: Pattern, s: string, from: nat): (r: Option<Match>)
    requires from <= |s|
    ensures r.Some? ==> from <= r.value.start < r.value.end <= |s|
    decreases |s| - from
  {
    var m := MatchAt(pat, s, from);
    if m.Some? then m
    else if from == |s| then None
    else FirstMatch(pat, s, from + 1)
  }

  /** The match found is the one at its start, and the expression matches at no earlier position. */
  lemma {:induction false} FirstMatchIsLeftmost(pat: Pattern, s: string, from: nat)
    requires from <= |s|
    ensures FirstMatch(pat, s, from).Some? ==>
      MatchAt(pat, s, FirstMatch(pat, s, from).value.start) == FirstMatch(pat, s, from)
    ensures forall p :: from <= p <= |s| && (FirstMatch(pat, s, from).None? || p < FirstMatch(pat, s, from).value.start) ==>
      MatchAt(pat, s, p).None?
    decreases |s| - from
  {
    if MatchAt(pat, s, from).None? && from < |s| {
      FirstMatchIsLeftmost(pat, s, from + 1);
    }
  }

  /**
   * The matches a `/g` loop visits from `lastIndex == from`: each search resumes where the
   * previous match ended, until a search fails.
   */
  function AllMatches(pat: Pattern, s: string, from: nat): (r: seq<Match>)
    requires from <= |s|
    ensures forall i :: 0 <= i < |r| ==> from <= r[i].start < r[i].end <= |s|
    ensures forall i, j :: 0 <= i < j < |r| ==> r[i].end <= r[j].start
    decreases |s| - from
  {
    var m := FirstMatch(pat, s, from);
    if m.None? then [] else [m.value] + AllMatches(pat, s, m.value.end)
  }

  /** One step of the `/g` loop: the first match, then the matches after it. */
  lemma AllMatchesStep(pat: Pattern, s: string, from: nat)
    requires from <= |s|
    ensures FirstMatch(pat, s, from).None? ==> AllMatches(pat, s, from) == []
    ensures FirstMatch(pat, s, from).Some? ==>
      AllMatches(pat, s, from) == [FirstMatch(pat, s, from).value] + AllMatches(pat, s, FirstMatch(pat, s, from).value.end)
  {
  }

  /** Every visited match is the expression's match at its start. */
  lemma {:induction false} AllMatchesAreMatches(pat: Pattern, s: string, from: nat)
    requires from <= |s|
    ensures forall i :: 0 <= i < |AllMatches(pat, s, from)| ==>
      MatchAt(pat, s, AllMatches(pat, s, from)[i].start) == Some(AllMatches(pat, s, from)[i])
    decreases |s| - from
  {
    FirstMatchIsLeftmost(pat, s, from);
    var m := FirstMatch(pat, s, from);
    if m.Some? {
      AllMatchesAreMatches(pat, s, m.value.end);
      var r := AllMatches(pat, s, from);
      var rest := AllMatches(pat, s, m.value.end);
      assert r == [m.value] + rest;
      assert MatchAt(pat, s, m.value.start) == m;
      forall i | 0 <= i < |r| ensures MatchAt(pat, s, r[i].start) == Some(r[i]) {
        if i > 0 {
          assert r[i] == rest[i - 1];
          assert MatchAt(pat, s, rest[i - 1].start) == Some(rest[i - 1]);
        } else {
          assert r[i] == m.value;
        }
      }
    }
  }

  /**
   * No match is skipped: a position where the expression matches either starts one of the visited
   * matches or lies inside one (the search resumes past it).
   */
  lemma {:induction false} AllMatchesCover(pat: Pattern, s: string, from: nat, p: nat)
    requires from <= p <= |s| && MatchAt(pat, s, p).Some?
    ensures exists i :: (0 <= i < |AllMatches(pat, s, from)|
      && AllMatches(pat, s, from)[i].start <= p < AllMatches(pat, s, from)[i].end)
    decreases |s| - from
  {
    assert FirstMatch(pat, s, from).Some? && FirstMatch(pat, s, from).value.start <= p by {
      FirstMatchIsLeftmost(pat, s, from);
    }
    var m := FirstMatch(pat, s, from).value;
    var rest := AllMatches(pat, s, m.end);
    assert AllMatches(pat, s, from) == [m] + rest by {
      AllMatchesStep(pat, s, from);
    }
    if m.end <= p {
      AllMatchesCover(pat, s, m.end, p);
      var i :| 0 <= i < |rest| && rest[i].start <= p < rest[i].end;
      assert AllMatches(pat, s, from)[i + 1] == rest[i];
    } else {
      assert AllMatches(pat, s, from)[0] == m;
    }
  }
}

=== FILE: preset_color.dfy ===
/**
 * Colour conversion of the preset build script: any colour value that is not already written
 * as `oklch(...)` is converted to OkLCH, and a value that cannot be parsed is kept as it is.
 * Parsing and conversion belong to a colour library; here they are one function parameter.
 */
module PresetColor {
  import opened Wrappers
  import opened Text
  import opened Seqs

  /**
   * A channel value as the colour library returns it: absent (`undefined`, as the hue of a grey
   * is), not a number, a whole number, or any other number together with the text its
   * `toFixed(4)` gives.
   */
  datatype Num = Missing | NotANumber | Whole(n: int) | Fraction(fixed4: string)

  /** The text `toFixed(4)` gives is non-empty and has no white space. */
  predicate WellFormed(x: Num) {
    x.Fraction? ==> |x.fixed4| > 0 && forall i :: 0 <= i < |x.fixed4| ==> !IsSpace(x.fixed4[i])
  }

  /** An OkLCH colour: lightness, chroma and hue. */
  datatype Oklch = Oklch(l: Num, c: Num, h: Num)

  /** Parsing a colour text and converting it to OkLCH; nothing when the text does not parse. */
  type Converter = string -> Option<Oklch>

  /** `formatNum`: a missing value or NaN prints as `0`, a whole number in plain decimal. */
  function FormatNum(x: Num): (r: string)
    ensures x.Missing? || x.NotANumber? ==> r == "0"
    ensures WellFormed(x) ==> |r| > 0 && forall i :: 0 <= i < |r| ==> !IsSpace(r[i])
  {
    match x
    case Missing => "0"
    case NotANumber => "0"
    case Whole(n) => IntToString(n)
    case Fraction(fixed4) => fixed4
  }

  /** `oklch(L C H)` for the three channels. */
  function OklchText(o: Oklch): string {
    "oklch(" + FormatNum(o.l) + " " + FormatNum(o.c) + " " + FormatNum(o.h) + ")"
  }

  const OklchPrefix: string := "oklch("

  /** `toOklch`: OkLCH values pass through, others are converted, unparsable ones kept. */
  function ToOklch(value: string, convert: Converter): (r: string)
    ensures StartsWith(value, OklchPrefix) ==> r == value
    ensures r == value || StartsWith(r, OklchPrefix)
  {
    if StartsWith(value, OklchPrefix) then value
    else
      match convert(value)
      case None => value
      case Some(o) => OklchText(o)
  }

  /** A value the library cannot parse is kept, and a parsable one is replaced by its conversion. */
  lemma ToOklchConverts(value: string, convert: Converter)
    requires !StartsWith(value, OklchPrefix)
    ensures convert(value).None? ==> ToOklch(value, convert) == value
    ensures convert(value).Some? ==> ToOklch(value, convert) == OklchText(convert(value).value)
  {
  }

  /** Converting a converted value again changes nothing. */
  lemma ToOklchIdempotent(value: string, convert: Converter)
    ensures ToOklch(ToOklch(value, convert), convert) == ToOklch(value, convert)
  {
  }

  /**
   * The channels can be read back from a converted value: the text between `oklch(` and `)`
   * splits on spaces into the three formatted channels.
   */
  lemma OklchTextChannels(o: Oklch)
    requires WellFormed(o.l) && WellFormed(o.c) && WellFormed(o.h)
    ensures var t := OklchText(o);
      |t| >= 7 && StartsWith(t, OklchPrefix) && t[|t| - 1] == ')'
      && Split(t[6..|t| - 1], " ") == [FormatNum(o.l), FormatNum(o.c), FormatNum(o.h)]
  {
    var parts := [FormatNum(o.l), FormatNum(o.c), FormatNum(o.h)];
    var inner := FormatNum(o.l) + " " + FormatNum(o.c) + " " + FormatNum(o.h);
    OklchTextShape(o);
    Wrapped(OklchPrefix, inner, ")");
    assert Join(parts, " ") == inner by {
      JoinThree(parts[0], parts[1], parts[2]);
    }
    assert forall k :: 0 <= k < 3 ==> !Contains(parts[k], " ") by {
      NoSpaceNotContained(parts[0]);
      NoSpaceNotContained(parts[1]);
      NoSpaceNotContained(parts[2]);
    }
    SplitJoin(parts, ' ');
  }

  /** The converted text is the prefix, the three channels separated by spaces, and `)`. */
  lemma OklchTextShape(o: Oklch)
    ensures OklchText(o) == OklchPrefix + (FormatNum(o.l) + " " + FormatNum(o.c) + " " + FormatNum(o.h)) + ")"
  {
    var a, b, c := FormatNum(o.l), FormatNum(o.c), FormatNum(o.h);
    ConcatAssociates(OklchPrefix, a, " ");
    ConcatAssociates(OklchPrefix, a + " ", b);
    ConcatAssociates(OklchPrefix, a + " " + b, " ");
    ConcatAssociates(OklchPrefix, a + " " + b + " ", c);
  }

  /** A converted value of well-formed channels has no line break. */
  lemma OklchTextNoNewline(o: Oklch)
    requires WellFormed(o.l) && WellFormed(o.c) && WellFormed(o.h)
    ensures NoNewline(OklchText(o))
  {
    var a, b, c := FormatNum(o.l), FormatNum(o.c), FormatNum(o.h);
    assert NoNewline(a) && NoNewline(b) && NoNewline(c) && NoNewline(" ") && NoNewline(")");
    NoNewlineConcat(OklchPrefix, a);
    NoNewlineConcat(OklchPrefix + a, " ");
    NoNewlineConcat(OklchPrefix + a + " ", b);
    NoNewlineConcat(OklchPrefix + a + " " + b, " ");
    NoNewlineConcat(OklchPrefix + a + " " + b + " ", c);
    NoNewlineConcat(OklchPrefix + a + " " + b + " " + c, ")");
  }

  /** Where the parts of `pre + mid + post` lie. */
  lemma Wrapped(pre: string, mid: string, post: string)
    requires |post| == 1
    ensures var t := pre + mid + post;
      |t| == |pre| + |mid| + 1 && StartsWith(t, pre) && t[|t| - 1] == post[0] && t[|pre|..|t| - 1] == mid
  {
  }

  /** Three parts joined by spaces. */
  lemma JoinThree(a: string, b: string, c: string)
    ensures Join([a, b, c], " ") == a + " " + b + " " + c
  {
    assert Join([c], " ") == c;
    assert [b, c][1..] == [c];
    assert Join([b, c], " ") == b + " " + c;
    assert [a, b, c][1..] == [b, c];
    ConcatAssociates(a + " ", b + " ", c);
    ConcatAssociates(a + " ", b, " ");
  }

  /** A text without white space holds no space. */
  lemma NoSpaceNotContained(s: string)
    requires forall i :: 0 <= i < |s| ==> !IsSpace(s[i])
    ensures !Contains(s, " ")
  {
    ContainsChar(s, ' ');
  }
}

=== FILE: preset_css.dfy ===
/**
 * The generated stylesheet: for every preset a light block under `:root[data-preset="name"]`
 * and a dark block under `.dark[data-preset="name"]`, each declaring the colour roles (converted
 * to OkLCH) in their fixed order and then the radius, one custom property per line.
 */
module PresetCss {
  import opened Wrappers
  import opened Text
  import opened Records
  import opened PresetDefaults
  import opened PresetColor
  import opened StyleBlock
  import opened PresetParse
  import opened PresetMerge
  import opened Seqs

  /** One custom-property line: two spaces, `--prop: value;`. */
  function Declaration(prop: string, value: string): string {
    "  --" + prop + ": " + value + ";"
  }

  /** The value printed for a present property: converted for colour roles, verbatim otherwise. */
  function Printed(styles: Styles, prop: string, convert: Option<Converter>): string
    requires prop in styles
  {
    match convert
    case Some(c) => ToOklch(styles[prop], c)
    case None => styles[prop]
  }

  /**
   * One declaration for each property of `props` the styles define, in the order of `props`.
   * (`styles` is named in the decreases clause so that a literal property list is not unrolled
   * by the verifier wherever a block appears.)
   */
  function Decls(styles: Styles, props: seq<string>, convert: Option<Converter>): seq<string>
    decreases |props|, |styles|
  {
    if |props| == 0 then []
    else
      var prop := props[|props| - 1];
      Decls(styles, props[..|props| - 1], convert)
      + (if prop in styles then [Declaration(prop, Printed(styles, prop, convert))] else [])
  }

  /** The lines of a block: the selector line, colour roles, pass-through properties, `}`. */
  function CssLines(selector: string, styles: Styles, convert: Converter): seq<string> {
    [selector + " {"] + Decls(styles, ColorProps, Some(convert)) + Decls(styles, PassthroughProps, None) + ["}"]
  }

  /** `generateCssBlock(selector, styles)`, as a value. */
  function CssBlock(selector: string, styles: Styles, convert: Converter): string {
    Join(CssLines(selector, styles, convert), "\n")
  }

  /** `generateCssBlock`: the two loops over the property lists, then the join. */
  method GenerateCssBlock(selector: string, styles: Styles, convert: Converter) returns (css: string)
    ensures css == CssBlock(selector, styles, convert)
  {
    var lines := [selector + " {"];
    var roles := ColorProps;
    for i := 0 to |roles|
      invariant lines == [selector + " {"] + Decls(styles, roles[..i], Some(convert))
    {
      var prop := roles[i];
      if prop in styles {
        lines := lines + [Declaration(prop, ToOklch(styles[prop], convert))];
      }
      assert roles[..i + 1][..i] == roles[..i];
    }
    assert roles[..|roles|] == roles;
    ghost var colorLines := lines;
    var passthrough := PassthroughProps;
    for i := 0 to |passthrough|
      invariant lines == colorLines + Decls(styles, passthrough[..i], None)
    {
      var prop := passthrough[i];
      if prop in styles {
        lines := lines + [Declaration(prop, styles[prop])];
      }
      assert passthrough[..i + 1][..i] == passthrough[..i];
    }
    assert passthrough[..|passthrough|] == passthrough;
    lines := lines + ["}"];
    css := Join(lines, "\n");
  }

  /** When the styles define every property listed, there is one line per property, in order. */
  lemma {:induction false} DeclsOfDefined(styles: Styles, props: seq<string>, convert: Option<Converter>)
    requires forall i :: 0 <= i < |props| ==> props[i] in styles
    ensures |Decls(styles, props, convert)| == |props|
    ensures forall i :: 0 <= i < |props| ==>
      Decls(styles, props, convert)[i] == Declaration(props[i], Printed(styles, props[i], convert))
    decreases |props|
  {
    if |props| > 0 {
      var n := |props|;
      DeclsOfDefined(styles, props[..n - 1], convert);
      assert forall i :: 0 <= i < n - 1 ==> props[..n - 1][i] == props[i];
    }
  }

  /** A property the styles do not define gets no line, and one they do gets exactly one. */
  lemma {:induction false} DeclsCount(styles: Styles, props: seq<string>, convert: Option<Converter>)
    ensures |Decls(styles, props, convert)| <= |props|
    ensures (forall i :: 0 <= i < |props| ==> props[i] !in styles) ==> Decls(styles, props, convert) == []
    decreases |props|
  {
    if |props| > 0 {
      var n := |props|;
      DeclsCount(styles, props[..n - 1], convert);
      assert forall i :: 0 <= i < n - 1 ==> props[..n - 1][i] == props[i];
    }
  }

  /** Styles defining every colour role and the radius. */
  ghost predicate Complete(styles: Styles) {
    forall p :: p in ColorProps || p in PassthroughProps ==> p in styles
  }

  /**
   * For complete styles a block has 35 lines: the selector line, the 32 colour roles in their
   * fixed order with converted values, the radius verbatim, and the closing brace.
   */
  lemma CssLinesOfComplete(selector: string, styles: Styles, convert: Converter)
    requires Complete(styles)
    ensures |CssLines(selector, styles, convert)| == 35
    ensures CssLines(selector, styles, convert)[0] == selector + " {"
    ensures forall i :: 0 <= i < 32 ==>
      CssLines(selector, styles, convert)[i + 1] == Declaration(ColorProps[i], ToOklch(styles[ColorProps[i]], convert))
    ensures CssLines(selector, styles, convert)[33] == Declaration("radius", styles["radius"])
    ensures CssLines(selector, styles, convert)[34] == "}"
  {
    assert |ColorProps| == 32;
    DeclsOfDefined(styles, ColorProps, Some(convert));
    DeclsOfDefined(styles, PassthroughProps, None);
  }

  /** A converter whose channel texts are well-formed. */
  ghost predicate SafeConverter(convert: Converter) {
    forall v :: convert(v).Some? ==> WellFormed(convert(v).value.l) && WellFormed(convert(v).value.c) && WellFormed(convert(v).value.h)
  }

  /** Converting a value without line breaks gives a value without line breaks. */
  lemma ToOklchNoNewline(value: string, convert: Converter)
    requires NoNewline(value) && SafeConverter(convert)
    ensures NoNewline(ToOklch(value, convert))
  {
    if !StartsWith(value, OklchPrefix) && convert(value).Some? {
      OklchTextNoNewline(convert(value).value);
    }
  }

  /** No line of a block breaks when the selector, the property names and the values do not. */
  lemma {:induction false} DeclsNoNewline(styles: Styles, props: seq<string>, convert: Option<Converter>)
    requires forall i :: 0 <= i < |props| ==> NoNewline(props[i])
    requires forall p :: p in styles ==> NoNewline(styles[p])
    requires convert.Some? ==> SafeConverter(convert.value)
    ensures forall i :: 0 <= i < |Decls(styles, props, convert)| ==> NoNewline(Decls(styles, props, convert)[i])
    decreases |props|
  {
    if |props| > 0 {
      var n := |props|;
      var prop := props[n - 1];
      DeclsNoNewline(styles, props[..n - 1], convert);
      if prop in styles {
        var v := Printed(styles, prop, convert);
        if convert.Some? {
          ToOklchNoNewline(styles[prop], convert.value);
        }
        assert NoNewline(Declaration(prop, v)) by {
          assert Declaration(prop, v) == "  --" + prop + ": " + v + ";";
        }
      }
    }
  }

  /**
   * The block text reads back as its lines: splitting it on line breaks gives `CssLines`, when
   * the selector and the values have no line breaks and the converter's channels are well-formed.
   */
  lemma CssBlockSplits(selector: string, styles: Styles, convert: Converter)
    requires NoNewline(selector) && SafeConverter(convert)
    requires forall p :: p in styles ==> NoNewline(styles[p])
    ensures Split(CssBlock(selector, styles, convert), "\n") == CssLines(selector, styles, convert)
  {
    var lines := CssLines(selector, styles, convert);
    var colors := Decls(styles, ColorProps, Some(convert));
    var passes := Decls(styles, PassthroughProps, None);
    PropNamesHaveNoNewline();
    DeclsNoNewline(styles, ColorProps, Some(convert));
    DeclsNoNewline(styles, PassthroughProps, None);
    assert NoNewline(selector + " {");
    forall k | 0 <= k < |lines| ensures !Contains(lines[k], ['\n']) {
      ContainsChar(lines[k], '\n');
      if 0 < k <= |colors| {
        assert lines[k] == colors[k - 1];
      } else if |colors| < k < |lines| - 1 {
        assert lines[k] == passes[k - 1 - |colors|];
      }
    }
    SplitJoin(lines, '\n');
  }

  /** The comment lines the stylesheet starts with. */
  const CssHeader: seq<string> := [
    "/* Auto-generated by generate-presets.ts -- DO NOT EDIT */",
    "/* Run: npx tsx src/lib/themes/generate-presets.ts */",
    ""
  ]

  function LightSelector(name: string): string {
    ":root[data-preset=\"" + name + "\"]"
  }

  function DarkSelector(name: string): string {
    ".dark[data-preset=\"" + name + "\"]"
  }

  /** The four chunks one preset adds: its light block, a blank, its dark block, a blank. */
  function PresetChunks(name: string, def: PresetDef, convert: Converter): seq<string> {
    var merged := MergeWithDefaults(def.light, def.dark);
    [CssBlock(LightSelector(name), merged.light, convert), "", CssBlock(DarkSelector(name), merged.dark, convert), ""]
  }

  /** The chunks of one record entry. */
  function ChunksOf(convert: Converter): ((string, PresetDef)) -> seq<string> {
    (entry: (string, PresetDef)) => PresetChunks(entry.0, entry.1, convert)
  }

  /** The chunks of all presets, in the order of the record. */
  function AllChunks(presets: Record<PresetDef>, convert: Converter): seq<string> {
    FlatMap(presets, ChunksOf(convert))
  }

  /** `generatePresetsCSS(presets)`, as a value. */
  function PresetsCss(presets: Record<PresetDef>, convert: Converter): string {
    Join(CssHeader + AllChunks(presets, convert), "\n")
  }

  /** `generatePresetsCSS`: the header, then the loop over the presets, then the join. */
  method GeneratePresetsCss(presets: Record<PresetDef>, convert: Converter) returns (css: string)
    ensures css == PresetsCss(presets, convert)
  {
    var chunks := CollectChunks(presets, convert);
    css := Join(chunks, "\n");
  }

  /** The header and the loop over the presets, before the join. */
  method CollectChunks(presets: Record<PresetDef>, convert: Converter) returns (chunks: seq<string>)
    ensures chunks == CssHeader + AllChunks(presets, convert)
  {
    chunks := CssHeader;
    ghost var head := chunks;
    for i := 0 to |presets|
      invariant chunks == head + AllChunks(presets[..i], convert)
    {
      chunks := PushPresetBlocks(chunks, presets[i].0, presets[i].1, convert);
      AllChunksStep(head, presets, convert, i);
    }
    assert presets[..|presets|] == presets;
  }

  /** One more preset appends its four chunks. */
  lemma AllChunksStep(head: seq<string>, presets: Record<PresetDef>, convert: Converter, i: nat)
    requires i < |presets|
    ensures head + AllChunks(presets[..i + 1], convert)
      == (head + AllChunks(presets[..i], convert)) + PresetChunks(presets[i].0, presets[i].1, convert)
  {
    FlatMapStep(presets, ChunksOf(convert), i);
    ConcatAssociates(head, AllChunks(presets[..i], convert), PresetChunks(presets[i].0, presets[i].1, convert));
  }

  method PushPresetBlocks(chunks: seq<string>, name: string, preset: PresetDef, convert: Converter)
    returns (chunks': seq<string>)
    ensures chunks' == chunks + PresetChunks(name, preset, convert)
  {
    var merged := MergeWithDefaults(preset.light, preset.dark);
    var light := GenerateCssBlock(LightSelector(name), merged.light, convert);
    var dark := GenerateCssBlock(DarkSelector(name), merged.dark, convert);
    chunks' := chunks + [light, "", dark, ""];
  }

  /**
   * The stylesheet body holds four chunks per preset, in the record's order: the preset's light
   * block, a blank, its dark block, a blank.
   */
  lemma AllChunksLayout(presets: Record<PresetDef>, convert: Converter)
    ensures |AllChunks(presets, convert)| == 4 * |presets|
    ensures forall i :: 0 <= i < |presets| ==>
      AllChunks(presets, convert)[4 * i..4 * i + 4] == PresetChunks(presets[i].0, presets[i].1, convert)
  {
    ChunkSize(convert);
    FlatMapLength(presets, ChunksOf(convert), 4);
    forall i | 0 <= i < |presets|
      ensures AllChunks(presets, convert)[4 * i..4 * i + 4] == PresetChunks(presets[i].0, presets[i].1, convert)
    {
      ChunksAt(presets, convert, i);
    }
  }

  lemma ChunkSize(convert: Converter)
    ensures forall x :: |ChunksOf(convert)(x)| == 4
  {
  }

  lemma ChunksAt(presets: Record<PresetDef>, convert: Converter, i: nat)
    requires i < |presets|
    ensures 4 * i + 4 <= |AllChunks(presets, convert)|
    ensures AllChunks(presets, convert)[4 * i..4 * i + 4] == PresetChunks(presets[i].0, presets[i].1, convert)
  {
    ChunkSize(convert);
    FlatMapAt(presets, ChunksOf(convert), 4, i);
  }

  /**
   * Every preset's blocks declare every colour role and the radius: the merged palettes are
   * complete whatever the preset leaves out.
   */
  lemma PresetBlocksComplete(def: PresetDef)
    ensures Complete(MergeWithDefaults(def.light, def.dark).light)
    ensures Complete(MergeWithDefaults(def.light, def.dark).dark)
  {
    MergedIsTotal(def.light, def.dark);
  }
}

=== FILE: preset_data.dfy ===
/**
 * The generated preset metadata module: a fixed type declaration, then an array literal with
 * one entry per preset (name, label, primary, secondary and primary-foreground colours), the
 * built-in `default` entry first.
 */
module PresetData {
  import opened Wrappers
  import opened Text
  import opened Records
  import opened PresetDefaults
  import opened PresetColor
  import opened PresetParse
  import opened PresetMerge
  import opened Seqs

  /** The lines before the first entry. */
  const DataHeader: seq<string> := [
    "// Auto-generated by generate-presets.ts -- DO NOT EDIT",
    "// Run: npx tsx src/lib/themes/generate-presets.ts",
    "",
    "export type PresetMeta = {",
    "\tname: string;",
    "\tlabel: string;",
    "\tprimaryColor: string;",
    "\tsecondaryColor: string;",
    "\tprimaryForegroundColor: string;",
    "};",
    "",
    "export const presets: readonly PresetMeta[] = ["
  ]

  /** The lines after the last entry. */
  const DataFooter: seq<string> := ["];", ""]

  /** The seven lines of one array entry; every field is a single-quoted literal. */
  function EntryLines(name: string, displayLabel: string, primary: string, secondary: string, primaryFg: string)
    : seq<string>
  {
    [
      "\t{",
      "\t\tname: '" + name + "',",
      "\t\tlabel: '" + displayLabel + "',",
      "\t\tprimaryColor: '" + primary + "',",
      "\t\tsecondaryColor: '" + secondary + "',",
      "\t\tprimaryForegroundColor: '" + primaryFg + "'",
      "\t},"
    ]
  }

  /** The built-in entry: the raw default light colours, label `Default`. */
  function DefaultEntry(): seq<string> {
    EntryLines("default", "Default", DefaultPrimary, DefaultSecondary, DefaultPrimaryForeground)
  }

  /** `preset.label || name`. */
  function DisplayName(def: PresetDef, name: string): string {
    if |def.displayLabel| > 0 then def.displayLabel else name
  }

  /**
   * A colour the entry shows: the merged light value, converted. The merged palette defines
   * every colour role (`EntryColorDefined`), so the empty fallback is never taken.
   */
  function EntryColor(def: PresetDef, prop: string, convert: Converter): string {
    var light := MergeWithDefaults(def.light, def.dark).light;
    ToOklch(if prop in light then light[prop] else "", convert)
  }

  /** The entry of one preset, its label with apostrophes escaped. */
  function PresetEntry(name: string, def: PresetDef, convert: Converter): seq<string> {
    EntryLines(name, EscapeApostrophes(DisplayName(def, name)),
      EntryColor(def, "primary", convert), EntryColor(def, "secondary", convert),
      EntryColor(def, "primary-foreground", convert))
  }

  /** The entry of one record entry. */
  function EntryOf(convert: Converter): ((string, PresetDef)) -> seq<string> {
    (entry: (string, PresetDef)) => PresetEntry(entry.0, entry.1, convert)
  }

  /** The entries of all presets, in the order of the record. */
  function AllEntries(presets: Record<PresetDef>, convert: Converter): seq<string> {
    FlatMap(presets, EntryOf(convert))
  }

  /** `generatePresetDataTS(presets)`, as a value. */
  function PresetDataText(presets: Record<PresetDef>, convert: Converter): string {
    Join(DataHeader + DefaultEntry() + AllEntries(presets, convert) + DataFooter, "\n")
  }

  /**
   * `generatePresetDataTS`: header, the default entry, the loop over the presets, footer, join.
   * Each group of pushes of one entry, and of the footer, is one append here.
   */
  method GeneratePresetDataTs(presets: Record<PresetDef>, convert: Converter) returns (text: string)
    ensures text == PresetDataText(presets, convert)
  {
    var lines := DataHeader;
    DefaultEntryColors();
    lines := lines + EntryLines("default", "Default", DefaultLight["primary"], DefaultLight["secondary"],
      DefaultLight["primary-foreground"]);
    ghost var head := lines;
    for i := 0 to |presets|
      invariant lines == head + AllEntries(presets[..i], convert)
    {
      var (name, preset) := presets[i];
      lines := PushPresetEntry(lines, name, preset, convert);
      FlatMapStep(presets, EntryOf(convert), i);
      ConcatAssociates(head, AllEntries(presets[..i], convert), PresetEntry(name, preset, convert));
    }
    assert presets[..|presets|] == presets;
    lines := lines + DataFooter;
    text := Join(lines, "\n");
  }

  /** The body of the loop over the presets: merge, convert the three colours, push the entry. */
  method PushPresetEntry(lines: seq<string>, name: string, preset: PresetDef, convert: Converter)
    returns (lines': seq<string>)
    ensures lines' == lines + PresetEntry(name, preset, convert)
  {
    var merged := MergeWithDefaults(preset.light, preset.dark);
    EntryColorDefined(preset, "primary");
    EntryColorDefined(preset, "secondary");
    EntryColorDefined(preset, "primary-foreground");
    var primaryOklch := ToOklch(merged.light["primary"], convert);
    var secondaryOklch := ToOklch(merged.light["secondary"], convert);
    var primaryFgOklch := ToOklch(merged.light["primary-foreground"], convert);
    var shown := if |preset.displayLabel| > 0 then preset.displayLabel else name;
    lines' := lines + EntryLines(name, EscapeApostrophes(shown), primaryOklch, secondaryOklch, primaryFgOklch);
  }

  /** The three colours an entry shows are defined in every merged light palette. */
  lemma EntryColorDefined(def: PresetDef, prop: string)
    requires prop == "primary" || prop == "secondary" || prop == "primary-foreground"
    ensures prop in MergeWithDefaults(def.light, def.dark).light
  {
    DefaultEntryColors();
  }

  /** After the built-in entry the array lists one seven-line entry per preset, in the record's order. */
  lemma DataLayout(presets: Record<PresetDef>, convert: Converter)
    ensures |AllEntries(presets, convert)| == 7 * |presets|
    ensures forall i :: 0 <= i < |presets| ==>
      AllEntries(presets, convert)[7 * i..7 * i + 7] == PresetEntry(presets[i].0, presets[i].1, convert)
  {
    EntrySize(convert);
    FlatMapLength(presets, EntryOf(convert), 7);
    forall i | 0 <= i < |presets|
      ensures AllEntries(presets, convert)[7 * i..7 * i + 7] == PresetEntry(presets[i].0, presets[i].1, convert)
    {
      EntryAt(presets, convert, i);
    }
  }

  lemma EntryAt(presets: Record<PresetDef>, convert: Converter, i: nat)
    requires i < |presets|
    ensures 7 * i + 7 <= |AllEntries(presets, convert)|
    ensures AllEntries(presets, convert)[7 * i..7 * i + 7] == PresetEntry(presets[i].0, presets[i].1, convert)
  {
    EntrySize(convert);
    FlatMapAt(presets, EntryOf(convert), 7, i);
  }

  lemma EntrySize(convert: Converter)
    ensures forall x :: |EntryOf(convert)(x)| == 7
  {
  }

  /**
   * The label field of an entry: every apostrophe in it follows a backslash, and for a label
   * without backslashes removing the escapes gives back the label (or the name when the label is
   * empty). Backslashes are not escaped, so a label holding one may not read back.
   */
  lemma EntryLabelReadsBack(name: string, def: PresetDef)
    ensures forall k :: 0 <= k < |EscapeApostrophes(DisplayName(def, name))| ==>
      (EscapeApostrophes(DisplayName(def, name))[k] == '\'' ==> k > 0 && EscapeApostrophes(DisplayName(def, name))[k - 1] == '\\')
    ensures (forall k :: 0 <= k < |DisplayName(def, name)| ==> DisplayName(def, name)[k] != '\\') ==>
      UnescapeApostrophes(EscapeApostrophes(DisplayName(def, name))) == DisplayName(def, name)
  {
    var shown := DisplayName(def, name);
    forall k | 0 <= k < |EscapeApostrophes(shown)| && EscapeApostrophes(shown)[k] == '\''
      ensures k > 0 && EscapeApostrophes(shown)[k - 1] == '\\'
    {
      EscapedApostrophesArePreceded(shown, k);
    }
    if forall k :: 0 <= k < |shown| ==> shown[k] != '\\' {
      UnescapeEscape(shown);
    }
  }

  /**
   * The colours an entry shows are OkLCH values or the merged value verbatim; a colour the
   * preset does not set is the default light one.
   */
  lemma EntryColors(def: PresetDef, prop: string, convert: Converter)
    requires prop == "primary" || prop == "secondary" || prop == "primary-foreground"
    ensures prop in MergeWithDefaults(def.light, def.dark).light
    ensures StartsWith(EntryColor(def, prop, convert), OklchPrefix)
      || EntryColor(def, prop, convert) == MergeWithDefaults(def.light, def.dark).light[prop]
    ensures prop !in def.light ==>
      prop in DefaultLight && EntryColor(def, prop, convert) == ToOklch(DefaultLight[prop], convert)
  {
    EntryColorDefined(def, prop);
  }
}

=== FILE: preset_defaults.dfy ===
/**
 * The constants of the theme-preset build script: the baseline light and dark palettes,
 * the list of color custom properties it emits, the pass-through property and the
 * allow-list of preset names.
 */
module PresetDefaults {
  import opened Text

  /** Names of the presets that reach the generated output (`default` is added separately). */
  const AllowedPresets: seq<string> := ["modern-minimal", "notebook", "darkmatter"]

  /** The color roles, in the order every generated CSS block lists them. */
  const ColorProps: seq<string> := [
    "background", "foreground", "card", "card-foreground", "popover", "popover-foreground",
    "primary", "primary-foreground", "secondary", "secondary-foreground", "muted",
    "muted-foreground", "accent", "accent-foreground", "destructive", "destructive-foreground",
    "border", "input", "ring", "chart-1", "chart-2", "chart-3", "chart-4", "chart-5",
    "sidebar", "sidebar-foreground", "sidebar-primary", "sidebar-primary-foreground",
    "sidebar-accent", "sidebar-accent-foreground", "sidebar-border", "sidebar-ring"
  ]

  /** Properties copied into the CSS verbatim, after the color roles. */
  const PassthroughProps: seq<string> := ["radius"]

  /**
   * The palette an object literal with these entries builds: each entry sets its property,
   * a later entry overriding an earlier one with the same name.
   */
  function ToStyles(entries: seq<(string, string)>): map<string, string>
    decreases |entries|
  {
    if |entries| == 0 then map[]
    else ToStyles(entries[..|entries| - 1])[entries[|entries| - 1].0 := entries[|entries| - 1].1]
  }

  /** The entries of the baseline light palette, in the order they are written. */
  const LightEntries: seq<(string, string)> := [
    ("background", "oklch(1 0 0)"),
    ("foreground", "oklch(0.145 0 0)"),
    ("card", "oklch(1 0 0)"),
    ("card-foreground", "oklch(0.145 0 0)"),
    ("popover", "oklch(1 0 0)"),
    ("popover-foreground", "oklch(0.145 0 0)"),
    ("primary", "oklch(0.205 0 0)"),
    ("primary-foreground", "oklch(0.985 0 0)"),
    ("secondary", "oklch(0.97 0 0)"),
    ("secondary-foreground", "oklch(0.205 0 0)"),
    ("muted", "oklch(0.97 0 0)"),
    ("muted-foreground", "oklch(0.556 0 0)"),
    ("accent", "oklch(0.97 0 0)"),
    ("accent-foreground", "oklch(0.205 0 0)"),
    ("destructive", "oklch(0.577 0.245 27.325)"),
    ("destructive-foreground", "oklch(1 0 0)"),
    ("border", "oklch(0.922 0 0)"),
    ("input", "oklch(0.922 0 0)"),
    ("ring", "oklch(0.708 0 0)"),
    ("chart-1", "oklch(0.81 0.10 252)"),
    ("chart-2", "oklch(0.62 0.19 260)"),
    ("chart-3", "oklch(0.55 0.22 263)"),
    ("chart-4", "oklch(0.49 0.22 264)"),
    ("chart-5", "oklch(0.42 0.18 266)"),
    ("radius", "0.625rem"),
    ("sidebar", "oklch(0.985 0 0)"),
    ("sidebar-foreground", "oklch(0.145 0 0)"),
    ("sidebar-primary", "oklch(0.205 0 0)"),
    ("sidebar-primary-foreground", "oklch(0.985 0 0)"),
    ("sidebar-accent", "oklch(0.97 0 0)"),
    ("sidebar-accent-foreground", "oklch(0.205 0 0)"),
    ("sidebar-border", "oklch(0.922 0 0)"),
    ("sidebar-ring", "oklch(0.708 0 0)")
  ]

  /** The entries the baseline dark palette writes after spreading the light one. */
  const DarkEntries: seq<(string, string)> := [
    ("background", "oklch(0.145 0 0)"),
    ("foreground", "oklch(0.985 0 0)"),
    ("card", "oklch(0.205 0 0)"),
    ("card-foreground", "oklch(0.985 0 0)"),
    ("popover", "oklch(0.269 0 0)"),
    ("popover-foreground", "oklch(0.985 0 0)"),
    ("primary", "oklch(0.922 0 0)"),
    ("primary-foreground", "oklch(0.205 0 0)"),
    ("secondary", "oklch(0.269 0 0)"),
    ("secondary-foreground", "oklch(0.985 0 0)"),
    ("muted", "oklch(0.269 0 0)"),
    ("muted-foreground", "oklch(0.708 0 0)"),
    ("accent", "oklch(0.371 0 0)"),
    ("accent-foreground", "oklch(0.985 0 0)"),
    ("destructive", "oklch(0.704 0.191 22.216)"),
    ("destructive-foreground", "oklch(0.985 0 0)"),
    ("border", "oklch(0.275 0 0)"),
    ("input", "oklch(0.325 0 0)"),
    ("ring", "oklch(0.556 0 0)"),
    ("chart-1", "oklch(0.81 0.10 252)"),
    ("chart-2", "oklch(0.62 0.19 260)"),
    ("chart-3", "oklch(0.55 0.22 263)"),
    ("chart-4", "oklch(0.49 0.22 264)"),
    ("chart-5", "oklch(0.42 0.18 266)"),
    ("sidebar", "oklch(0.205 0 0)"),
    ("sidebar-foreground", "oklch(0.985 0 0)"),
    ("sidebar-primary", "oklch(0.42 0.24 264.376)"),
    ("sidebar-primary-foreground", "oklch(0.985 0 0)"),
    ("sidebar-accent", "oklch(0.269 0 0)"),
    ("sidebar-accent-foreground", "oklch(0.985 0 0)"),
    ("sidebar-border", "oklch(0.275 0 0)"),
    ("sidebar-ring", "oklch(0.439 0 0)")
  ]

  /** The baseline light palette. */
  const DefaultLight: map<string, string> := ToStyles(LightEntries)

  /** The baseline dark palette: `{...light, ...overrides}`. */
  const DefaultDark: map<string, string> := DefaultLight + ToStyles(DarkEntries)

  /** Every entry's property is in the palette. */
  lemma {:induction false} ToStylesHasKey(entries: seq<(string, string)>, i: nat)
    requires i < |entries|
    ensures entries[i].0 in ToStyles(entries)
    decreases |entries|
  {
    if i < |entries| - 1 {
      assert entries[..|entries| - 1][i] == entries[i];
      ToStylesHasKey(entries[..|entries| - 1], i);
    }
  }

  /** The palette has no property that no entry sets. */
  lemma {:induction false} ToStylesOnlyKeys(entries: seq<(string, string)>, k: string)
    requires forall i :: 0 <= i < |entries| ==> entries[i].0 != k
    ensures k !in ToStyles(entries)
    decreases |entries|
  {
    if |entries| > 0 {
      ToStylesOnlyKeys(entries[..|entries| - 1], k);
    }
  }

  /** A property takes the value of the last entry that sets it. */
  lemma {:induction false} ToStylesLastValue(entries: seq<(string, string)>, i: nat)
    requires i < |entries|
    requires forall j :: i < j < |entries| ==> entries[j].0 != entries[i].0
    ensures entries[i].0 in ToStyles(entries) && ToStyles(entries)[entries[i].0] == entries[i].1
    decreases |entries|
  {
    if i < |entries| - 1 {
      var prefix := entries[..|entries| - 1];
      assert prefix[i] == entries[i];
      ToStylesLastValue(prefix, i);
    }
  }

  /** Entries with non-empty values give a palette with non-empty values. */
  lemma {:induction false} ToStylesNonEmpty(entries: seq<(string, string)>)
    requires forall i :: 0 <= i < |entries| ==> |entries[i].1| > 0
    ensures forall k :: k in ToStyles(entries) ==> |ToStyles(entries)[k]| > 0
    decreases |entries|
  {
    if |entries| > 0 {
      ToStylesNonEmpty(entries[..|entries| - 1]);
    }
  }

  /** The light entries name the color roles in order, with `radius` after `chart-5`. */
  lemma LightEntryNames()
    ensures |LightEntries| == |ColorProps| + 1 && LightEntries[24].0 == "radius"
    ensures forall i :: 0 <= i < 24 ==> LightEntries[i].0 == ColorProps[i]
    ensures forall i :: 24 <= i < |ColorProps| ==> LightEntries[i + 1].0 == ColorProps[i]
  {
  }

  /** The light palette defines every color role and `radius`, each with a non-empty value. */
  lemma DefaultLightIsTotal()
    ensures forall p :: p in ColorProps || p in PassthroughProps ==> p in DefaultLight
    ensures forall p :: p in DefaultLight ==> |DefaultLight[p]| > 0
  {
    LightEntryNames();
    forall p | p in ColorProps || p in PassthroughProps
      ensures p in DefaultLight
    {
      if p in ColorProps {
        var i :| 0 <= i < |ColorProps| && ColorProps[i] == p;
        ToStylesHasKey(LightEntries, if i < 24 then i else i + 1);
      } else {
        ToStylesHasKey(LightEntries, 24);
      }
    }
    assert forall i :: 0 <= i < |LightEntries| ==> |LightEntries[i].1| > 0;
    ToStylesNonEmpty(LightEntries);
  }

  /** `radius` is set once in the light palette and not overridden in the dark one. */
  lemma RadiusEntries()
    ensures LightEntries[24] == ("radius", "0.625rem")
    ensures forall j :: 24 < j < |LightEntries| ==> LightEntries[j].0 != "radius"
    ensures forall j :: 0 <= j < |DarkEntries| ==> DarkEntries[j].0 != "radius"
  {
  }

  /**
   * The dark palette defines every color role and `radius`, each with a non-empty value;
   * it takes `radius` from the light palette.
   */
  lemma DefaultDarkIsTotal()
    ensures forall p :: p in ColorProps || p in PassthroughProps ==> p in DefaultDark
    ensures forall p :: p in DefaultDark ==> |DefaultDark[p]| > 0
    ensures "radius" in DefaultLight && "radius" in DefaultDark
    ensures DefaultDark["radius"] == DefaultLight["radius"] == "0.625rem"
  {
    DefaultLightIsTotal();
    assert forall i :: 0 <= i < |DarkEntries| ==> |DarkEntries[i].1| > 0;
    ToStylesNonEmpty(DarkEntries);
    RadiusEntries();
    ToStylesLastValue(LightEntries, 24);
    ToStylesOnlyKeys(DarkEntries, "radius");
  }

  /** The default colours the metadata's built-in entry shows. */
  const DefaultPrimary: string := "oklch(0.205 0 0)"
  const DefaultSecondary: string := "oklch(0.97 0 0)"
  const DefaultPrimaryForeground: string := "oklch(0.985 0 0)"

  /** Where the light entries set them, and that no later entry sets them again. */
  lemma EntryColorEntries()
    ensures LightEntries[6] == ("primary", DefaultPrimary)
    ensures LightEntries[7] == ("primary-foreground", DefaultPrimaryForeground)
    ensures LightEntries[8] == ("secondary", DefaultSecondary)
    ensures forall j :: 6 < j < |LightEntries| ==> LightEntries[j].0 != "primary"
    ensures forall j :: 7 < j < |LightEntries| ==> LightEntries[j].0 != "primary-foreground"
    ensures forall j :: 8 < j < |LightEntries| ==> LightEntries[j].0 != "secondary"
  {
  }

  /** They are the light palette's `primary`, `secondary` and `primary-foreground`. */
  lemma DefaultEntryColors()
    ensures "primary" in DefaultLight && DefaultLight["primary"] == DefaultPrimary
    ensures "secondary" in DefaultLight && DefaultLight["secondary"] == DefaultSecondary
    ensures "primary-foreground" in DefaultLight && DefaultLight["primary-foreground"] == DefaultPrimaryForeground
  {
    EntryColorEntries();
    ToStylesLastValue(LightEntries, 6);
    ToStylesLastValue(LightEntries, 7);
    ToStylesLastValue(LightEntries, 8);
  }

  /** The property names have no line breaks. */
  lemma PropNamesHaveNoNewline()
    ensures forall i :: 0 <= i < |ColorProps| ==> NoNewline(ColorProps[i])
    ensures forall i :: 0 <= i < |PassthroughProps| ==> NoNewline(PassthroughProps[i])
  {
    RolesHaveNoNewline0();
    RolesHaveNoNewline8();
    RolesHaveNoNewline16();
    RolesHaveNoNewline24();
  }

  lemma RolesHaveNoNewline0()
    ensures forall i :: 0 <= i < 8 ==> NoNewline(ColorProps[i])
  {
  }

  lemma RolesHaveNoNewline8()
    ensures forall i :: 8 <= i < 16 ==> NoNewline(ColorProps[i])
  {
  }

  lemma RolesHaveNoNewline16()
    ensures forall i :: 16 <= i < 24 ==> NoNewline(ColorProps[i])
  {
  }

  lemma RolesHaveNoNewline24()
    ensures forall i :: 24 <= i < 32 ==> NoNewline(ColorProps[i])
  {
  }
}

=== FILE: preset_merge.dfy ===
/**
 * Completing a preset with the baseline palettes: the light palette is the default light one
 * overridden by the preset's light styles, and the dark palette is the default dark one
 * overridden first by the preset's light styles and then by its dark styles, as the object
 * spreads `{...defaults, ...light}` and `{...darkDefaults, ...light, ...dark}` do.
 */
module PresetMerge {
  import opened Wrappers
  import opened PresetDefaults
  import opened StyleBlock

  /** Both palettes of a preset after merging. */
  datatype Merged = Merged(light: Styles, dark: Styles)

  /** `mergePresetWithDefaults`: later sources override earlier ones, property by property. */
  function MergeWithDefaults(light: Styles, dark: Option<Styles>): Merged {
    Merged(DefaultLight + light, DefaultDark + light + dark.GetOr(map[]))
  }

  /**
   * The merged light palette has the properties of the default and of the preset's light styles,
   * the preset's value winning; the merged dark palette also has those of the dark styles, the
   * dark value winning over the light one, which wins over the default.
   */
  lemma MergedValues(light: Styles, dark: Option<Styles>)
    ensures var r := MergeWithDefaults(light, dark);
      && (forall p :: p in r.light <==> p in DefaultLight || p in light)
      && (forall p :: p in r.light ==> r.light[p] == if p in light then light[p] else DefaultLight[p])
      && (forall p :: p in r.dark <==> p in DefaultDark || p in light || (dark.Some? && p in dark.value))
      && (forall p :: p in r.dark ==>
            r.dark[p] == if dark.Some? && p in dark.value then dark.value[p] else if p in light then light[p] else DefaultDark[p])
  {
  }

  /** Non-empty values everywhere. */
  predicate ValuesNonEmpty(styles: Styles) {
    forall p :: p in styles ==> |styles[p]| > 0
  }

  /**
   * Whatever a preset leaves out, both merged palettes define every colour role and the radius,
   * and when the preset's own values are non-empty, so is every merged value.
   */
  lemma MergedIsTotal(light: Styles, dark: Option<Styles>)
    ensures forall p :: p in ColorProps || p in PassthroughProps ==>
      p in MergeWithDefaults(light, dark).light && p in MergeWithDefaults(light, dark).dark
    ensures ValuesNonEmpty(light) && (dark.Some? ==> ValuesNonEmpty(dark.value)) ==>
      ValuesNonEmpty(MergeWithDefaults(light, dark).light) && ValuesNonEmpty(MergeWithDefaults(light, dark).dark)
  {
    var m := MergeWithDefaults(light, dark);
    assert forall p :: p in ColorProps || p in PassthroughProps ==> p in m.light && p in m.dark by {
      DefaultLightIsTotal();
      DefaultDarkIsTotal();
      OverlayKeepsKeys(DefaultLight, light, map[]);
      OverlayKeepsKeys(DefaultDark, light, dark.GetOr(map[]));
    }
    if ValuesNonEmpty(light) && (dark.Some? ==> ValuesNonEmpty(dark.value)) {
      assert ValuesNonEmpty(m.light) by {
        DefaultLightIsTotal();
        OverlayNonEmpty(DefaultLight, light, map[]);
      }
      assert ValuesNonEmpty(m.dark) by {
        DefaultDarkIsTotal();
        OverlayNonEmpty(DefaultDark, light, dark.GetOr(map[]));
      }
    }
  }

  /** Overlaying maps keeps every key of the base. */
  lemma OverlayKeepsKeys(base: Styles, over: Styles, extra: Styles)
    ensures forall p :: p in base ==> p in base + over + extra && p in base + over
  {
  }

  /** Overlaying maps with non-empty values gives non-empty values. */
  lemma OverlayNonEmpty(base: Styles, over: Styles, extra: Styles)
    requires ValuesNonEmpty(base) && ValuesNonEmpty(over) && ValuesNonEmpty(extra)
    ensures ValuesNonEmpty(base + over + extra) && ValuesNonEmpty(base + over)
  {
  }

  /** A property the dark styles do not set takes the preset's light value in dark mode too. */
  lemma DarkInheritsLight(light: Styles, dark: Option<Styles>, p: string)
    requires p in light && (dark.None? || p !in dark.value)
    ensures p in MergeWithDefaults(light, dark).light && p in MergeWithDefaults(light, dark).dark
    ensures MergeWithDefaults(light, dark).dark[p] == MergeWithDefaults(light, dark).light[p] == light[p]
  {
    MergedValues(light, dark);
  }

  /** A property the preset does not mention keeps its default in each mode. */
  lemma UnsetPropertyKeepsDefault(light: Styles, dark: Option<Styles>, p: string)
    requires p in DefaultLight && p !in light && (dark.None? || p !in dark.value)
    ensures p in MergeWithDefaults(light, dark).light && p in DefaultDark && p in MergeWithDefaults(light, dark).dark
    ensures MergeWithDefaults(light, dark).light[p] == DefaultLight[p]
    ensures MergeWithDefaults(light, dark).dark[p] == DefaultDark[p]
  {
    MergedValues(light, dark);
  }

  /** A preset that sets nothing yields exactly the default palettes. */
  lemma EmptyPresetIsDefault()
    ensures MergeWithDefaults(map[], None) == Merged(DefaultLight, DefaultDark)
  {
    assert DefaultLight + map[] == DefaultLight;
    assert DefaultDark + map[] + map[] == DefaultDark;
  }
}

=== FILE: preset_parse.dfy ===
/**
 * Parsing the theme-presets source text: every top-level preset key (a line indented by two
 * white-space characters holding `name: {` or `"name": {`) starts a block that runs to the next
 * such key; from each block the label and the light and dark style maps are extracted, and a
 * preset is kept when it has light styles.
 */
module PresetParse {
  import opened Wrappers
  import opened Text
  import opened Patterns
  import opened StyleBlock
  import opened Records
  import opened Seqs

  /** A parsed preset: its label, its light styles and, when present, its dark styles. */
  datatype PresetDef = PresetDef(displayLabel: string, light: Styles, dark: Option<Styles>)

  /** A preset key: its name and where its line starts. */
  datatype Position = Position(name: string, start: nat)

  /** Keys indented like preset names that belong inside a preset. */
  const NestedKeys: set<string> := {"styles", "light", "dark"}

  /** The key matches that name presets, in order. */
  function Positions(ms: seq<Match>): seq<Position> {
    if |ms| == 0 then []
    else
      var head := if ms[0].first in NestedKeys then [] else [Position(ms[0].first, ms[0].start)];
      head + Positions(ms[1..])
  }

  /** The preset keys of the source text, in order. */
  function PresetPositions(content: string): seq<Position> {
    Positions(AllMatches(PresetKey, content, 0))
  }

  /** The first match gives a position unless its name is a nested key; the rest follow. */
  lemma PositionsOfMatches(ms: seq<Match>)
    requires |ms| > 0
    ensures ms[0].first !in NestedKeys ==> Positions(ms) == [Position(ms[0].first, ms[0].start)] + Positions(ms[1..])
    ensures ms[0].first in NestedKeys ==> Positions(ms) == Positions(ms[1..])
  {
  }

  /** Positions taken from matches starting inside `[lo, hi)` start inside it too. */
  lemma {:induction false} PositionsInRange(ms: seq<Match>, lo: nat, hi: nat)
    requires forall i :: 0 <= i < |ms| ==> lo <= ms[i].start < hi
    ensures forall i :: 0 <= i < |Positions(ms)| ==> lo <= Positions(ms)[i].start < hi
  {
    if |ms| > 0 {
      assert forall i :: 0 <= i < |ms[1..]| ==> lo <= ms[1..][i].start < hi by {
        assert forall i :: 0 <= i < |ms[1..]| ==> ms[1..][i] == ms[i + 1];
      }
      PositionsInRange(ms[1..], lo, hi);
      PositionsOfMatches(ms);
    }
  }

  /** Positions are named by matches with the key form, never by a nested key. */
  lemma {:induction false} PositionsNamed(ms: seq<Match>)
    requires forall i :: 0 <= i < |ms| ==> IsStyleKey(ms[i].first)
    ensures forall i :: 0 <= i < |Positions(ms)| ==>
      Positions(ms)[i].name !in NestedKeys && IsStyleKey(Positions(ms)[i].name)
  {
    if |ms| > 0 {
      assert forall i :: 0 <= i < |ms[1..]| ==> IsStyleKey(ms[1..][i].first) by {
        assert forall i :: 0 <= i < |ms[1..]| ==> ms[1..][i] == ms[i + 1];
      }
      PositionsNamed(ms[1..]);
      PositionsOfMatches(ms);
    }
  }

  /** Positions taken from matches that follow one another are in increasing order. */
  lemma {:induction false} PositionsIncrease(ms: seq<Match>, hi: nat)
    requires forall i :: 0 <= i < |ms| ==> ms[i].start < ms[i].end <= hi
    requires forall i, j :: 0 <= i < j < |ms| ==> ms[i].end <= ms[j].start
    ensures forall i, j :: 0 <= i < j < |Positions(ms)| ==> Positions(ms)[i].start < Positions(ms)[j].start
  {
    if |ms| > 0 {
      var tail := ms[1..];
      assert forall i :: 0 <= i < |tail| ==> tail[i] == ms[i + 1];
      PositionsIncrease(tail, hi);
      PositionsInRange(tail, ms[0].end, hi);
      PositionsOfMatches(ms);
    }
  }

  /** A matched preset name has the form of a custom-property key. */
  lemma PresetKeyGroup(s: string, p: nat)
    requires p <= |s| && PresetKeyAt(s, p).Some?
    ensures IsStyleKey(PresetKeyAt(s, p).value.first)
  {
    var (a, b, j) := PresetNameAt(s, p + 2).value;
    var name := PresetKeyAt(s, p).value.first;
    assert name == s[a..b];
    assert forall n :: 0 <= n < b - a ==> name[n] == s[a + n];
  }

  /**
   * Preset keys lie inside the text, in increasing order; their names have the key form and
   * none of them is `styles`, `light` or `dark`.
   */
  lemma PresetPositionsOrdered(content: string)
    ensures forall i :: 0 <= i < |PresetPositions(content)| ==>
      PresetPositions(content)[i].start < |content| && PresetPositions(content)[i].name !in NestedKeys
      && IsStyleKey(PresetPositions(content)[i].name)
    ensures forall i, j :: 0 <= i < j < |PresetPositions(content)| ==>
      PresetPositions(content)[i].start < PresetPositions(content)[j].start
  {
    var ms := AllMatches(PresetKey, content, 0);
    AllMatchesAreMatches(PresetKey, content, 0);
    forall j | 0 <= j < |ms| ensures IsStyleKey(ms[j].first) {
      PresetKeyGroup(content, ms[j].start);
    }
    PositionsInRange(ms, 0, |content|);
    PositionsNamed(ms);
    PositionsIncrease(ms, |content|);
  }

  /** Where block `i` ends: at the next preset key, or at the end of the text. */
  function BlockEnd(ps: seq<Position>, i: nat, len: nat): nat
    requires i < |ps|
  {
    if i < |ps| - 1 then ps[i + 1].start else len
  }

  /** The text of preset `i`. */
  function Block(content: string, ps: seq<Position>, i: nat): string
    requires i < |ps|
  {
    Substring(content, ps[i].start, BlockEnd(ps, i, |content|))
  }

  /** The blocks from `i` on, concatenated. */
  function BlocksFrom(content: string, ps: seq<Position>, i: nat): string
    requires i <= |ps|
    decreases |ps| - i
  {
    if i == |ps| then "" else Block(content, ps, i) + BlocksFrom(content, ps, i + 1)
  }

  /** The blocks follow one another without gap or overlap up to the end of the text. */
  lemma {:induction false} BlocksTile(content: string, ps: seq<Position>, i: nat)
    requires i < |ps|
    requires forall k :: 0 <= k < |ps| ==> ps[k].start <= |content|
    requires forall k, l :: 0 <= k < l < |ps| ==> ps[k].start < ps[l].start
    ensures BlocksFrom(content, ps, i) == content[ps[i].start..]
    decreases |ps| - i
  {
    var end := BlockEnd(ps, i, |content|);
    SubstringInRange(content, ps[i].start, end);
    if i < |ps| - 1 {
      BlocksTile(content, ps, i + 1);
      assert content[ps[i].start..] == content[ps[i].start..end] + content[end..];
    } else {
      assert content[ps[i].start..] == content[ps[i].start..|content|];
    }
  }

  /** The preset blocks of a source text cover it from the first preset key to its end. */
  lemma PresetBlocksCoverText(content: string)
    requires |PresetPositions(content)| > 0
    ensures PresetPositions(content)[0].start < |content|
      && BlocksFrom(content, PresetPositions(content), 0) == content[PresetPositions(content)[0].start..]
  {
    PresetPositionsOrdered(content);
    BlocksTile(content, PresetPositions(content), 0);
  }

  /** `block.match(/label:\s*"([^"]+)"/)?.[1]`, or the preset's name. */
  function LabelOf(block: string, name: string): string {
    match FirstMatch(Label, block, 0)
    case Some(m) => m.first
    case None => name
  }

  /** A found label is non-empty and holds no double quote. */
  lemma LabelGroup(s: string, p: nat)
    requires p <= |s| && LabelAt(s, p).Some?
    ensures |LabelAt(s, p).value.first| > 0
    ensures forall n :: 0 <= n < |LabelAt(s, p).value.first| ==> LabelAt(s, p).value.first[n] != '"'
  {
    var q := RunEnd(s, p + 6, Space);
    var w := RunEnd(s, q + 1, NotDoubleQuote);
    var found := LabelAt(s, p).value.first;
    assert found == s[q + 1..w];
    assert forall n :: 0 <= n < w - q - 1 ==> found[n] == s[q + 1 + n];
  }

  /** The preset a block yields: its label and styles, when the block has light styles. */
  function PresetOf(block: string, name: string): Option<PresetDef> {
    var light := ExtractedStyles(block, "light");
    if light.None? then None
    else Some(PresetDef(LabelOf(block, name), light.value, ExtractedStyles(block, "dark")))
  }

  /** Each preset key's name with what its block yields. */
  function Items(content: string, ps: seq<Position>): (items: seq<(string, Option<PresetDef>)>)
    ensures |items| == |ps|
    ensures forall i :: 0 <= i < |ps| ==> items[i] == (ps[i].name, PresetOf(Block(content, ps, i), ps[i].name))
  {
    seq(|ps|, i requires 0 <= i < |ps| => (ps[i].name, PresetOf(Block(content, ps, i), ps[i].name)))
  }

  /** `presets[name] = ...` for each item that yields a preset, in order. */
  function Collect(items: seq<(string, Option<PresetDef>)>): Record<PresetDef>
    decreases |items|
  {
    if |items| == 0 then []
    else
      var r := Collect(items[..|items| - 1]);
      var (name, def) := items[|items| - 1];
      if def.Some? then Put(r, name, def.value) else r
  }

  /** `parsePresetsFromSource(content)`. */
  function ParsePresets(content: string): Record<PresetDef> {
    Collect(Items(content, PresetPositions(content)))
  }

  /** The definition the last item named `name` that yields a preset carries. */
  function LastDef(items: seq<(string, Option<PresetDef>)>, name: string): Option<PresetDef>
    decreases |items|
  {
    if |items| == 0 then None
    else if items[|items| - 1].0 == name && items[|items| - 1].1.Some? then items[|items| - 1].1
    else LastDef(items[..|items| - 1], name)
  }

  /** `LastDef` finds an item of that name exactly when one yields a preset. */
  lemma {:induction false} LastDefFound(items: seq<(string, Option<PresetDef>)>, name: string)
    ensures LastDef(items, name).Some? <==> exists i :: 0 <= i < |items| && items[i].0 == name && items[i].1.Some?
    decreases |items|
  {
    if |items| > 0 {
      var n := |items|;
      var prefix := items[..n - 1];
      LastDefFound(prefix, name);
      assert forall i :: 0 <= i < n - 1 ==> prefix[i] == items[i];
    }
  }

  /** What `LastDef` finds is the definition of an item of that name with no later one yielding a preset. */
  lemma {:induction false} LastDefIsLast(items: seq<(string, Option<PresetDef>)>, name: string)
    requires LastDef(items, name).Some?
    ensures exists i :: (0 <= i < |items| && items[i] == (name, LastDef(items, name))
      && forall j :: i < j < |items| && items[j].0 == name ==> items[j].1.None?)
    decreases |items|
  {
    var n := |items|;
    if items[n - 1].0 == name && items[n - 1].1.Some? {
      assert items[n - 1] == (name, LastDef(items, name));
    } else {
      var prefix := items[..n - 1];
      LastDefIsLast(prefix, name);
      var i :| 0 <= i < |prefix| && prefix[i] == (name, LastDef(prefix, name))
        && forall j :: i < j < |prefix| && prefix[j].0 == name ==> prefix[j].1.None?;
      assert items[i] == prefix[i];
      assert forall j :: i < j < n - 1 ==> items[j] == prefix[j];
    }
  }

  /** An item of that name yielding a preset with no later one doing so is the one `LastDef` finds. */
  lemma {:induction false} LastDefAt(items: seq<(string, Option<PresetDef>)>, name: string, i: nat)
    requires i < |items| && items[i].0 == name && items[i].1.Some?
    requires forall j :: i < j < |items| && items[j].0 == name ==> items[j].1.None?
    ensures LastDef(items, name) == items[i].1
    decreases |items|
  {
    var n := |items|;
    if i < n - 1 {
      var prefix := items[..n - 1];
      assert prefix[i] == items[i];
      assert forall j :: i < j < |prefix| ==> prefix[j] == items[j];
      LastDefAt(prefix, name, i);
    }
  }

  /** Reading a name from the collected record gives the last preset assigned under it. */
  lemma {:induction false} CollectGet(items: seq<(string, Option<PresetDef>)>, name: string)
    ensures Get(Collect(items), name) == LastDef(items, name)
    decreases |items|
  {
    if |items| > 0 {
      var n := |items|;
      var prefix := items[..n - 1];
      CollectGet(prefix, name);
      var (last, def) := items[n - 1];
      if def.Some? {
        GetPut(Collect(prefix), last, def.value, name);
      }
    }
  }

  /** A record built from items whose names have the key form and are not nested keys. */
  predicate NamesValid(items: seq<(string, Option<PresetDef>)>) {
    forall i :: 0 <= i < |items| ==> items[i].0 !in NestedKeys && IsStyleKey(items[i].0)
  }

  /** Well-formed definitions: a label with no double quote and non-empty, well-formed styles. */
  predicate WellFormedDef(d: PresetDef) {
    && |d.displayLabel| > 0 && (forall n :: 0 <= n < |d.displayLabel| ==> d.displayLabel[n] != '"')
    && |d.light| > 0 && WellFormedStyles(d.light)
    && (d.dark.Some? ==> |d.dark.value| > 0 && WellFormedStyles(d.dark.value))
  }

  /** Every preset a block yields is well-formed, given a name that is. */
  lemma PresetOfWellFormed(block: string, name: string)
    requires PresetOf(block, name).Some?
    requires |name| > 0 && forall n :: 0 <= n < |name| ==> name[n] != '"'
    ensures WellFormedDef(PresetOf(block, name).value)
  {
    var displayLabel, light, dark := LabelOf(block, name), ExtractedStyles(block, "light"), ExtractedStyles(block, "dark");
    assert PresetOf(block, name).value == PresetDef(displayLabel, light.value, dark);
    assert |displayLabel| > 0 && forall n :: 0 <= n < |displayLabel| ==> displayLabel[n] != '"' by {
      LabelOfWellFormed(block, name);
    }
    assert |light.value| > 0 && WellFormedStyles(light.value) by {
      ExtractedStylesFound(block, "light");
    }
    assert dark.Some? ==> |dark.value| > 0 && WellFormedStyles(dark.value) by {
      ExtractedStylesFound(block, "dark");
    }
  }

  /** The label of a block is non-empty and has no double quote when its name has neither fault. */
  lemma LabelOfWellFormed(block: string, name: string)
    requires |name| > 0 && forall n :: 0 <= n < |name| ==> name[n] != '"'
    ensures |LabelOf(block, name)| > 0
    ensures forall n :: 0 <= n < |LabelOf(block, name)| ==> LabelOf(block, name)[n] != '"'
  {
    var m := FirstMatch(Label, block, 0);
    if m.Some? {
      FirstMatchIsLeftmost(Label, block, 0);
      LabelGroup(block, m.value.start);
    }
  }

  /** Properties every entry of the record has. */
  predicate WellFormedRecord(r: Record<PresetDef>) {
    && KeysDistinct(r)
    && forall i :: 0 <= i < |r| ==> r[i].0 !in NestedKeys && IsStyleKey(r[i].0) && WellFormedDef(r[i].1)
  }

  /** Assigning a well-formed preset under a valid name keeps a record well-formed. */
  lemma PutWellFormed(r: Record<PresetDef>, name: string, def: PresetDef)
    requires WellFormedRecord(r) && name !in NestedKeys && IsStyleKey(name) && WellFormedDef(def)
    ensures WellFormedRecord(Put(r, name, def))
  {
    PutKeepsDistinct(r, name, def);
    var r' := Put(r, name, def);
    forall i | 0 <= i < |r'|
      ensures r'[i].0 !in NestedKeys && IsStyleKey(r'[i].0) && WellFormedDef(r'[i].1)
    {
      GetPut(r, name, def, r'[i].0);
      GetUnique(r', i);
      if r'[i].0 != name {
        var j :| 0 <= j < |r| && r[j] == (r'[i].0, r'[i].1);
      }
    }
  }

  lemma {:induction false} CollectWellFormed(items: seq<(string, Option<PresetDef>)>)
    requires NamesValid(items)
    requires forall i :: 0 <= i < |items| && items[i].1.Some? ==> WellFormedDef(items[i].1.value)
    ensures WellFormedRecord(Collect(items))
    decreases |items|
  {
    if |items| > 0 {
      var n := |items|;
      CollectWellFormed(items[..n - 1]);
      var (name, def) := items[n - 1];
      if def.Some? {
        PutWellFormed(Collect(items[..n - 1]), name, def.value);
      }
    }
  }

  /** A style key has no double quote. */
  lemma StyleKeyHasNoQuote(name: string)
    requires IsStyleKey(name)
    ensures |name| > 0 && forall n :: 0 <= n < |name| ==> name[n] != '"'
  {
  }

  /**
   * Every parsed preset has a name of the key form that is none of `styles`, `light` and `dark`,
   * a non-empty label without double quotes, non-empty light styles and, when present, non-empty
   * dark styles; no name occurs twice.
   */
  lemma ParsePresetsWellFormed(content: string)
    ensures WellFormedRecord(ParsePresets(content))
  {
    var ps := PresetPositions(content);
    var items := Items(content, ps);
    PresetPositionsOrdered(content);
    forall i | 0 <= i < |items| && items[i].1.Some? ensures WellFormedDef(items[i].1.value) {
      StyleKeyHasNoQuote(ps[i].name);
      PresetOfWellFormed(Block(content, ps, i), ps[i].name);
    }
    CollectWellFormed(items);
  }

  /** The first loop: collect the preset keys a global search finds, skipping nested ones. */
  method CollectPositions(content: string) returns (positions: seq<Position>)
    ensures positions == PresetPositions(content)
  {
    positions := [];
    var from := 0;
    var m := FirstMatch(PresetKey, content, from);
    while m.Some?
      invariant from <= |content|
      invariant m == FirstMatch(PresetKey, content, from)
      invariant positions + Positions(AllMatches(PresetKey, content, from)) == PresetPositions(content)
      decreases |content| - from
    {
      var found := m.value;
      var head := if found.first in NestedKeys then [] else [Position(found.first, found.start)];
      assert Positions(AllMatches(PresetKey, content, from)) == head + Positions(AllMatches(PresetKey, content, found.end)) by {
        PositionsStep(content, from);
      }
      ConcatAssociates(positions, head, Positions(AllMatches(PresetKey, content, found.end)));
      positions := positions + head;
      from := found.end;
      m := FirstMatch(PresetKey, content, from);
    }
    assert AllMatches(PresetKey, content, from) == [] by {
      AllMatchesStep(PresetKey, content, from);
    }
  }

  /** The preset keys from `from` on: the first key found, unless nested, then those after it. */
  lemma PositionsStep(content: string, from: nat)
    requires from <= |content| && FirstMatch(PresetKey, content, from).Some?
    ensures Positions(AllMatches(PresetKey, content, from)) ==
      (if FirstMatch(PresetKey, content, from).value.first in NestedKeys then []
       else [Position(FirstMatch(PresetKey, content, from).value.first, FirstMatch(PresetKey, content, from).value.start)])
      + Positions(AllMatches(PresetKey, content, FirstMatch(PresetKey, content, from).value.end))
  {
    var m := FirstMatch(PresetKey, content, from).value;
    var rest := AllMatches(PresetKey, content, m.end);
    AllMatchesStep(PresetKey, content, from);
    assert ([m] + rest)[1..] == rest;
  }

  /** `parsePresetsFromSource`: the second loop extracts each block's label and styles. */
  method ParsePresetsFromSource(content: string) returns (presets: Record<PresetDef>)
    ensures presets == ParsePresets(content)
  {
    var positions := CollectPositions(content);
    ghost var items := Items(content, positions);
    presets := [];
    for i := 0 to |positions|
      invariant presets == Collect(items[..i])
    {
      presets := AssignBlock(presets, content, positions, i);
      CollectStep(items, i);
    }
    assert items[..|positions|] == items;
  }

  /** The body of the second loop: cut out block `i`, read it, and assign its preset if it has one. */
  method AssignBlock(presets: Record<PresetDef>, content: string, positions: seq<Position>, i: nat)
    returns (presets': Record<PresetDef>)
    requires i < |positions|
    ensures var def := PresetOf(Block(content, positions, i), positions[i].name);
      presets' == if def.Some? then Put(presets, positions[i].name, def.value) else presets
  {
    var name, start := positions[i].name, positions[i].start;
    var end := if i < |positions| - 1 then positions[i + 1].start else |content|;
    var block := Substring(content, start, end);
    var def := ReadBlock(block, name);
    presets' := presets;
    if def.Some? {
      presets' := Put(presets, name, def.value);
    }
  }

  /** The label and both style blocks of one preset's text; nothing without light styles. */
  method ReadBlock(block: string, name: string) returns (def: Option<PresetDef>)
    ensures def == PresetOf(block, name)
  {
    var labelMatch := FirstMatch(Label, block, 0);
    var presetLabel := if labelMatch.Some? then labelMatch.value.first else name;
    var lightStyles := ExtractStyleBlock(block, "light");
    var darkStyles := ExtractStyleBlock(block, "dark");
    def := None;
    if lightStyles.Some? {
      def := Some(PresetDef(presetLabel, lightStyles.value, darkStyles));
    }
  }

  /** One more item assigns its preset, when it yields one. */
  lemma CollectStep(items: seq<(string, Option<PresetDef>)>, i: nat)
    requires i < |items|
    ensures Collect(items[..i + 1]) ==
      if items[i].1.Some? then Put(Collect(items[..i]), items[i].0, items[i].1.value) else Collect(items[..i])
  {
    assert items[..i + 1][..i] == items[..i];
  }

  /**
   * A name is in the parsed record exactly when some preset key of that name starts a block
   * with light styles; a later block of the same name overrides an earlier one, so the entry is
   * what the last such block yields.
   */
  lemma ParsedLookup(content: string, name: string)
    ensures Get(ParsePresets(content), name).Some? <==>
      exists i :: 0 <= i < |PresetPositions(content)| && PresetPositions(content)[i].name == name
        && ExtractedStyles(Block(content, PresetPositions(content), i), "light").Some?
    ensures forall i :: ((0 <= i < |PresetPositions(content)| && PresetPositions(content)[i].name == name
        && PresetOf(Block(content, PresetPositions(content), i), name).Some?
        && forall j :: i < j < |PresetPositions(content)| && PresetPositions(content)[j].name == name ==>
          PresetOf(Block(content, PresetPositions(content), j), name).None?)
      ==> Get(ParsePresets(content), name) == PresetOf(Block(content, PresetPositions(content), i), name))
  {
    var ps := PresetPositions(content);
    var items := Items(content, ps);
    CollectGet(items, name);
    LastDefFound(items, name);
    forall i | 0 <= i < |ps| && ps[i].name == name && PresetOf(Block(content, ps, i), name).Some?
        && forall j :: i < j < |ps| && ps[j].name == name ==> PresetOf(Block(content, ps, j), name).None?
      ensures Get(ParsePresets(content), name) == PresetOf(Block(content, ps, i), name)
    {
      LastDefAt(items, name, i);
    }
  }
}

=== FILE: records.dfy ===
/**
 * A JavaScript object used as a dictionary with string keys that never look like array
 * indices: its entries in insertion order. Assigning to a present key replaces the value
 * where it stands; assigning to a new key appends it.
 */
module Records {
  import opened Wrappers

  type Record<V> = seq<(string, V)>

  /** `Object.keys(r)`. */
  function Keys<V>(r: Record<V>): (ks: seq<string>)
    ensures |ks| == |r| && forall i :: 0 <= i < |r| ==> ks[i] == r[i].0
  {
    if |r| == 0 then [] else [r[0].0] + Keys(r[1..])
  }

  /** No key occurs twice, as in any object. */
  predicate KeysDistinct<V>(r: Record<V>) {
    forall i, j :: 0 <= i < j < |r| ==> r[i].0 != r[j].0
  }

  /** `r[k]`, or nothing when `k` is not a key. */
  function Get<V>(r: Record<V>, k: string): (v: Option<V>)
    ensures v.None? <==> k !in Keys(r)
    ensures v.Some? ==> exists i :: 0 <= i < |r| && r[i] == (k, v.value)
  {
    if |r| == 0 then None
    else if r[0].0 == k then Some(r[0].1)
    else
      var rest := Get(r[1..], k);
      assert rest.Some? ==> exists i :: 0 <= i < |r[1..]| && r[1..][i] == (k, rest.value);
      assert k in Keys(r) <==> k == r[0].0 || k in Keys(r[1..]) by {
        assert Keys(r) == [r[0].0] + Keys(r[1..]);
      }
      rest
  }

  /** `r[k] = v`: a present key keeps its place, a new key goes last. */
  function Put<V>(r: Record<V>, k: string, v: V): (r': Record<V>)
    ensures k in Keys(r) ==> Keys(r') == Keys(r)
    ensures k !in Keys(r) ==> Keys(r') == Keys(r) + [k]
  {
    if |r| == 0 then [(k, v)]
    else if r[0].0 == k then [(k, v)] + r[1..]
    else
      var rest := Put(r[1..], k, v);
      assert Keys(r) == [r[0].0] + Keys(r[1..]);
      assert Keys([r[0]] + rest) == [r[0].0] + Keys(rest);
      [r[0]] + rest
  }

  /** After `r[k] = v`, reading `k` gives `v` and every other key reads as before. */
  lemma {:induction false} GetPut<V>(r: Record<V>, k: string, v: V, k': string)
    ensures Get(Put(r, k, v), k') == if k' == k then Some(v) else Get(r, k')
  {
    if |r| > 0 && r[0].0 != k {
      GetPut(r[1..], k, v, k');
      assert Put(r, k, v)[1..] == Put(r[1..], k, v);
    }
  }

  /** In an object with distinct keys, reading the key at position `i` gives the value there. */
  lemma {:induction false} GetUnique<V>(r: Record<V>, i: nat)
    requires KeysDistinct(r) && i < |r|
    ensures Get(r, r[i].0) == Some(r[i].1)
  {
    if i > 0 {
      GetUnique(r[1..], i - 1);
    }
  }

  /** Assignment keeps the keys of an object distinct. */
  lemma PutKeepsDistinct<V>(r: Record<V>, k: string, v: V)
    requires KeysDistinct(r)
    ensures KeysDistinct(Put(r, k, v))
  {
    var r' := Put(r, k, v);
    assert forall i :: 0 <= i < |r'| ==> r'[i].0 == Keys(r')[i];
  }

  /** Assigning a new key appends its entry. */
  lemma {:induction false} PutNew<V>(r: Record<V>, k: string, v: V)
    requires k !in Keys(r)
    ensures Put(r, k, v) == r + [(k, v)]
  {
    if |r| > 0 {
      assert k in Keys(r) <==> k == r[0].0 || k in Keys(r[1..]) by {
        assert Keys(r) == [r[0].0] + Keys(r[1..]);
      }
      PutNew(r[1..], k, v);
      assert [r[0]] + (r[1..] + [(k, v)]) == r + [(k, v)];
    }
  }

  /** Reading an object with one more entry at the end: earlier keys win, as `Get` takes the first. */
  lemma {:induction false} GetAppend<V>(r: Record<V>, k': string, v: V, k: string)
    ensures Get(r + [(k', v)], k) == if k in Keys(r) then Get(r, k) else if k == k' then Some(v) else None
  {
    if |r| > 0 {
      assert k in Keys(r) <==> k == r[0].0 || k in Keys(r[1..]) by {
        assert Keys(r) == [r[0].0] + Keys(r[1..]);
      }
      GetAppend(r[1..], k', v, k);
      assert (r + [(k', v)])[1..] == r[1..] + [(k', v)];
    }
  }
}

=== FILE: search_state.dfy ===
/** Whether the global search dialog is open. */
module Search {

  class SearchState {
    var open: bool

    constructor ()
      ensures !open
    {
      open := false;
    }

    method Toggle()
      modifies this
      ensures open == !old(open)
    {
      open := !open;
    }

    /** Sets the flag; the result does not depend on the old value, so repeating it changes nothing. */
    method SetOpen(value: bool)
      modifies this
      ensures open == value
    {
      open := value;
    }
  }

  /** Two toggles restore the original value. */
  method ToggleTwice(s: SearchState)
    modifies s
    ensures s.open == old(s.open)
  {
    s.Toggle();
    s.Toggle();
  }
}

=== FILE: seqs.dfy ===
/** Sequence facts shared by the generators, which build their output by appending chunks. */
module Seqs {

  /** Concatenation associates. */
  lemma ConcatAssociates<T>(a: seq<T>, b: seq<T>, c: seq<T>)
    ensures (a + b) + c == a + (b + c)
  {
  }

  /** A slice of a concatenation that lies in one part is a slice of that part. */
  lemma SliceOfConcat<T>(a: seq<T>, b: seq<T>, lo: nat, hi: nat)
    requires lo <= hi <= |a| + |b|
    ensures hi <= |a| ==> (a + b)[lo..hi] == a[lo..hi]
    ensures lo == |a| && hi == |a| + |b| ==> (a + b)[lo..hi] == b
  {
  }

  /** The chunks `f` gives for each element, concatenated in order. */
  function FlatMap<T, U>(xs: seq<T>, f: T -> seq<U>): seq<U>
    decreases |xs|
  {
    if |xs| == 0 then [] else FlatMap(xs[..|xs| - 1], f) + f(xs[|xs| - 1])
  }

  /** One more element appends its chunk. */
  lemma FlatMapStep<T, U>(xs: seq<T>, f: T -> seq<U>, i: nat)
    requires i < |xs|
    ensures FlatMap(xs[..i + 1], f) == FlatMap(xs[..i], f) + f(xs[i])
  {
    assert xs[..i + 1][..i] == xs[..i];
  }

  lemma {:induction false} FlatMapLength<T, U>(xs: seq<T>, f: T -> seq<U>, k: nat)
    requires forall x :: |f(x)| == k
    ensures |FlatMap(xs, f)| == k * |xs|
    decreases |xs|
  {
    if |xs| > 0 {
      FlatMapLength(xs[..|xs| - 1], f, k);
      assert k * |xs| == k * (|xs| - 1) + k;
    }
  }

  /** With chunks of size `k`, element `i`'s chunk sits at positions `k * i` to `k * i + k - 1`. */
  lemma {:induction false} FlatMapAt<T, U>(xs: seq<T>, f: T -> seq<U>, k: nat, i: nat)
    requires forall x :: |f(x)| == k
    requires i < |xs|
    ensures k * i + k <= |FlatMap(xs, f)|
    ensures FlatMap(xs, f)[k * i..k * i + k] == f(xs[i])
    decreases |xs|
  {
    var n := |xs|;
    var prefix := xs[..n - 1];
    var before := FlatMap(prefix, f);
    var last := f(xs[n - 1]);
    FlatMapLength(prefix, f, k);
    assert k * n == k * (n - 1) + k;
    if i < n - 1 {
      FlatMapAt(prefix, f, k, i);
      assert prefix[i] == xs[i];
      MulMonotone(k, i + 1, n - 1);
      assert k * (i + 1) == k * i + k;
      SliceOfConcat(before, last, k * i, k * i + k);
    } else {
      assert i == n - 1;
      SliceOfConcat(before, last, k * i, k * i + k);
    }
  }

  lemma {:induction false} MulMonotone(k: nat, a: nat, b: nat)
    requires a <= b
    ensures k * a <= k * b
    decreases b - a
  {
    if a < b {
      MulMonotone(k, a, b - 1);
      assert k * b == k * (b - 1) + k;
    }
  }
}

=== FILE: shortcuts.dfy ===
/**
 * The keyboard-shortcut registry: components register shortcuts and later unregister exactly
 * those objects; a keydown event runs the first registered shortcut that matches it.
 */
module Shortcuts {
  import opened Wrappers
  import opened Text

  datatype Modifier = Ctrl | Meta | Shift | Alt

  /**
   * A shortcut object; registries compare them by identity. `displayLabel` is the source's `label`. `action` identifies the callback to
   * run. `enabled` names the optional guard, whose answer is asked for when an event arrives.
   * An absent modifier list behaves exactly like an empty one and is written as `[]`.
   */
  class Shortcut {
    const key: string
    const modifiers: seq<Modifier>
    const displayLabel: string
    const action: nat
    const scope: string
    const enabled: Option<nat>

    constructor (key: string, modifiers: seq<Modifier>, displayLabel: string, action: nat,
                 scope: string, enabled: Option<nat>)
      ensures this.key == key && this.modifiers == modifiers && this.displayLabel == displayLabel
      ensures this.action == action && this.scope == scope && this.enabled == enabled
    {
      this.key := key;
      this.modifiers := modifiers;
      this.displayLabel := displayLabel;
      this.action := action;
      this.scope := scope;
      this.enabled := enabled;
    }
  }

  /** What the handler reads from a `KeyboardEvent` and its target element. */
  datatype KeyEvent = KeyEvent(
    key: string,
    ctrlKey: bool,
    metaKey: bool,
    shiftKey: bool,
    altKey: bool,
    targetTag: string,
    targetContentEditable: bool)

  const InputTags: set<string> := {"INPUT", "TEXTAREA", "SELECT"}

  /** The user is typing: the target is a form field or editable content. */
  predicate IsInputTarget(e: KeyEvent) {
    e.targetTag in InputTags || e.targetContentEditable
  }

  /**
   * Ctrl and Meta stand for each other: a shortcut needing either wants one of them held, one
   * needing neither wants both released. Shift and Alt must match exactly.
   */
  predicate ModifiersMatch(mods: seq<Modifier>, e: KeyEvent) {
    var needCmdOrCtrl := Ctrl in mods || Meta in mods;
    var hasCmdOrCtrl := e.metaKey || e.ctrlKey;
    (needCmdOrCtrl <==> hasCmdOrCtrl)
    && (Shift in mods <==> e.shiftKey)
    && (Alt in mods <==> e.altKey)
  }

  /** Whether `s` fires for `e`, given the current answer of every guard. */
  predicate Fires(s: Shortcut, e: KeyEvent, guard: nat -> bool) {
    && !(IsInputTarget(e) && |s.modifiers| == 0)
    && Lower(e.key) == Lower(s.key)
    && ModifiersMatch(s.modifiers, e)
    && (s.enabled.Some? ==> guard(s.enabled.value))
  }

  /** Shortcuts without modifiers never fire while the user types in a field. */
  lemma InputSuppressesPlainShortcuts(s: Shortcut, e: KeyEvent, guard: nat -> bool)
    requires IsInputTarget(e) && |s.modifiers| == 0
    ensures !Fires(s, e, guard)
  {
  }

  /** Keys are compared without regard to case. */
  lemma KeyIsCaseInsensitive(s: Shortcut, e: KeyEvent, guard: nat -> bool)
    ensures Fires(s, e.(key := Lower(e.key)), guard) == Fires(s, e, guard)
  {
    LowerIdempotent(e.key);
  }

  /** Holding Ctrl or holding Meta is the same to every shortcut. */
  lemma CtrlAndMetaAreInterchangeable(s: Shortcut, e: KeyEvent, guard: nat -> bool)
    ensures Fires(s, e.(ctrlKey := true, metaKey := false), guard)
         == Fires(s, e.(ctrlKey := false, metaKey := true), guard)
  {
  }

  /** Requiring Ctrl or requiring Meta is the same to every event. */
  lemma CtrlAndMetaRequirementsAgree(mods: seq<Modifier>, e: KeyEvent)
    ensures ModifiersMatch(mods + [Ctrl], e) == ModifiersMatch(mods + [Meta], e)
  {
  }

  /** A shortcut that needs neither Ctrl nor Meta never fires while one of them is held. */
  lemma PlainShortcutsIgnoreCmd(s: Shortcut, e: KeyEvent, guard: nat -> bool)
    requires Ctrl !in s.modifiers && Meta !in s.modifiers
    requires e.ctrlKey || e.metaKey
    ensures !Fires(s, e, guard)
  {
  }

  /** Shift and Alt must be held exactly when the shortcut lists them. */
  lemma ShiftAndAltAreExact(s: Shortcut, e: KeyEvent, guard: nat -> bool)
    requires Fires(s, e, guard)
    ensures e.shiftKey == (Shift in s.modifiers) && e.altKey == (Alt in s.modifiers)
  {
  }

  /** The list without the shortcut objects in `toRemove`, in the original order. */
  function Without(list: seq<Shortcut>, toRemove: set<Shortcut>): (r: seq<Shortcut>)
    ensures |r| <= |list|
    ensures forall i :: 0 <= i < |r| ==> r[i] in list && r[i] !in toRemove
    ensures forall i :: 0 <= i < |list| && list[i] !in toRemove ==> list[i] in r
  {
    if |list| == 0 then []
    else if list[0] in toRemove then Without(list[1..], toRemove)
    else [list[0]] + Without(list[1..], toRemove)
  }

  /** Removing from a concatenation removes from each part, so the kept shortcuts stay in order. */
  lemma {:induction false} WithoutConcat(a: seq<Shortcut>, b: seq<Shortcut>, toRemove: set<Shortcut>)
    ensures Without(a + b, toRemove) == Without(a, toRemove) + Without(b, toRemove)
  {
    if |a| == 0 {
      assert a + b == b;
    } else {
      assert (a + b)[1..] == a[1..] + b;
      WithoutConcat(a[1..], b, toRemove);
    }
  }

  /** A list none of whose shortcuts is to be removed is kept whole. */
  lemma {:induction false} WithoutNothing(list: seq<Shortcut>, toRemove: set<Shortcut>)
    requires forall s :: s in list ==> s !in toRemove
    ensures Without(list, toRemove) == list
  {
    if |list| > 0 {
      WithoutNothing(list[1..], toRemove);
    }
  }

  /** A list all of whose shortcuts are to be removed disappears. */
  lemma {:induction false} WithoutEverything(list: seq<Shortcut>, toRemove: set<Shortcut>)
    requires forall s :: s in list ==> s in toRemove
    ensures Without(list, toRemove) == []
  {
    if |list| > 0 {
      WithoutEverything(list[1..], toRemove);
    }
  }

  /**
   * Unregistering right after registering restores the previous list, provided the new
   * shortcut objects were not already registered.
   */
  lemma UnregisterUndoesRegister(before: seq<Shortcut>, added: seq<Shortcut>)
    requires forall s :: s in before ==> s !in added
    ensures Without(before + added, set s | s in added) == before
  {
    WithoutConcat(before, added, set s | s in added);
    WithoutNothing(before, set s | s in added);
    WithoutEverything(added, set s | s in added);
  }

  /** What the closure returned by `register` captured: the shortcut objects to remove. */
  datatype Registration = Registration(toRemove: set<Shortcut>)

  class ShortcutRegistry {
    var shortcuts: seq<Shortcut>
    var helpOpen: bool

    constructor ()
      ensures shortcuts == [] && !helpOpen
    {
      shortcuts := [];
      helpOpen := false;
    }

    /** Appends the new shortcuts after the registered ones and returns the handle that removes them. */
    method Register(newShortcuts: seq<Shortcut>) returns (handle: Registration)
      modifies this
      ensures shortcuts == old(shortcuts) + newShortcuts
      ensures handle.toRemove == set s | s in newShortcuts
      ensures helpOpen == old(helpOpen)
    {
      shortcuts := shortcuts + newShortcuts;
      handle := Registration(set s | s in newShortcuts);
    }

    /** The returned closure: drops exactly the objects of that registration from the current list. */
    method Unregister(handle: Registration)
      modifies this
      ensures shortcuts == Without(old(shortcuts), handle.toRemove)
      ensures helpOpen == old(helpOpen)
    {
      shortcuts := Without(shortcuts, handle.toRemove);
    }

    /**
     * Runs at most one shortcut: the first, in registration order, that fires for the event.
     * `fired` is its position; `preventDefault` is called exactly when one fires.
     */
    method HandleKeydown(e: KeyEvent, guard: nat -> bool) returns (fired: Option<nat>, prevented: bool)
      ensures prevented <==> fired.Some?
      ensures fired.Some? ==> fired.value < |shortcuts| && Fires(shortcuts[fired.value], e, guard)
      ensures fired.Some? ==> forall j :: 0 <= j < fired.value ==> !Fires(shortcuts[j], e, guard)
      ensures fired.None? ==> forall j :: 0 <= j < |shortcuts| ==> !Fires(shortcuts[j], e, guard)
    {
      var isInput := e.targetTag in InputTags || e.targetContentEditable;
      for i := 0 to |shortcuts|
        invariant forall j :: 0 <= j < i ==> !Fires(shortcuts[j], e, guard)
      {
        var shortcut := shortcuts[i];
        var hasModifiers := |shortcut.modifiers| > 0;
        if isInput && !hasModifiers {
          continue;
        }
        if Lower(e.key) != Lower(shortcut.key) {
          continue;
        }
        var needCtrl := Ctrl in shortcut.modifiers;
        var needMeta := Meta in shortcut.modifiers;
        var needShift := Shift in shortcut.modifiers;
        var needAlt := Alt in shortcut.modifiers;
        var needCmdOrCtrl := needCtrl || needMeta;
        var hasCmdOrCtrl := e.metaKey || e.ctrlKey;
        if needCmdOrCtrl && !hasCmdOrCtrl {
          continue;
        }
        if !needCmdOrCtrl && (e.metaKey || e.ctrlKey) {
          continue;
        }
        if needShift != e.shiftKey {
          continue;
        }
        if needAlt != e.altKey {
          continue;
        }
        if shortcut.enabled.Some? && !guard(shortcut.enabled.value) {
          continue;
        }
        return Some(i), true;
      }
      return None, false;
    }
  }
}

=== FILE: sidebar_state.dfy ===
/**
 * The sidebar's state holder. `open` is owned by the enclosing provider: the state reads it
 * through a getter and writes it through the provider's `setOpen` callback, modelled here as
 * assigning the field. `isMobile` is the viewport media query's current answer.
 */
module Sidebar {

  /** The keyboard key that toggles the sidebar together with Cmd or Ctrl. */
  const ShortcutKey: string := "b"

  /** The sidebar shortcut: exactly the key `b` (case-sensitive) with Meta or Ctrl held. */
  predicate IsToggleShortcut(key: string, metaKey: bool, ctrlKey: bool) {
    key == ShortcutKey && (metaKey || ctrlKey)
  }

  class SidebarState {
    var open: bool
    var openMobile: bool
    var isMobile: bool

    constructor (open: bool, isMobile: bool)
      ensures this.open == open && this.isMobile == isMobile && !openMobile
    {
      this.open := open;
      this.isMobile := isMobile;
      openMobile := false;
    }

    /** `expanded` exactly when the sidebar is open. */
    function State(): (r: string)
      reads this
      ensures r == "expanded" <==> open
      ensures r == "collapsed" <==> !open
    {
      if open then "expanded" else "collapsed"
    }

    /** The provider's callback. */
    method SetOpen(value: bool)
      modifies this
      ensures open == value && openMobile == old(openMobile) && isMobile == old(isMobile)
    {
      open := value;
    }

    method SetOpenMobile(value: bool)
      modifies this
      ensures openMobile == value && open == old(open) && isMobile == old(isMobile)
    {
      openMobile := value;
    }

    /** On mobile flips the sheet and leaves `open` alone; on desktop asks the provider to flip `open`. */
    method Toggle()
      modifies this
      ensures isMobile == old(isMobile)
      ensures old(isMobile) ==> openMobile == !old(openMobile) && open == old(open)
      ensures !old(isMobile) ==> open == !old(open) && openMobile == old(openMobile)
    {
      if isMobile {
        openMobile := !openMobile;
      } else {
        SetOpen(!open);
      }
    }

    /** Toggles, and reports `preventDefault`, exactly on the sidebar shortcut. */
    method HandleShortcutKeydown(key: string, metaKey: bool, ctrlKey: bool) returns (prevented: bool)
      modifies this
      ensures prevented == IsToggleShortcut(key, metaKey, ctrlKey)
      ensures isMobile == old(isMobile)
      ensures prevented && old(isMobile) ==> openMobile == !old(openMobile) && open == old(open)
      ensures prevented && !old(isMobile) ==> open == !old(open) && openMobile == old(openMobile)
      ensures !prevented ==> open == old(open) && openMobile == old(openMobile)
    {
      prevented := IsToggleShortcut(key, metaKey, ctrlKey);
      if prevented {
        Toggle();
      }
    }
  }

  /** Two toggles on mobile restore `openMobile`. */
  method ToggleTwiceOnMobile(s: SidebarState)
    requires s.isMobile
    modifies s
    ensures s.openMobile == old(s.openMobile) && s.open == old(s.open)
  {
    s.Toggle();
    s.Toggle();
  }
}

=== FILE: style_block.dfy ===
/**
 * Extraction of one mode's style block from a preset's source text: the `light: {` or `dark: {`
 * opener is found, braces are counted to find the matching `}`, and every `key: "value"` pair
 * inside is collected (a later pair for the same key overwrites an earlier one).
 */
module StyleBlock {
  import opened Wrappers
  import opened Text
  import opened Patterns

  /** A style map from custom-property names to values. */
  type Styles = map<string, string>

  function Delta(c: char): int {
    if c == '{' then 1 else if c == '}' then -1 else 0
  }

  /** Opening braces minus closing braces in `t`. Braces are counted wherever they occur. */
  function Net(t: string): int {
    if |t| == 0 then 0 else Net(t[..|t| - 1]) + Delta(t[|t| - 1])
  }

  /** The nesting depth after reading `s[start..i]`, one block being open at `start`. */
  function Depth(s: string, start: nat, i: nat): int
    requires start <= i <= |s|
  {
    1 + Net(s[start..i])
  }

  lemma {:induction false} DepthStep(s: string, start: nat, i: nat)
    requires start <= i < |s|
    ensures Depth(s, start, i + 1) == Depth(s, start, i) + Delta(s[i])
  {
    assert s[start..i + 1][..i - start] == s[start..i];
  }

  /** The scan that counts braces from `pos`, the depth having stayed positive before it. */
  function ClosingFrom(s: string, start: nat, pos: nat): (r: nat)
    requires start <= pos <= |s|
    requires forall k :: start <= k < pos ==> Depth(s, start, k) > 0
    ensures pos <= r <= |s|
    ensures forall k :: start <= k < r ==> Depth(s, start, k) > 0
    ensures r == |s| || Depth(s, start, r) == 0
    decreases |s| - pos
  {
    if pos < |s| && Depth(s, start, pos) > 0 then ClosingFrom(s, start, pos + 1)
    else
      DepthNonNegative(s, start, pos);
      pos
  }

  /** The depth falls by at most one per character, so it is never negative while it was positive. */
  lemma {:induction false} DepthNonNegative(s: string, start: nat, pos: nat)
    requires start <= pos <= |s|
    requires forall k :: start <= k < pos ==> Depth(s, start, k) > 0
    ensures Depth(s, start, pos) >= 0
  {
    if pos > start {
      DepthStep(s, start, pos - 1);
    }
  }

  /**
   * Where the brace count stops for a block opened just before `start`: right after the `}`
   * that brings the depth back to zero, or at the end of the text when none does.
   */
  function ClosingEnd(s: string, start: nat): (r: nat)
    requires start <= |s|
    ensures start <= r <= |s|
    ensures forall k :: start <= k < r ==> Depth(s, start, k) > 0
    ensures r == |s| || Depth(s, start, r) == 0
  {
    ClosingFrom(s, start, start)
  }

  /** The stopping point is determined by the two conditions above. */
  lemma {:induction false} ClosingEndUnique(s: string, start: nat, n: nat)
    requires start <= n <= |s|
    requires forall k :: start <= k < n ==> Depth(s, start, k) > 0
    requires n == |s| || Depth(s, start, n) == 0
    ensures n == ClosingEnd(s, start)
  {
    var r := ClosingEnd(s, start);
    assert n >= r;
    assert r >= n;
  }

  /** `styleContent`: the text after the opener up to, not including, the last character read. */
  function Content(s: string, start: nat): string
    requires start <= |s|
  {
    Substring(s, start, ClosingEnd(s, start) - 1)
  }

  /**
   * When the block is closed, the content is exactly the text up to the matching `}`, and it is
   * balanced: no prefix of it closes more braces than it opens, and the whole opens as many as
   * it closes.
   */
  lemma {:induction false} ContentOfClosedBlock(s: string, start: nat)
    requires start <= |s| && Depth(s, start, ClosingEnd(s, start)) == 0
    ensures var r := ClosingEnd(s, start);
      && start < r && s[r - 1] == '}'
      && Content(s, start) == s[start..r - 1]
      && Net(Content(s, start)) == 0
      && forall k :: start <= k <= r - 1 ==> Net(s[start..k]) >= 0
  {
    var r := ClosingEnd(s, start);
    assert r != start;
    DepthStep(s, start, r - 1);
    SubstringInRange(s, start, r - 1);
    forall k | start <= k <= r - 1 ensures Net(s[start..k]) >= 0 {
      assert Depth(s, start, k) > 0;
    }
  }

  /**
   * When the text ends first, the content drops the text's last character; when the opener's
   * `{` is the very last character, `substring` swaps its arguments and the content is that `{`.
   */
  lemma {:induction false} ContentOfUnclosedBlock(s: string, start: nat)
    requires start <= |s| && Depth(s, start, ClosingEnd(s, start)) != 0
    ensures ClosingEnd(s, start) == |s|
    ensures start < |s| ==> Content(s, start) == s[start..|s| - 1]
    ensures 0 < start == |s| ==> Content(s, start) == s[|s| - 1..]
  {
    if start < |s| {
      SubstringInRange(s, start, |s| - 1);
    } else if 0 < start {
      SubstringSwapped(s, start, start - 1);
    }
  }

  /** `styles[key] = value` for each match in turn. */
  function Assign(styles: Styles, ms: seq<Match>): Styles
    decreases |ms|
  {
    if |ms| == 0 then styles else Assign(styles[ms[0].first := ms[0].second], ms[1..])
  }

  /** A key no match assigns keeps its presence and value. */
  lemma {:induction false} AssignUntouched(styles: Styles, ms: seq<Match>, k: string)
    requires forall i :: 0 <= i < |ms| ==> ms[i].first != k
    ensures k in Assign(styles, ms) <==> k in styles
    ensures k in styles ==> Assign(styles, ms)[k] == styles[k]
    decreases |ms|
  {
    if |ms| > 0 {
      AssignUntouched(styles[ms[0].first := ms[0].second], ms[1..], k);
    }
  }

  /** The last match for a key decides its value. */
  lemma {:induction false} AssignLastWins(styles: Styles, ms: seq<Match>, i: nat)
    requires i < |ms| && forall j :: i < j < |ms| ==> ms[j].first != ms[i].first
    ensures ms[i].first in Assign(styles, ms) && Assign(styles, ms)[ms[i].first] == ms[i].second
    decreases |ms|
  {
    var next := styles[ms[0].first := ms[0].second];
    if i == 0 {
      AssignUntouched(next, ms[1..], ms[0].first);
    } else {
      AssignLastWins(next, ms[1..], i - 1);
    }
  }

  /** The keys after the assignments: those present before and those some match assigns. */
  lemma {:induction false} AssignKeys(styles: Styles, ms: seq<Match>, k: string)
    ensures k in Assign(styles, ms) <==> k in styles || exists i :: 0 <= i < |ms| && ms[i].first == k
    decreases |ms|
  {
    if |ms| > 0 {
      AssignKeys(styles[ms[0].first := ms[0].second], ms[1..], k);
      if exists i :: 0 <= i < |ms[1..]| && ms[1..][i].first == k {
        var i :| 0 <= i < |ms[1..]| && ms[1..][i].first == k;
        assert ms[i + 1].first == k;
      }
      if exists i :: 0 <= i < |ms| && ms[i].first == k {
        var i :| 0 <= i < |ms| && ms[i].first == k;
        if i > 0 {
          assert ms[1..][i - 1].first == k;
        }
      }
    }
  }

  /** A custom-property name as the expression admits it: `[a-z][a-z0-9-]*`. */
  predicate IsStyleKey(t: string) {
    |t| > 0 && IsLowerLetter(t[0]) && forall i :: 1 <= i < |t| ==> InClass(KeyTail, t[i])
  }

  /** A value as the expression admits it: `[^"']+`. */
  predicate IsStyleValue(t: string) {
    |t| > 0 && forall i :: 0 <= i < |t| ==> !IsQuote(t[i])
  }

  /** Every entry match captures a well-formed key and value. */
  lemma {:induction false} EntryGroups(s: string, p: nat)
    requires p <= |s| && StyleEntryAt(s, p).Some?
    ensures IsStyleKey(StyleEntryAt(s, p).value.first)
    ensures IsStyleValue(StyleEntryAt(s, p).value.second)
  {
    var m := StyleEntryAt(s, p).value;
    var (i, k, j) := StyleKeyAt(s, p).value;
    var (c, v, w) := StyleValueAt(s, j).value;
    assert m.first == s[i..k] && m.second == s[v + 1..w];
    assert IsLowerLetter(s[i]) && AllIn(s, i + 1, k, KeyTail) && AllIn(s, v + 1, w, NotQuote);
    assert forall n :: 1 <= n < |m.first| ==> m.first[n] == s[i + n];
    assert forall n :: 0 <= n < |m.second| ==> m.second[n] == s[v + 1 + n];
  }

  predicate WellFormedStyles(styles: Styles) {
    forall k :: k in styles ==> IsStyleKey(k) && IsStyleValue(styles[k])
  }

  lemma {:induction false} AssignWellFormed(styles: Styles, s: string, ms: seq<Match>)
    requires WellFormedStyles(styles)
    requires forall i :: 0 <= i < |ms| ==> ms[i].start <= |s| && MatchAt(StyleEntry, s, ms[i].start) == Some(ms[i])
    ensures WellFormedStyles(Assign(styles, ms))
    decreases |ms|
  {
    if |ms| > 0 {
      EntryGroups(s, ms[0].start);
      AssignWellFormed(styles[ms[0].first := ms[0].second], s, ms[1..]);
    }
  }

  /** The pairs a global search over `content` finds, assigned in order into an empty object. */
  function Entries(content: string): Styles {
    Assign(map[], AllMatches(StyleEntry, content, 0))
  }

  /** Collected keys and values are as the expression admits them. */
  lemma {:induction false} EntriesWellFormed(content: string)
    ensures WellFormedStyles(Entries(content))
  {
    AllMatchesAreMatches(StyleEntry, content, 0);
    AssignWellFormed(map[], content, AllMatches(StyleEntry, content, 0));
  }

  /** `extractStyleBlock(block, mode)`, as a function of the block's text. */
  function ExtractedStyles(block: string, mode: Mode): Option<Styles> {
    match FirstMatch(ModeOpen(mode), block, 0)
    case None => None
    case Some(m) =>
      var styles := Entries(Content(block, m.end));
      if |styles| > 0 then Some(styles) else None
  }

  /**
   * A block is found exactly when the opener occurs and its content holds a pair; a found block
   * is non-empty and well-formed.
   */
  lemma {:induction false} ExtractedStylesFound(block: string, mode: Mode)
    ensures ExtractedStyles(block, mode).Some? <==>
      FirstMatch(ModeOpen(mode), block, 0).Some?
      && |AllMatches(StyleEntry, Content(block, FirstMatch(ModeOpen(mode), block, 0).value.end), 0)| > 0
    ensures ExtractedStyles(block, mode).Some? ==>
      |ExtractedStyles(block, mode).value| > 0 && WellFormedStyles(ExtractedStyles(block, mode).value)
  {
    var m := FirstMatch(ModeOpen(mode), block, 0);
    if m.Some? {
      var content := Content(block, m.value.end);
      var ms := AllMatches(StyleEntry, content, 0);
      EntriesWellFormed(content);
      if |ms| > 0 {
        AssignKeys(map[], ms, ms[0].first);
      } else {
        assert Entries(content) == map[];
      }
    }
  }

  /** The brace-counting loop: from just after the opener to just after the matching `}`. */
  method ScanToClosingBrace(block: string, startPos: nat) returns (pos: nat)
    requires startPos <= |block|
    ensures pos == ClosingEnd(block, startPos)
  {
    var depth := 1;
    pos := startPos;
    while pos < |block| && depth > 0
      invariant startPos <= pos <= |block|
      invariant depth == Depth(block, startPos, pos) && depth >= 0
      invariant forall k :: startPos <= k < pos ==> Depth(block, startPos, k) > 0
      decreases |block| - pos
    {
      DepthStep(block, startPos, pos);
      if block[pos] == '{' {
        depth := depth + 1;
      }
      if block[pos] == '}' {
        depth := depth - 1;
      }
      pos := pos + 1;
    }
    ClosingEndUnique(block, startPos, pos);
  }

  /** The global-search loop: each pair found is assigned, resuming the search after it. */
  method CollectEntries(content: string) returns (styles: Styles)
    ensures styles == Entries(content)
  {
    styles := map[];
    var from := 0;
    var kvMatch := FirstMatch(StyleEntry, content, from);
    while kvMatch.Some?
      invariant from <= |content|
      invariant kvMatch == FirstMatch(StyleEntry, content, from)
      invariant Assign(styles, AllMatches(StyleEntry, content, from)) == Entries(content)
      decreases |content| - from
    {
      styles := styles[kvMatch.value.first := kvMatch.value.second];
      from := kvMatch.value.end;
      kvMatch := FirstMatch(StyleEntry, content, from);
    }
  }

  /** `extractStyleBlock`: find the opener, count braces to the block's end, collect the pairs. */
  method ExtractStyleBlock(block: string, mode: Mode) returns (r: Option<Styles>)
    ensures r == ExtractedStyles(block, mode)
  {
    var modeMatch := FirstMatch(ModeOpen(mode), block, 0);
    if modeMatch.None? {
      return None;
    }
    var startPos := modeMatch.value.end;
    var pos := ScanToClosingBrace(block, startPos);
    var content := Substring(block, startPos, pos - 1);
    assert content == Content(block, startPos);
    var styles := CollectEntries(content);
    r := if |styles| > 0 then Some(styles) else None;
  }
}

=== FILE: text.dfy ===
/**
 * String primitives the TypeScript code takes from the JavaScript runtime:
 * the `\s` character class, `toLowerCase`, `startsWith`, `split`, `join`,
 * `String(n)` for integers and `replace(/'/g, ...)`.
 */
module Text {

  /** The characters JavaScript's regex class `\s` matches (white space and line terminators). */
  predicate IsSpace(c: char) {
    c == ' ' || c == '\t' || c == '\n' || c == '\r' || c == '\U{000B}' || c == '\U{000C}'
    || c == '\U{00A0}' || c == '\U{1680}' || ('\U{2000}' <= c <= '\U{200A}')
    || c == '\U{2028}' || c == '\U{2029}' || c == '\U{202F}' || c == '\U{205F}'
    || c == '\U{3000}' || c == '\U{FEFF}'
  }

  /** No line break in a text. */
  predicate NoNewline(s: string) {
    forall k :: 0 <= k < |s| ==> s[k] != '\n'
  }

  /** Joining two texts without line breaks gives none. */
  lemma NoNewlineConcat(a: string, b: string)
    requires NoNewline(a) && NoNewline(b)
    ensures NoNewline(a + b)
  {
    forall k | 0 <= k < |a + b|
      ensures (a + b)[k] != '\n'
    {
      if k >= |a| {
        assert (a + b)[k] == b[k - |a|];
      }
    }
  }

  /** The line terminators after which a multiline `^` matches. */
  predicate IsLineTerminator(c: char) {
    c == '\n' || c == '\r' || c == '\U{2028}' || c == '\U{2029}'
  }

  predicate IsLowerLetter(c: char) { 'a' <= c <= 'z' }

  predicate IsUpperLetter(c: char) { 'A' <= c <= 'Z' }

  predicate IsDigit(c: char) { '0' <= c <= '9' }

  /** `toLowerCase` on one character, for the ASCII letters. */
  function LowerChar(c: char): (r: char)
    ensures !IsUpperLetter(r)
    ensures !IsUpperLetter(c) ==> r == c
    ensures IsSpace(r) <==> IsSpace(c)
  {
    if IsUpperLetter(c) then (c as int - 'A' as int + 'a' as int) as char else c
  }

  /** `s.toLowerCase()`, for the ASCII letters. */
  function Lower(s: string): (r: string)
    ensures |r| == |s|
    ensures forall i :: 0 <= i < |s| ==> r[i] == LowerChar(s[i])
  {
    seq(|s|, i requires 0 <= i < |s| => LowerChar(s[i]))
  }

  lemma LowerIdempotent(s: string)
    ensures Lower(Lower(s)) == Lower(s)
  {
  }

  /** `s.startsWith(prefix)`. */
  predicate StartsWith(s: string, prefix: string) {
    |prefix| <= |s| && s[..|prefix|] == prefix
  }

  /** `sep` occurs in `s` starting at index `j`. */
  predicate OccursAt(s: string, sep: string, j: nat) {
    j + |sep| <= |s| && s[j..j + |sep|] == sep
  }

  predicate Contains(s: string, sep: string) {
    exists j: nat | j <= |s| :: OccursAt(s, sep, j)
  }

  /** `parts.join(sep)`. */
  function Join(parts: seq<string>, sep: string): string {
    if |parts| == 0 then ""
    else if |parts| == 1 then parts[0]
    else parts[0] + sep + Join(parts[1..], sep)
  }

  /**
   * The scan behind `s.split(sep)` for a non-empty separator: `start` is where the current
   * piece began, `i` the next position to test; no occurrence of `sep` starts in `[start, i)`.
   */
  function SplitFrom(s: string, sep: string, start: nat, i: nat): seq<string>
    requires |sep| > 0 && start <= i <= |s|
    decreases |s| - i
  {
    if i + |sep| > |s| then [s[start..]]
    else if s[i..i + |sep|] == sep then [s[start..i]] + SplitFrom(s, sep, i + |sep|, i + |sep|)
    else SplitFrom(s, sep, start, i + 1)
  }

  /** The scan yields at least one piece, and no piece holds the separator. */
  lemma {:induction false} SplitFromPieces(s: string, sep: string, start: nat, i: nat)
    requires |sep| > 0 && start <= i <= |s|
    requires forall j: nat :: start <= j < i ==> !OccursAt(s, sep, j)
    ensures |SplitFrom(s, sep, start, i)| > 0
    ensures forall k :: 0 <= k < |SplitFrom(s, sep, start, i)| ==> !Contains(SplitFrom(s, sep, start, i)[k], sep)
    decreases |s| - i
  {
    var r := SplitFrom(s, sep, start, i);
    if i + |sep| > |s| {
      NoOccurrenceInSlice(s, sep, start, |s|);
      assert s[start..] == s[start..|s|];
      assert r == [s[start..]];
    } else if s[i..i + |sep|] == sep {
      NoOccurrenceInSlice(s, sep, start, i);
      var rest := SplitFrom(s, sep, i + |sep|, i + |sep|);
      SplitFromPieces(s, sep, i + |sep|, i + |sep|);
      assert r == [s[start..i]] + rest;
      forall k | 0 <= k < |r| ensures !Contains(r[k], sep) {
        if k > 0 {
          assert r[k] == rest[k - 1];
        }
      }
    } else {
      assert forall j: nat :: start <= j < i + 1 ==> !OccursAt(s, sep, j);
      SplitFromPieces(s, sep, start, i + 1);
    }
  }

  lemma SliceOfSlice<T>(s: seq<T>, start: nat, end: nat, i: nat, k: nat)
    requires start <= end <= |s| && i <= k <= end - start
    ensures s[start..end][i..k] == s[start + i..start + k]
  {
    var a, b := s[start..end][i..k], s[start + i..start + k];
    forall n | 0 <= n < k - i ensures a[n] == b[n] {
      assert a[n] == s[start..end][i + n];
    }
  }

  /** A slice in which no occurrence of `sep` starts (within `s`) does not contain `sep`. */
  lemma NoOccurrenceInSlice(s: string, sep: string, start: nat, end: nat)
    requires |sep| > 0 && start <= end <= |s|
    requires forall j: nat :: start <= j < end && j + |sep| <= end ==> !OccursAt(s, sep, j)
    ensures !Contains(s[start..end], sep)
  {
    if Contains(s[start..end], sep) {
      var j: nat :| j <= end - start && OccursAt(s[start..end], sep, j);
      SliceOfSlice(s, start, end, j, j + |sep|);
      assert OccursAt(s, sep, start + j);
    }
  }

  /** `s.split(sep)` for a non-empty separator. */
  function Split(s: string, sep: string): (r: seq<string>)
    requires |sep| > 0
    ensures |r| > 0
    ensures forall k :: 0 <= k < |r| ==> !Contains(r[k], sep)
  {
    SplitFromPieces(s, sep, 0, 0);
    SplitFrom(s, sep, 0, 0)
  }

  lemma {:induction false} JoinSplitFrom(s: string, sep: string, start: nat, i: nat)
    requires |sep| > 0 && start <= i <= |s|
    requires forall j: nat :: start <= j < i ==> !OccursAt(s, sep, j)
    ensures Join(SplitFrom(s, sep, start, i), sep) == s[start..]
    decreases |s| - i
  {
    if i + |sep| > |s| {
    } else if s[i..i + |sep|] == sep {
      JoinSplitFrom(s, sep, i + |sep|, i + |sep|);
      var rest := SplitFrom(s, sep, i + |sep|, i + |sep|);
      assert SplitFrom(s, sep, start, i) == [s[start..i]] + rest;
      assert s[start..] == s[start..i] + sep + s[i + |sep|..];
    } else {
      JoinSplitFrom(s, sep, start, i + 1);
    }
  }

  /** Joining the pieces of a split with the same separator gives back the original string. */
  lemma JoinSplit(s: string, sep: string)
    requires |sep| > 0
    ensures Join(Split(s, sep), sep) == s
  {
    JoinSplitFrom(s, sep, 0, 0);
  }

  /** A one-character separator occurs in `s` exactly when some character of `s` is that character. */
  lemma ContainsChar(s: string, c: char)
    ensures Contains(s, [c]) <==> exists k :: 0 <= k < |s| && s[k] == c
  {
    if Contains(s, [c]) {
      var j: nat :| j <= |s| && OccursAt(s, [c], j);
      assert s[j..j + 1][0] == s[j];
    }
    if k :| 0 <= k < |s| && s[k] == c {
      assert s[k..k + 1] == [c];
      assert OccursAt(s, [c], k);
    }
  }

  /** `Join` with a one-character separator, unfolded at the first piece. */
  lemma JoinFirst(parts: seq<string>, c: char)
    requires |parts| > 1
    ensures Join(parts, [c]) == parts[0] + ([c] + Join(parts[1..], [c]))
  {
  }

  /** The index of the first `c` in `s`, or `|s|` when there is none. */
  function FirstIndexOf(s: string, c: char): (r: nat)
    ensures r <= |s|
  {
    if |s| == 0 || s[0] == c then 0 else 1 + FirstIndexOf(s[1..], c)
  }

  lemma {:induction false} FirstIndexOfIs(s: string, c: char, n: nat)
    requires n <= |s| && forall k :: 0 <= k < n ==> s[k] != c
    requires n == |s| || s[n] == c
    ensures FirstIndexOf(s, c) == n
  {
    if n > 0 {
      FirstIndexOfIs(s[1..], c, n - 1);
    }
  }

  /** In a join of separator-free pieces the first separator ends the first piece. */
  lemma FirstIndexOfJoin(p: seq<string>, c: char)
    requires |p| > 0 && !Contains(p[0], [c])
    ensures FirstIndexOf(Join(p, [c]), c) == |p[0]|
    ensures |p| == 1 <==> |Join(p, [c])| == |p[0]|
    ensures Join(p, [c])[..|p[0]|] == p[0]
    ensures |p| > 1 ==> Join(p, [c])[|p[0]| + 1..] == Join(p[1..], [c])
  {
    var s := Join(p, [c]);
    ContainsChar(p[0], c);
    if |p| > 1 {
      JoinFirst(p, c);
    }
    FirstIndexOfIs(s, c, |p[0]|);
  }

  /** Pieces free of the separator character are determined by their join. */
  lemma {:induction false} JoinInjective(p: seq<string>, q: seq<string>, c: char)
    requires |p| > 0 && |q| > 0
    requires forall k :: 0 <= k < |p| ==> !Contains(p[k], [c])
    requires forall k :: 0 <= k < |q| ==> !Contains(q[k], [c])
    requires Join(p, [c]) == Join(q, [c])
    ensures p == q
    decreases |p|
  {
    FirstIndexOfJoin(p, c);
    FirstIndexOfJoin(q, c);
    if |p| > 1 {
      JoinInjective(p[1..], q[1..], c);
      assert p == [p[0]] + p[1..] && q == [q[0]] + q[1..];
    }
  }

  /** Splitting a join of separator-free pieces on the same character gives the pieces back. */
  lemma SplitJoin(parts: seq<string>, c: char)
    requires |parts| > 0
    requires forall k :: 0 <= k < |parts| ==> !Contains(parts[k], [c])
    ensures Split(Join(parts, [c]), [c]) == parts
  {
    var s := Join(parts, [c]);
    JoinSplit(s, [c]);
    JoinInjective(Split(s, [c]), parts, c);
  }

  /** `c` does not occur in `s`. */
  predicate Lacks(s: string, c: char) {
    forall k :: 0 <= k < |s| ==> s[k] != c
  }

  /** No `c` comes before the first index, and the character there, when inside `s`, is `c`. */
  lemma {:induction false} FirstIndexOfSound(s: string, c: char)
    ensures Lacks(s[..FirstIndexOf(s, c)], c)
    ensures FirstIndexOf(s, c) < |s| ==> s[FirstIndexOf(s, c)] == c
    decreases |s|
  {
    if |s| > 0 && s[0] != c {
      FirstIndexOfSound(s[1..], c);
      var n := FirstIndexOf(s, c);
      forall k | 0 <= k < n ensures s[..n][k] != c {
        if k > 0 {
          assert s[..n][k] == s[1..][..n - 1][k - 1];
        }
      }
    }
  }

  /** Positions holding no first separator character start no occurrence, so the scan moves past them. */
  lemma {:induction false} SplitFromSkip(s: string, sep: string, start: nat, i: nat, e: nat)
    requires |sep| > 0 && start <= i <= e <= |s|
    requires forall j: nat :: start <= j < i ==> !OccursAt(s, sep, j)
    requires forall j :: i <= j < e ==> s[j] != sep[0]
    ensures forall j: nat :: start <= j < e ==> !OccursAt(s, sep, j)
    ensures SplitFrom(s, sep, start, i) == SplitFrom(s, sep, start, e)
    decreases e - i
  {
    forall j: nat | i <= j < e ensures !OccursAt(s, sep, j) {
      assert j + |sep| <= |s| ==> s[j..j + |sep|][0] == s[j];
    }
    if i < e {
      SplitFromSkip(s, sep, start, i + 1, e);
    }
  }

  /** A text whose end from `start` on is `a + b` holds `a` at `start` and `b` right after it. */
  lemma ConcatAt(s: string, start: nat, a: string, b: string)
    requires start <= |s| && s[start..] == a + b
    ensures start + |a| <= |s| && s[start..start + |a|] == a && s[start + |a|..] == b
  {
    assert forall k :: 0 <= k < |a| + |b| ==> s[start + k] == (a + b)[k];
    assert s[start..start + |a|] == a by {
      forall k | 0 <= k < |a| ensures s[start..start + |a|][k] == a[k] {
        assert s[start..start + |a|][k] == s[start + k];
      }
    }
    assert s[start + |a|..] == b by {
      forall k | 0 <= k < |b| ensures s[start + |a|..][k] == b[k] {
        assert s[start + |a|..][k] == s[start + (|a| + k)];
      }
    }
  }

  lemma {:induction false} SplitFromJoin(s: string, sep: string, start: nat, parts: seq<string>)
    requires |sep| > 0 && start <= |s| && |parts| > 0
    requires forall k :: 0 <= k < |parts| ==> Lacks(parts[k], sep[0])
    requires s[start..] == Join(parts, sep)
    ensures SplitFrom(s, sep, start, start) == parts
    decreases |parts|
  {
    var p := parts[0];
    var e := start + |p|;
    if |parts| == 1 {
      ConcatAt(s, start, p, "");
      SplitFromPiece(s, sep, start, p);
      SplitFromEnd(s, sep, start, e);
    } else {
      var tail := Join(parts[1..], sep);
      assert Join(parts, sep) == p + (sep + tail);
      ConcatAt(s, start, p, sep + tail);
      ConcatAt(s, e, sep, tail);
      SplitFromPiece(s, sep, start, p);
      SplitFromAt(s, sep, start, e);
      SplitFromJoin(s, sep, e + |sep|, parts[1..]);
      assert parts == [p] + parts[1..];
    }
  }

  /** Too close to the end for another occurrence, the rest of the text is the last piece. */
  lemma SplitFromEnd(s: string, sep: string, start: nat, i: nat)
    requires |sep| > 0 && start <= i <= |s| && i + |sep| > |s|
    requires forall j: nat :: start <= j < i ==> !OccursAt(s, sep, j)
    ensures SplitFrom(s, sep, start, i) == [s[start..]]
  {
  }

  /** At an occurrence of the separator the current piece ends and the scan starts afresh after it. */
  lemma SplitFromAt(s: string, sep: string, start: nat, i: nat)
    requires |sep| > 0 && start <= i && i + |sep| <= |s| && s[i..i + |sep|] == sep
    requires forall j: nat :: start <= j < i ==> !OccursAt(s, sep, j)
    ensures SplitFrom(s, sep, start, i) == [s[start..i]] + SplitFrom(s, sep, i + |sep|, i + |sep|)
  {
  }

  /**
   * A piece without the separator's first character, at `start`, is scanned over: the split
   * continues from its end.
   */
  lemma SplitFromPiece(s: string, sep: string, start: nat, p: string)
    requires |sep| > 0 && start + |p| <= |s| && s[start..start + |p|] == p && Lacks(p, sep[0])
    ensures forall j: nat :: start <= j < start + |p| ==> !OccursAt(s, sep, j)
    ensures SplitFrom(s, sep, start, start) == SplitFrom(s, sep, start, start + |p|)
  {
    forall j | start <= j < start + |p| ensures s[j] != sep[0] {
      assert s[j] == s[start..start + |p|][j - start];
    }
    SplitFromSkip(s, sep, start, start, start + |p|);
  }

  /** Splitting a join gives the pieces back when no piece holds the separator's first character. */
  lemma SplitJoinSep(parts: seq<string>, sep: string)
    requires |sep| > 0 && |parts| > 0
    requires forall k :: 0 <= k < |parts| ==> Lacks(parts[k], sep[0])
    ensures Split(Join(parts, sep), sep) == parts
  {
    SplitFromJoin(Join(parts, sep), sep, 0, parts);
  }

  /** `n` clamped to `[0, len]`, as `substring` treats its arguments. */
  function Clamp(n: int, len: nat): (r: nat)
    ensures r <= len
    ensures 0 <= n <= len ==> r == n
  {
    if n < 0 then 0 else if n > len then len else n
  }

  /** `s.substring(a, b)`: both ends clamped to the string, swapped when `a > b`. */
  function Substring(s: string, a: int, b: int): (r: string)
    ensures |r| <= |s|
  {
    var x, y := Clamp(a, |s|), Clamp(b, |s|);
    if x <= y then s[x..y] else s[y..x]
  }

  /** With ordered ends inside the string, `substring` is the slice between them. */
  lemma SubstringInRange(s: string, a: int, b: int)
    requires 0 <= a <= b <= |s|
    ensures Substring(s, a, b) == s[a..b]
  {
  }

  /** With the ends reversed, `substring` returns the slice between them all the same. */
  lemma SubstringSwapped(s: string, a: int, b: int)
    requires 0 <= b < a <= |s|
    ensures Substring(s, a, b) == s[b..a]
  {
  }

  /** The number of occurrences of the character `c` in `s`. */
  function Count(s: string, c: char): nat {
    if |s| == 0 then 0 else (if s[0] == c then 1 else 0) + Count(s[1..], c)
  }

  lemma {:induction false} CountConcat(a: string, b: string, c: char)
    ensures Count(a + b, c) == Count(a, c) + Count(b, c)
  {
    if |a| == 0 {
      assert a + b == b;
    } else {
      assert (a + b)[1..] == a[1..] + b;
      CountConcat(a[1..], b, c);
    }
  }

  lemma {:induction false} CountAbsent(s: string, c: char)
    requires !Contains(s, [c])
    ensures Count(s, c) == 0
  {
    if |s| > 0 {
      assert !OccursAt(s, [c], 0);
      if Contains(s[1..], [c]) {
        var j: nat :| j <= |s| - 1 && OccursAt(s[1..], [c], j);
        SliceOfSlice(s, 1, |s|, j, j + 1);
        assert OccursAt(s, [c], j + 1);
      }
      CountAbsent(s[1..], c);
    }
  }

  /** Joining comma-free pieces with a one-character separator adds one separator per gap. */
  lemma {:induction false} CountJoin(parts: seq<string>, c: char)
    requires |parts| > 0
    requires forall k :: 0 <= k < |parts| ==> !Contains(parts[k], [c])
    ensures Count(Join(parts, [c]), c) == |parts| - 1
  {
    CountAbsent(parts[0], c);
    if |parts| > 1 {
      CountJoin(parts[1..], c);
      CountConcat(parts[0], [c], c);
      CountConcat(parts[0] + [c], Join(parts[1..], [c]), c);
    }
  }

  /** Splitting on a single character yields one more piece than there are occurrences of it. */
  lemma SplitCount(s: string, c: char)
    ensures |Split(s, [c])| == Count(s, c) + 1
  {
    JoinSplit(s, [c]);
    CountJoin(Split(s, [c]), c);
  }

  /** The decimal digit for `d`. */
  function DigitChar(d: nat): (c: char)
    requires d < 10
    ensures IsDigit(c)
  {
    "0123456789"[d]
  }

  /** `String(n)` for a natural number: its decimal digits without leading zeros. */
  function NatToString(n: nat): (r: string)
    ensures |r| > 0 && forall i :: 0 <= i < |r| ==> IsDigit(r[i])
    ensures (r[0] == '0') <==> (n == 0)
  {
    if n < 10 then [DigitChar(n)] else NatToString(n / 10) + [DigitChar(n % 10)]
  }

  /** `String(n)` for an integer. */
  function IntToString(n: int): (r: string)
    ensures |r| > 0
    ensures n < 0 <==> r[0] == '-'
  {
    if n < 0 then "-" + NatToString(-n) else NatToString(n)
  }

  /** `s.replace(/'/g, "\\'")`: a backslash is put before every apostrophe. */
  function EscapeApostrophes(s: string): (r: string)
    ensures |r| == |s| + Count(s, '\'')
  {
    if |s| == 0 then ""
    else if s[0] == '\'' then "\\'" + EscapeApostrophes(s[1..])
    else [s[0]] + EscapeApostrophes(s[1..])
  }

  /** Drops the backslash in front of each apostrophe, the inverse of `EscapeApostrophes`. */
  function UnescapeApostrophes(s: string): string {
    if |s| < 2 then s
    else if s[0] == '\\' && s[1] == '\'' then "'" + UnescapeApostrophes(s[2..])
    else [s[0]] + UnescapeApostrophes(s[1..])
  }

  /** Every apostrophe in an escaped string is preceded by a backslash. */
  lemma {:induction false} EscapedApostrophesArePreceded(s: string, k: nat)
    requires k < |EscapeApostrophes(s)| && EscapeApostrophes(s)[k] == '\''
    ensures k > 0 && EscapeApostrophes(s)[k - 1] == '\\'
  {
    if s[0] == '\'' {
      if k >= 2 {
        EscapedApostrophesArePreceded(s[1..], k - 2);
      }
    } else {
      EscapedApostrophesArePreceded(s[1..], k - 1);
    }
  }

  /** Escaping loses nothing for labels without backslashes: unescaping recovers the label. */
  lemma {:induction false} UnescapeEscape(s: string)
    requires forall i :: 0 <= i < |s| ==> s[i] != '\\'
    ensures UnescapeApostrophes(EscapeApostrophes(s)) == s
  {
    if |s| > 0 {
      UnescapeEscape(s[1..]);
      var t := EscapeApostrophes(s[1..]);
      if s[0] == '\'' {
        assert EscapeApostrophes(s) == "\\'" + t;
        assert ("\\'" + t)[2..] == t;
      } else if |t| == 0 {
        assert EscapeApostrophes(s) == [s[0]];
      } else {
        assert EscapeApostrophes(s) == [s[0]] + t;
        assert ([s[0]] + t)[1..] == t;
      }
    }
  }
}

=== FILE: theme_state.dfy ===
/**
 * The theme preferences (preset, font, color mode) and their effect on the document's root
 * element: its class list, which carries the font class, and its `data-preset` attribute.
 */
module Theme {
  import opened Wrappers
  import Config

  const ValidModes: seq<string> := ["light", "dark", "system"]

  /** The string-literal union `ColorMode`. */
  type ColorMode = s: string | s in ValidModes witness "system"

  /** The class's mode list is the cookie allow-list of the configuration. */
  lemma ValidModesMatchConfig()
    ensures ValidModes == Config.ValidColorModes
  {
  }

  /** The font class the theme keeps on the root element: none for the system font. */
  function FontClass(font: string): (r: Option<string>)
    ensures r.None? <==> font == "system"
    ensures r.Some? ==> r.value == "font-" + font
  {
    if font != "system" then Some("font-" + font) else None
  }

  function AsSet(o: Option<string>): set<string> {
    if o.Some? then {o.value} else {}
  }

  /** The document's root element, as far as the theme touches it. */
  class RootElement {
    var classes: set<string>
    var dataPreset: Option<string>

    constructor (classes: set<string>, dataPreset: Option<string>)
      ensures this.classes == classes && this.dataPreset == dataPreset
    {
      this.classes := classes;
      this.dataPreset := dataPreset;
    }
  }

  class ThemeState {
    /** The names in the generated preset metadata. */
    const presetNames: seq<string>
    const root: RootElement
    const defaultPreset: string := Config.DefaultThemePreset
    const defaultFont: string := Config.DefaultFont

    var preset: string
    var font: string
    var mode: ColorMode
    var currentFontClass: Option<string>

    /** The tracked font class is always the one belonging to the current font. */
    ghost predicate Valid()
      reads this
    {
      currentFontClass == FontClass(font)
    }

    /**
     * Keeps the initial preset only if it names a generated preset, the initial font unless it is
     * empty, and the initial mode only if it is a valid mode.
     */
    constructor (presetNames: seq<string>, root: RootElement,
                 initialPreset: string, initialFont: string, initialMode: string)
      ensures Valid()
      ensures this.presetNames == presetNames && this.root == root
      ensures preset == (if initialPreset in presetNames then initialPreset else "default")
      ensures font == (if initialFont == "" then "inter" else initialFont)
      ensures mode == (if initialMode in ValidModes then initialMode else "system")
    {
      this.presetNames := presetNames;
      this.root := root;
      preset := if initialPreset in presetNames then initialPreset else Config.DefaultThemePreset;
      var f := if initialFont == "" then Config.DefaultFont else initialFont;
      font := f;
      mode := if initialMode in ValidModes then initialMode else Config.DefaultColorMode;
      currentFontClass := if f != "system" then Some("font-" + f) else None;
    }

    /** The mode actually shown: the chosen mode, or the system preference when the mode is `system`. */
    function ResolvedMode(systemDark: bool): (r: string)
      reads this
      ensures r == "light" || r == "dark"
      ensures mode != "system" ==> r == mode
      ensures mode == "system" ==> (r == "dark" <==> systemDark)
    {
      if mode == "system" then (if systemDark then "dark" else "light") else mode
    }

    /** Sets the preset; the root's `data-preset` is removed for `default` and set to the name otherwise. */
    method SetPreset(name: string)
      requires Valid()
      modifies this, root
      ensures Valid()
      ensures preset == name && font == old(font) && mode == old(mode)
      ensures currentFontClass == old(currentFontClass)
      ensures root.dataPreset == (if name == "default" then None else Some(name))
      ensures root.classes == old(root.classes)
    {
      preset := name;
      if name == Config.DefaultThemePreset {
        root.dataPreset := None;
      } else {
        root.dataPreset := Some(name);
      }
    }

    /**
     * Sets the font; on the root's class list only the previously tracked font class is removed
     * and the new font's class added (none for `system`), so every other class is untouched.
     */
    method SetFont(name: string)
      requires Valid()
      modifies this, root
      ensures Valid()
      ensures font == name && preset == old(preset) && mode == old(mode)
      ensures root.classes == (old(root.classes) - AsSet(old(currentFontClass))) + AsSet(FontClass(name))
      ensures forall c :: c !in AsSet(old(currentFontClass)) && c !in AsSet(FontClass(name))
                ==> (c in root.classes <==> c in old(root.classes))
      ensures root.dataPreset == old(root.dataPreset)
    {
      font := name;
      if currentFontClass.Some? {
        root.classes := root.classes - {currentFontClass.value};
        currentFontClass := None;
      }
      if name != "system" {
        var cls := "font-" + name;
        root.classes := root.classes + {cls};
        currentFontClass := Some(cls);
      }
    }

    method SetMode(value: ColorMode)
      requires Valid()
      modifies this
      ensures Valid()
      ensures mode == value && preset == old(preset) && font == old(font)
      ensures currentFontClass == old(currentFontClass)
    {
      mode := value;
    }

    /** Back to the `default` preset, the `inter` font and the `system` mode. */
    method Reset()
      requires Valid()
      modifies this, root
      ensures Valid()
      ensures preset == "default" && font == "inter" && mode == "system"
      ensures root.dataPreset == None
      ensures root.classes == (old(root.classes) - AsSet(old(currentFontClass))) + {"font-inter"}
    {
      SetPreset(defaultPreset);
      assert "font-" + "inter" == "font-inter";
      SetFont(defaultFont);
      SetMode(Config.DefaultColorMode);
    }
  }
}

=== FILE: url_filter_sync.dfy ===
/**
 * Filter state kept in the URL's query parameters: `update` writes several keys at once
 * (deleting those whose new value is empty) and `getList` reads a comma-separated list.
 */
module UrlFilterSync {
  import opened Wrappers
  import opened Text

  /** A `null` or empty new value deletes the key. */
  predicate Clears(value: Option<string>) {
    value.None? || value.value == ""
  }

  /** One entry's effect on the parameters. */
  function Step(params: map<string, string>, key: string, value: Option<string>): map<string, string> {
    if Clears(value) then params - {key} else params[key := value.value]
  }

  /** The parameters after the entries are applied in order. */
  function Applied(params: map<string, string>, entries: seq<(string, Option<string>)>): map<string, string>
    decreases |entries|
  {
    if |entries| == 0 then params
    else
      var last := entries[|entries| - 1];
      Step(Applied(params, entries[..|entries| - 1]), last.0, last.1)
  }

  /** The entries of a record: no key occurs twice. */
  predicate DistinctKeys(entries: seq<(string, Option<string>)>) {
    forall i, j :: 0 <= i < j < |entries| ==> entries[i].0 != entries[j].0
  }

  /** A key no entry names keeps its presence and its value. */
  lemma {:induction false} AppliedKeepsOthers(params: map<string, string>, entries: seq<(string, Option<string>)>, key: string)
    requires forall i :: 0 <= i < |entries| ==> entries[i].0 != key
    ensures key in Applied(params, entries) <==> key in params
    ensures key in params ==> Applied(params, entries)[key] == params[key]
  {
    if |entries| > 0 {
      AppliedKeepsOthers(params, entries[..|entries| - 1], key);
    }
  }

  /**
   * With distinct keys, an entry with a `null` or empty value leaves its key absent and any other
   * entry leaves its key holding that value.
   */
  lemma {:induction false} AppliedEntry(params: map<string, string>, entries: seq<(string, Option<string>)>, i: nat)
    requires DistinctKeys(entries) && i < |entries|
    ensures Clears(entries[i].1) ==> entries[i].0 !in Applied(params, entries)
    ensures !Clears(entries[i].1) ==>
              entries[i].0 in Applied(params, entries) && Applied(params, entries)[entries[i].0] == entries[i].1.value
  {
    var n := |entries|;
    if i < n - 1 {
      AppliedEntry(params, entries[..n - 1], i);
    }
  }

  class FilterSync {
    var params: map<string, string>

    /** Starts from the page URL's query parameters. */
    constructor (initial: map<string, string>)
      ensures params == initial
    {
      params := initial;
    }

    /** Applies the entries one by one: a `null` or empty value deletes the key, any other value sets it. */
    method Update(entries: seq<(string, Option<string>)>)
      modifies this
      ensures params == Applied(old(params), entries)
    {
      for i := 0 to |entries|
        invariant params == Applied(old(params), entries[..i])
      {
        var (key, value) := entries[i];
        if value.None? || value.value == "" {
          params := params - {key};
        } else {
          params := params[key := value.value];
        }
        assert entries[..i + 1][..i] == entries[..i];
      }
      assert entries[..|entries|] == entries;
    }

    /**
     * The comma-separated list stored under `key`: empty when the parameter is missing or empty,
     * otherwise one element more than there are commas, comma-free elements that join back to the
     * stored value.
     */
    function GetList(key: string): (r: seq<string>)
      reads this
      ensures r == [] <==> key !in params || params[key] == ""
      ensures r != [] ==> |r| == Count(params[key], ',') + 1
      ensures r != [] ==> Join(r, ",") == params[key]
      ensures forall k :: 0 <= k < |r| ==> !Contains(r[k], ",")
    {
      if key in params && params[key] != "" then
        SplitCount(params[key], ',');
        JoinSplit(params[key], ",");
        Split(params[key], ",")
      else
        []
    }
  }

  /**
   * A list stored as its comma-joined text (the way a caller writes it through `update`) reads back
   * as the same list, as long as its elements contain no comma and the joined text is not empty.
   */
  lemma GetListOfJoined(sync: FilterSync, key: string, list: seq<string>)
    requires |list| > 0 && forall k :: 0 <= k < |list| ==> !Contains(list[k], ",")
    requires Join(list, ",") != ""
    requires key in sync.params && sync.params[key] == Join(list, ",")
    ensures sync.GetList(key) == list
  {
    SplitJoin(list, ',');
  }
}

=== FILE: wrappers.dfy ===
/** The optional value used wherever the source returns `null` or `undefined`. */
module Wrappers {

  datatype Option<+T> = None | Some(value: T) {

    /** The wrapped value, or `default` when there is none (the source's `x ?? default`). */
    function GetOr(default: T): T {
      match this
      case Some(v) => v
      case None => default
    }
  }
}
